=== FILE: README.md ===
# AI SDK core: step loop, stream transformers and provider adapters

This project is a Dafny model of the core of the TypeScript AI SDK:

- **`generateText`**. It checks `maxSteps`, then validates the prompt and converts it to the model's message format. Then it calls the model step by step: it executes the tools the model calls, decides whether the next step is a tool round trip, a continuation of a response cut off by length, or done, and keeps the message history, the accumulated usage and the text (module `GenerateText`). The validation and conversion it imports from `packages/ai/core/prompt` are not part of this model; `GenerateText.GenerateText` uses the `Prompt` helpers below in their place.
- **`toResponseMessages`**. It builds the assistant message and the tool message a step appends to the history (`ResponseMessages`).
- **Prompts**. The `packages/core/core` versions of `getValidatedPrompt`, `convertToLanguageModelPrompt` and `convertToLanguageModelMessage` (`Prompt`). `generateText` does not import these files; the model uses them as stand-ins for the helpers it does import.
- **`runToolsTransformation`**. It merges a provider stream with the results of the tools it starts. Text, metadata and errors pass through. Tool-call deltas become streaming starts and deltas. Tool calls are parsed and dispatched. The results side closes when upstream has flushed and no execution is outstanding (`ToolStream`).
- **The streaming side of `streamObject`**. The mode resolution, the JSON and tool mode transformers, the materializer and the `partialObjectStream` and `textStream` views (`ObjectStream`). The materializer accumulates text, emits each new partial object with its text delta, and settles the object at `finish`.
- **Providers**. `mapGoogleVertexFinishReason` (`Vertex`), and parts of three provider adapters: Google Generative AI (`Google`), Cohere (`Cohere`) and Amazon Bedrock (`Bedrock`). For each adapter the model covers its request-building helpers, its stream transform and its `flush`.

Shared values live in `CoreTypes`: finish reasons, usage with `NaN` as `None`, tool calls, provider stream parts and call warnings. `Wrappers` provides `Option` and `Result`. Errors a function throws are `Failure` values. A stream transform that throws ends the stream in error. The transform of a default `TransformStream` runs only while a read is pending, so the first part it enqueues for a chunk answers that read and is delivered; the parts it queued after that are lost when the stream errors. Of the modelled transforms, only Cohere's enqueues anything before it throws.

Collaborators whose code is not part of this model are parameters:

- the model's `doGenerate` is a function from the step index and the prompt to a response;
- `generateId` is a sequence of ids read from a counter;
- `JSON.stringify` and `encodeURIComponent`;
- `parsePartialJson`, the output strategy's validators and `removeTextAfterLastWhitespace`;
- `detectImageMimeType` and `convertJSONSchemaToOpenAPISchema`;
- the Bedrock `prepareTools`;
- the finish-reason maps of Google, Cohere and Bedrock;
- `parseToolCall`, a `parse` parameter that turns one provider tool call into a typed call or an error; its file is not part of this model;
- tool execution, the `execute` function of each tool.

`GenerateText.GenerateText` takes `maxSteps` already resolved. `GenerateText.ResolveMaxSteps` models the parameter defaults that resolve it from the deprecated round-trip options.

Two behaviours of the code are worth stating plainly, because the model follows them:

- **A throwing tool.** `executeTools` awaits `Promise.all`, so a throwing `execute` rejects `generateText`; no tool result carries the error (`packages/ai/core/generate-text/generate-text.ts:543-618`). `GenerateText.ExecuteTools` returns that failure. A tool call that does not parse rejects `generateText` the same way, before any tool runs.
- **Continuation text.** The returned text is meant to be the text of the last logical message. The code also merges the text of a tool round-trip step that is followed by a continuation, both into the returned text and into the assistant message that step appends to the history. See "## Findings".

Behaviour of the code that the model keeps on purpose:

- A continuation step's own tool calls are never added to the history. A continuation is only chosen when the previous step made no tool calls.
- The materializer does not forward `response-metadata`. It does not reset the pending text delta after `finish`.
- Google maps a chunk's finish reason with the tool-call flag as it stood before that chunk's own tool calls.
- Google throws a `TypeError` on a parsed chunk without candidates.
- Cohere's `tool-calls-generation` throws a `TypeError` for an index whose deltas were never streamed.
- Bedrock throws a `TypeError` for a tool-use delta into a block that was never started.

## Model

| member | source | states |
|---|---|---|
| CoreTypes.AddTokens | packages/ai/core/generate-text/generate-text.ts:386-388 | Adding token counts gives a count only when both are counts, and then their sum; `NaN` absorbs. |
| CoreTypes.CalculateUsage | packages/ai/core/generate-object/stream-object.ts:821 | The completed usage keeps prompt and completion tokens, and its total is their sum whenever both are known. |
| CoreTypes.WarningsFor | packages/google/src/google-generative-ai-language-model.ts:81-102 | One unsupported-setting warning for exactly the flagged settings of a list, each at most once, in list order. |
| Prompt.AllSystemContentIsString | packages/core/core/prompt/get-validated-prompt.ts:34-43 | The check passes exactly when no message is a system message with non-string content. |
| Prompt.GetValidatedPrompt | packages/core/core/prompt/get-validated-prompt.ts:19-58 | Missing prompt and messages, both given, or a non-string system message each fail with their own error. Otherwise the prompt succeeds, keeping the system text and exactly the one input it was given. |
| Prompt.ConvertUserParts | packages/core/core/prompt/convert-to-language-model-prompt.ts:55-93 | User content converts part by part, in order, one output part per input part. |
| Prompt.ConvertUserImage | packages/core/core/prompt/convert-to-language-model-prompt.ts:72-88 | A converted image keeps its data. A declared MIME type wins; bytes without one take the detected type; a URL image is unchanged. |
| Prompt.RemoveEmptyTextMembers | packages/core/core/prompt/convert-to-language-model-prompt.ts:105-108 | Filtering an assistant message removes exactly its empty text parts. |
| Prompt.RemoveEmptyTextAppend | packages/core/core/prompt/convert-to-language-model-prompt.ts:105-108 | The empty-text filter distributes over concatenation, so it keeps the order of the surviving parts. |
| Prompt.RemoveEmptyTextIdentity | packages/core/core/prompt/convert-to-language-model-prompt.ts:105-108 | Parts without an empty text pass the filter unchanged. |
| Prompt.ConvertToLanguageModelMessage | packages/core/core/prompt/convert-to-language-model-prompt.ts:47-121 | System and tool messages keep their content. User string content becomes one text part and user parts convert one by one, exactly as `ConvertUserParts` does. Assistant string content becomes one text part, and assistant parts lose their empty texts. |
| Prompt.ConvertMessages | packages/core/core/prompt/convert-to-language-model-prompt.ts:31-36 | A message list converts message by message, in order. |
| Prompt.ConvertToLanguageModelPrompt | packages/core/core/prompt/convert-to-language-model-prompt.ts:12-45 | The system prompt, if any, comes first. Then a text prompt becomes one user message, or the messages convert one for one. |
| Prompt.LeadingSystemMessage | packages/core/core/prompt/convert-to-language-model-prompt.ts:17-36 | The converted prompt starts with a system message exactly when the caller gave a system prompt or the first message is a system message. |
| ResponseMessages.ToResponseMessages | packages/ai/core/generate-text/to-response-messages.ts:9-38 | One assistant message: the text (empty when absent) followed by every tool call in order. A tool message follows exactly when there are results, carrying each result in order. |
| ResponseMessages.ResultsReferenceCalls | packages/ai/core/generate-text/to-response-messages.ts:20-35 | When each result answers a call of the step, every tool result part names a tool call part of the assistant message. |
| GenerateText.ResolveMaxSteps | packages/ai/core/generate-text/generate-text.ts:93-95 | An explicit `maxSteps` wins. Otherwise the limit is one more than the tool round trips, which default to the automatic round trips; it is 1 when none is given. |
| GenerateText.ExecutableCalls | packages/ai/core/generate-text/generate-text.ts:560-562 | The calls kept for execution are exactly the calls whose tool has an executor. |
| GenerateText.ExecuteTools | packages/ai/core/generate-text/generate-text.ts:543-618 | Execution succeeds exactly when every executable call succeeds, giving one result per executable call in call order, carrying its call's id, name, arguments and value. Otherwise it fails with the error of a failing call. |
| GenerateText.ExecutableCallsBound | packages/ai/core/generate-text/generate-text.ts:615-617 | Calls without an executor produce no result, so every call has a result exactly when every call has an executor. |
| GenerateText.StepToolResults | packages/ai/core/generate-text/generate-text.ts:370-380 | Without tools a step has no results and cannot fail; with tools its results, or its failure, are those of `executeTools`. |
| GenerateText.ParseToolCallsSpec | packages/ai/core/generate-text/generate-text.ts:365-368 | Parsing succeeds exactly when every call parses, and then gives the parsed calls in order. Otherwise it fails with the error of the first call that does not parse. |
| GenerateText.StepOutcome | packages/ai/core/generate-text/generate-text.ts:365-380 | A call that does not parse fails the step with its error before any tool runs. Otherwise the step succeeds exactly when execution does, with the parsed calls and their results, and fails with the execution error. |
| GenerateText.StepToolResultsBound | packages/ai/core/generate-text/generate-text.ts:366-380 | A step never has more results than calls, and has one per call exactly when tools were given and every call has an executor. |
| GenerateText.NextStepType | packages/ai/core/generate-text/generate-text.ts:391-408 | The run stops at `maxSteps`. Below it, a step cut off by length without tool calls continues when continuation is on, and a step whose calls all have results leads to a tool round trip. Otherwise the run is done. |
| GenerateText.UpdateTextAsWritten | packages/ai/core/generate-text/generate-text.ts:417-420 | The text update as written: text accumulates when this step or the next is a continuation. |
| GenerateText.UpdateText | packages/ai/core/generate-text/generate-text.ts:417-420 | Corrected update: a continuation step appends its text; any other step starts the text afresh. |
| GenerateText.ContinuationAfterToolStepAsWritten | packages/ai/core/generate-text/generate-text.ts:417-420 | A tool round trip with text "Hi " followed by a length-cut step "Hello ": as written the returned text is "Hi Hello "; corrected it is "Hello ". |
| GenerateText.ChainTextStep | packages/ai/core/generate-text/generate-text.ts:417-420 | With the corrected update, the loop's text is always the last step's text preceded by the texts of the steps it continues. |
| GenerateText.ChainTextAsWrittenStep | packages/ai/core/generate-text/generate-text.ts:411-420 | With the update as written, the loop's text after each step is `ChainTextAsWritten` of the steps so far. |
| GenerateText.ChainTextAsWrittenCarries | packages/ai/core/generate-text/generate-text.ts:411-420 | For every sequence of steps, the text as written is the carried text followed by the corrected text, so the two agree exactly when nothing is carried. |
| GenerateText.NoRoundTripAsWrittenAgrees | packages/ai/core/generate-text/generate-text.ts:391-420 | In a chain without tool round trips nothing is carried, so the text as written and the corrected text agree. |
| GenerateText.ResponseMessagesStep | packages/ai/core/generate-text/generate-text.ts:442-489 | Under the corrected text update, a step that is not a continuation appends its response messages, carrying its own text; a continuation rewrites the last assistant message with the text of the chain it ends. |
| GenerateText.HistoryAsWrittenCarriesEarlierText | packages/ai/core/generate-text/generate-text.ts:417-467 | As written, a tool round-trip step "Hello " after a tool-calling step "Hi ", followed by a continuation, appends an assistant message holding "Hi Hello " to the response messages and to the next request's prompt; the corrected update appends "Hello ". |
| GenerateText.ResponseMessagesCount | packages/ai/core/generate-text/generate-text.ts:442-489 | The history holds one or two messages per step that is not a continuation, and none for a continuation. |
| GenerateText.ContinueMessage | packages/ai/core/generate-text/generate-text.ts:443-461 | A continuation rewrites the last assistant message: string content becomes the accumulated text, and part content gains the step text as a new last part. |
| GenerateText.MakeStep | packages/ai/core/generate-text/generate-text.ts:411-439 | The step record carries the step's type, calls, results, finish reason and completed usage. Its text is the response text (empty when absent), cut after the last whitespace exactly when a continuation follows. |
| GenerateText.ExtendHistoryEffect | packages/ai/core/generate-text/generate-text.ts:442-489 | A continuation replaces only the last response message, by its rewrite, and only the last prompt message, by that rewrite's conversion. Any other step keeps the history as a prefix and appends exactly its response messages and their conversions. |
| GenerateText.ExtendHistoryKeepsPrompt | packages/ai/core/generate-text/generate-text.ts:442-489 | After every step the prompt sent to the model is still the initial prompt followed by the converted response messages. |
| GenerateText.AdvanceStep | packages/ai/core/generate-text/generate-text.ts:366-491 | One iteration appends exactly one step record, decides the next step type from it, and updates the history as the step type demands. |
| GenerateText.TotalUsageStep | packages/ai/core/generate-text/generate-text.ts:383-388 | Adding a step adds its usage to the total and its messages to the count: none for a continuation, one or two otherwise. |
| GenerateText.AdvanceChain | packages/ai/core/generate-text/generate-text.ts:391-439 | Each iteration extends the chain with the step the previous one decided, keeping usage and text equal to their definitions. |
| GenerateText.AdvanceHistory | packages/ai/core/generate-text/generate-text.ts:442-489 | Each iteration keeps the prompt in step with the history and keeps a rewritable assistant message available for a continuation. |
| GenerateText.AdvanceTrace | packages/ai/core/generate-text/generate-text.ts:255-269 | Each iteration records one request per step; every request extends the initial prompt, and every step matches the response to its request. |
| GenerateText.FinishLoop | packages/ai/core/generate-text/generate-text.ts:491-538 | When the loop stops, the steps form a complete chain, one per request and at most `maxSteps`, with the total usage, the chain text and the message count the run promises. |
| GenerateText.FailLoop | packages/ai/core/generate-text/generate-text.ts:365-380 | A response whose calls fail to parse or to execute ends the run with that error; every earlier response was handled, and no more than `maxSteps` requests were sent. |
| GenerateText.RunResult | packages/ai/core/generate-text/generate-text.ts:523-537 | The result carries the text, usage, history and steps it is given, and the last step's tool calls, tool results and finish reason. |
| GenerateText.GenerateText | packages/ai/core/generate-text/generate-text.ts:198-538 | `maxSteps` below 1 and an invalid prompt fail before any model call. A run that fails later fails on the last request sent, whose tool calls did not parse or execute. A successful run has a complete step chain, one step per request built from that request's response, and calls the model at most `maxSteps` times, first on the converted initial prompt. Its text, usage and response messages are those the steps define, and its calls, results and finish reason are the last step's. |
| GenerateText.NoToolCallsSingleStep | packages/ai/core/generate-text/generate-text.ts:391-408 | Without continuation, a model that makes no tool calls is called exactly once. |
| GenerateText.ToolResultStepHasAllResults | packages/ai/core/generate-text/generate-text.ts:400-407 | A tool round trip follows only a step that made tool calls and has a result for every one of them. |
| GenerateText.ContinueStepFollowsLength | packages/ai/core/generate-text/generate-text.ts:393-399 | A continuation follows only a step cut off by length that made no tool calls, with continuation on, and that step is marked as continued. |
| GenerateText.MissingExecutorEndsRoundTrips | packages/ai/core/generate-text/generate-text.ts:400-407 | A call whose tool has no executor, or a run without tools, rules out a tool round trip. |
| GenerateText.TotalUsageAppend | packages/ai/core/generate-text/generate-text.ts:386-388 | The usage of two runs of steps is the field-wise sum of their usages. |
| GenerateText.UsageMonotone | packages/ai/core/generate-text/generate-text.ts:386-388 | A known token count never decreases as steps are added, and once `NaN` it stays `NaN`. |
| GenerateText.ChainTextCases | packages/ai/core/generate-text/generate-text.ts:411-420 | A run whose last step is not a continuation returns that step's text; a two-step run of a step and its continuation returns the two texts joined. |
| ToolStream.OnChunk | packages/ai/core/generate-text/run-tools-transformation.ts:109-270 | Text, metadata and errors pass through. A delta is dropped without tool-call streaming; with it, the delta is forwarded after a streaming start for a call not yet active. A call without tools or for an unknown tool emits `NoSuchToolError` on the results side. A known tool's call is parsed and forwarded; a parse error goes to the results side; an executor registers a fresh execution. A finish is forwarded with completed usage. |
| ToolStream.CloseIfDone | packages/ai/core/generate-text/run-tools-transformation.ts:211-213 | The results side closes once upstream has flushed and no execution is outstanding, and stays closed. |
| ToolStream.Step | packages/ai/core/generate-text/run-tools-transformation.ts:175-285 | A completion of an outstanding execution emits its result or its error on the results side and retires it. The flush marks upstream done and closes when nothing is outstanding. Nothing happens on later chunks or unknown completions. |
| ToolStream.InitialInv | packages/ai/core/generate-text/run-tools-transformation.ts:279-285 | The merge starts open, with nothing outstanding. |
| ToolStream.StepPreservesInv | packages/ai/core/generate-text/run-tools-transformation.ts:175-285 | Each event keeps execution ids fresh and keeps closed meaning flushed with nothing outstanding. |
| ToolStream.RunPreservesInv | packages/ai/core/generate-text/run-tools-transformation.ts:289-316 | Every interleaving of chunks, completions and the flush keeps that invariant. |
| ToolStream.RunAppend | packages/ai/core/generate-text/run-tools-transformation.ts:97-285 | The merge handles its events one at a time: two batches run back to back give the same state and output as the two run together. |
| ToolStream.ClosedIsFinal | packages/ai/core/generate-text/run-tools-transformation.ts:304-313 | Once the merged stream is closed nothing more is enqueued. |
| ToolStream.CompletionOnce | packages/ai/core/generate-text/run-tools-transformation.ts:208-245 | An execution completes at most once: a second completion of the same id emits nothing. |
| ToolStream.PassThroughInOrder | packages/ai/core/generate-text/run-tools-transformation.ts:109-116 | The forward side carries exactly upstream's text deltas, metadata and errors, in upstream order, whatever the interleaving. |
| ToolStream.PassThroughAfterFlush | packages/ai/core/generate-text/run-tools-transformation.ts:279-285 | After the flush nothing more passes through. |
| ToolStream.StreamingStartOncePerCall | packages/ai/core/generate-text/run-tools-transformation.ts:119-139 | Each call id gets at most one streaming start, and every forwarded delta follows its call's start. |
| ToolStream.StepKeepsOrder | packages/ai/core/generate-text/run-tools-transformation.ts:166-245 | One event keeps every tool result after the forwarded call it answers: a completion answers an outstanding execution, and an execution starts only for the call the same chunk forwards. |
| ToolStream.ResultsFollowCalls | packages/ai/core/generate-text/run-tools-transformation.ts:166-245 | Whatever the interleaving, every tool result is enqueued after the forwarded call with the same id, tool name and arguments. |
| ObjectStream.ResolveMode | packages/ai/core/generate-object/stream-object.ts:377-423 | No-schema output without a mode uses JSON mode. An explicit mode is kept. `auto` or no mode takes the model's default and fails when the model has none. |
| ObjectStream.ControlPart | packages/ai/core/generate-object/stream-object.ts:472-476 | Exactly metadata, finish and error parts pass the mode transformers unchanged. |
| ObjectStream.ModeTransform | packages/ai/core/generate-object/stream-object.ts:466-526 | JSON mode reads text deltas and tool mode reads tool-call argument deltas as text. Control parts pass, and every other part is dropped. |
| ObjectStream.TransformStreamSpec | packages/ai/core/generate-object/stream-object.ts:466-526 | The mode transformer is a filter-map: every input it yields comes from one provider part, and when every part maps, the inputs are the mapped parts in order. |
| ObjectStream.TransformStreamAppend | packages/ai/core/generate-object/stream-object.ts:466-526 | The transformer works part by part: the inputs of a concatenated stream are the inputs of its pieces, concatenated. |
| ObjectStream.OnText | packages/ai/core/generate-object/stream-object.ts:755-799 | A text chunk always extends the accumulated text. An object and its text delta are emitted exactly when the parse yields new JSON whose validated partial object differs from the last one, and then the pending delta resets. |
| ObjectStream.MergeResponse | packages/ai/core/generate-object/stream-object.ts:801-808 | Each metadata field given replaces the earlier one; absent fields keep it. |
| ObjectStream.OnFinish | packages/ai/core/generate-object/stream-object.ts:811-847 | `finish` flushes a non-empty pending delta, then the finish part. It records usage and finish reason and settles the object with the final validation of the last accepted JSON. |
| ObjectStream.Transform | packages/ai/core/generate-object/stream-object.ts:801-851 | Metadata updates the response without output; errors pass through. |
| ObjectStream.MaterializeAppend | packages/ai/core/generate-object/stream-object.ts:735-851 | The materializer handles its inputs one at a time: two batches run back to back give the same state and output as the two run together. |
| ObjectStream.AccumulatedTextIsConcatenation | packages/ai/core/generate-object/stream-object.ts:755-758 | The accumulated text is the concatenation of every text chunk received. |
| ObjectStream.JsonModeText | packages/ai/core/generate-object/stream-object.ts:466-479 | In JSON mode the materializer sees exactly the provider's text deltas, joined. |
| ObjectStream.ObjectsNeverRepeat | packages/ai/core/generate-object/stream-object.ts:775-786 | No emitted partial object equals the one emitted before it. |
| ObjectStream.EveryObjectHasTextDelta | packages/ai/core/generate-object/stream-object.ts:783-791 | Every object part is immediately followed by a text delta part. |
| ObjectStream.ObjectSettlesAtFinish | packages/ai/core/generate-object/stream-object.ts:834-845 | The object outcome settles at the first `finish` and never changes afterwards. |
| ObjectStream.FinishOutcome | packages/ai/core/generate-object/stream-object.ts:834-845 | The first finish settles the object as the final validation of the last accepted JSON. |
| ObjectStream.FirstError | packages/ai/core/generate-object/stream-object.ts:953-955 | The index of the first error part: none before it, and it is an error when inside the stream. |
| ObjectStream.PartialObjectStream | packages/ai/core/generate-object/stream-object.ts:941-964 | The view yields the objects before the first error and ends with that error, or ends normally when there is none. |
| ObjectStream.TextStream | packages/ai/core/generate-object/stream-object.ts:970-993 | The view yields the text deltas before the first error and ends with that error, or ends normally when there is none. |
| ObjectStream.ErrorFreeViews | packages/ai/core/generate-object/stream-object.ts:941-993 | Without an upstream error both views end normally and carry every object and every text delta. |
| Vertex.MapGoogleVertexFinishReason | packages/google-vertex/src/map-google-vertex-finish-reason.ts:4-28 | `STOP` maps to tool calls or stop by the flag, `MAX_TOKENS` to length, the five safety reasons to content filter, the unspecified and other reasons to other, and anything else or nothing to unknown. It never maps to error. |
| Vertex.HasToolCallsOnlyAffectsStop | packages/google-vertex/src/map-google-vertex-finish-reason.ts:11-15 | The tool-call flag matters only for `STOP`, and only `STOP` with tool calls yields tool calls. |
| Google.StripModelsPrefix | packages/google/src/google-generative-ai-language-model.ts:54-56 | A `models/` prefix is removed; any other model id is kept. |
| Google.GetArgsWarnings | packages/google/src/google-generative-ai-language-model.ts:81-102 | Frequency penalty, presence penalty and seed each warn exactly when given, without details, in that order. |
| Google.ChoiceConfig | packages/google/src/google-generative-ai-language-model.ts:467-494 | Only `none` forbids calls. `required` and a named tool force a call, and only a named tool restricts the allowed functions, to that tool. |
| Google.PrepareToolsAndToolConfig | packages/google/src/google-generative-ai-language-model.ts:441-500 | No tools or an empty list sends neither tools nor config. Otherwise one declaration per tool, in order, with the description defaulting to empty and the schema converted; a config exactly when a choice was given. |
| Google.FunctionCalls | packages/google/src/google-generative-ai-language-model.ts:353-376 | The function-call parts in order; there are none exactly when every part is text. |
| Google.GetToolCallsFromParts | packages/google/src/google-generative-ai-language-model.ts:353-376 | `undefined` exactly when every part is text. Otherwise one call per function-call part, in order, each with a fresh id and the stringified arguments. |
| Google.ToolCallsComeFromParts | packages/google/src/google-generative-ai-language-model.ts:353-376 | Every tool call names the function of a function-call part. |
| Google.GetTextFromParts | packages/google/src/google-generative-ai-language-model.ts:378-386 | `undefined` exactly when no part is text; otherwise the texts joined in order. |
| Google.TextFromPartsAppend | packages/google/src/google-generative-ai-language-model.ts:378-386 | The text of a split response is the text of its first parts followed by the text of the rest. |
| Google.OnContent | packages/google/src/google-generative-ai-language-model.ts:305-338 | A text delta with the joined text when there is text. Then, per call, a delta carrying the complete arguments followed by the call; the tool-call flag is set exactly when there are calls. |
| Google.OnChunk | packages/google/src/google-generative-ai-language-model.ts:273-339 | A parse failure emits its error. A chunk without candidates throws. Otherwise the finish reason is mapped with the previous tool-call flag and usage is replaced when reported. |
| Google.RunChunks | packages/google/src/google-generative-ai-language-model.ts:273-339 | The transform never emits `finish`, every call directly follows its complete delta, and tool calls are only flagged from a parsed chunk. |
| Google.DoStream | packages/google/src/google-generative-ai-language-model.ts:258-343 | Unless a chunk threw, the stream ends with exactly one `finish` carrying the last finish reason and usage. |
| Cohere.SplitChatPrompt | packages/cohere/src/cohere-chat-language-model.ts:72-108 | The history is every message but the last. The message is the last one's text exactly when it is a user message; the tool results are its results exactly when it is a tool message. |
| Cohere.MapParameterType | packages/cohere/src/cohere-chat-language-model.ts:429-454 | `string`, `number`, `integer` and `boolean` map to `str`, `float`, `int` and `bool`; any other type fails with the non-primitive error. |
| Cohere.ObjectProperties | packages/cohere/src/cohere-chat-language-model.ts:424-426 | Exactly the properties given as schema objects are considered. |
| Cohere.Definition | packages/cohere/src/cohere-chat-language-model.ts:456-460 | A definition keeps the key and description, maps the type, and is required exactly when the key is listed as required. |
| Cohere.MapTool | packages/cohere/src/cohere-chat-language-model.ts:419-468 | A tool maps exactly when its parameter definitions do, failing with their error; a mapped tool keeps its name and description and carries those definitions. |
| Cohere.ParameterDefinitions | packages/cohere/src/cohere-chat-language-model.ts:419-463 | The definitions succeed exactly when every object property has a primitive type, one per property in order; otherwise the non-primitive error. |
| Cohere.MapTools | packages/cohere/src/cohere-chat-language-model.ts:419-470 | Mapping succeeds exactly when every tool maps, keeping order, name and description; otherwise the non-primitive error. |
| Cohere.ToolsNamed | packages/cohere/src/cohere-chat-language-model.ts:492-496 | The filter keeps exactly the tools with the chosen name, each as often as it occurs. |
| Cohere.ToolsNamedAppend | packages/cohere/src/cohere-chat-language-model.ts:492-496 | The filter keeps the order of the tools: filtering a concatenation filters each part in turn. |
| Cohere.PrepareToolsAndToolChoice | packages/cohere/src/cohere-chat-language-model.ts:408-504 | No tools means none are sent. `auto` or no choice sends all tools unforced, `required` forces them, `none` drops them, and a named tool sends only that tool, forced. |
| Cohere.GetArgs | packages/cohere/src/cohere-chat-language-model.ts:68-133 | Object JSON and object tool modes are unsupported. Regular mode sends the split prompt with the prepared tools. |
| Cohere.GenerateToolCalls | packages/cohere/src/cohere-chat-language-model.ts:155-164 | No tool calls in the response gives none. Otherwise one call per response call, in order, with a fresh id and the stringified parameters. |
| Cohere.Allocate | packages/cohere/src/cohere-chat-language-model.ts:246-253 | The first delta of an index creates its entry with the next fresh id and an empty name; a known index is unchanged. |
| Cohere.OnDelta | packages/cohere/src/cohere-chat-language-model.ts:242-276 | A non-empty name renames the call and emits an empty delta under it. Otherwise non-empty parameters are emitted under the call's id and name, and otherwise nothing. Other entries are untouched. |
| Cohere.CompleteCalls | packages/cohere/src/cohere-chat-language-model.ts:278-292 | Completion succeeds exactly when every index was streamed, emitting one call per entry with its streamed id and name and the stringified parameters; otherwise a `TypeError`. |
| Cohere.OnChunk | packages/cohere/src/cohere-chat-language-model.ts:222-307 | A parse failure sets the finish reason to error and emits it. Text passes as a delta, deltas and completions as above, and `stream-end` records the mapped finish reason and usage. |
| Cohere.FirstDelivered | packages/cohere/src/cohere-chat-language-model.ts:278-292 | Only a `tool-calls-generation` chunk throws. Of its parts the reader still gets at most one: the first call, exactly when index 0 was streamed, as completion of that first call alone gives it. |
| Cohere.RunChunks | packages/cohere/src/cohere-chat-language-model.ts:218-309 | The transform itself never emits `finish`; only the flush does. |
| Cohere.ThrowDeliversFirstCall | packages/cohere/src/cohere-chat-language-model.ts:218-309 | A stream that throws at a chunk delivers the earlier chunks' parts, then that chunk's first call if it enqueued one, then the error; later chunks are never read. |
| Cohere.RunChunksAppend | packages/cohere/src/cohere-chat-language-model.ts:218-309 | Once a chunk throws, later chunks are never read; otherwise the next chunks continue from the state the earlier ones left. |
| Cohere.DoStream | packages/cohere/src/cohere-chat-language-model.ts:204-316 | Unless a chunk threw, the stream ends with exactly one `finish` carrying the last finish reason and usage. |
| Cohere.OnChunkKeepsIdsAllocated | packages/cohere/src/cohere-chat-language-model.ts:242-276 | Each chunk keeps every entry's id drawn from the generator and no two entries share an id. |
| Cohere.StreamIdsStable | packages/cohere/src/cohere-chat-language-model.ts:222-307 | Over a whole stream, an entry keeps its id once created, and ids stay distinct. |
| Bedrock.GetArgsWarnings | packages/amazon-bedrock/src/bedrock-chat-language-model.ts:76-112 | Each unsupported setting warns exactly when it applies, with its details, in source order. |
| Bedrock.GetArgsWarningsBySetting | packages/amazon-bedrock/src/bedrock-chat-language-model.ts:78-112 | Frequency penalty, presence penalty, seed and top-k warn exactly when given; only the response-format warning carries details. |
| Bedrock.PlainSettingWarns | packages/amazon-bedrock/src/bedrock-chat-language-model.ts:78-104 | A setting other than the response format warns, without details, exactly when given. |
| Bedrock.ResponseFormatWarning | packages/amazon-bedrock/src/bedrock-chat-language-model.ts:106-112 | Only a JSON response format warns, with the JSON-not-supported details. |
| Bedrock.InferenceConfigOf | packages/amazon-bedrock/src/bedrock-chat-language-model.ts:116-129 | The inference config is sent exactly when one of max tokens, temperature, top-p or stop sequences is given, and carries exactly those. |
| Bedrock.BaseCommand | packages/amazon-bedrock/src/bedrock-chat-language-model.ts:116-131 | The base command carries the settings' inference config; keys given in the Bedrock provider metadata are spread on top, so its inference config and tool config win. |
| Bedrock.GetArgs | packages/amazon-bedrock/src/bedrock-chat-language-model.ts:114-178 | JSON mode fails. Every other mode sends the base command's inference config. Regular mode sends the prepared tools when there are some, else the base command's tool config, and appends the tools' warnings. Tool mode sends exactly the object's tool, with its name, description and schema, and forces it. |
| Bedrock.GetUrl | packages/amazon-bedrock/src/bedrock-chat-language-model.ts:454-457 | The URL is the base URL, then `/model/`, then the encoded model id. |
| Bedrock.GetUrlDistinguishesModels | packages/amazon-bedrock/src/bedrock-chat-language-model.ts:454-457 | Under one base URL, two model ids share a URL only when they encode alike. |
| Bedrock.FirstException | packages/amazon-bedrock/src/bedrock-chat-language-model.ts:316-331 | The reported exception is the first present of internal server, model stream, throttling and validation, checked in that order; there is none exactly when all are absent. |
| Bedrock.OnStart | packages/amazon-bedrock/src/bedrock-chat-language-model.ts:388-396 | A tool-use start registers its block with its id, name and no argument text; other starts change nothing. |
| Bedrock.OnToolDelta | packages/amazon-bedrock/src/bedrock-chat-language-model.ts:398-417 | A delta into a registered block is emitted under its id and name and appended to its text; into an unknown block it throws. |
| Bedrock.OnStop | packages/amazon-bedrock/src/bedrock-chat-language-model.ts:419-436 | Stopping a registered block emits the complete call with its accumulated text and forgets the block; other stops change nothing. |
| Bedrock.OnContent | packages/amazon-bedrock/src/bedrock-chat-language-model.ts:333-436 | A chunk without exception updates finish reason and usage. It emits a text delta, then the tool delta, then the stopped block's call; a block start registers its block and emits nothing. The blocks left are those after the start, the delta and the stop. It throws only for a delta into an unknown block, and never emits a `finish`. |
| Bedrock.OnChunk | packages/amazon-bedrock/src/bedrock-chat-language-model.ts:301-437 | A parse failure or an exception sets the finish reason to error and emits the error; other chunks are handled as content. |
| Bedrock.RunChunks | packages/amazon-bedrock/src/bedrock-chat-language-model.ts:297-437 | The transform itself never emits `finish`; only the flush does. |
| Bedrock.RunChunksAppend | packages/amazon-bedrock/src/bedrock-chat-language-model.ts:297-437 | Once a chunk throws, later chunks are never read; otherwise the next chunks continue from the state the earlier ones left. |
| Bedrock.DoStream | packages/amazon-bedrock/src/bedrock-chat-language-model.ts:301-445 | Unless a chunk threw, the stream ends with exactly one `finish` carrying the last finish reason and usage. |
| Bedrock.OnChunkAppendsDelta | packages/amazon-bedrock/src/bedrock-chat-language-model.ts:398-417 | A chunk that neither starts nor stops a registered block appends its tool-use input to that block's text. |
| Bedrock.BlockTextIsConcatenation | packages/amazon-bedrock/src/bedrock-chat-language-model.ts:398-417 | While a block is neither restarted nor stopped, its text is its old text followed by every delta streamed into it. |
| Bedrock.ToolCallArgsAreStreamedDeltas | packages/amazon-bedrock/src/bedrock-chat-language-model.ts:388-436 | A tool call's arguments are exactly the concatenated deltas streamed into its block since its start. |

## Left out

- HTTP requests (`postJsonToApi`), headers, retries, abort signals, raw responses and response headers: I/O outside the core logic.
- Telemetry spans and attributes, and the `onStepFinish` and `onFinish` callbacks: observers that do not change the results.
- Warnings and logprobs of a step, and provider metadata of `generateText`: they are copied through unchanged.
- `doGenerate` of the providers and the model itself: the model is a parameter of `GenerateText.GenerateText`.
- `convertToGoogleGenerativeAIMessages`, `convertToCohereChatPrompt` and `convertToBedrockChatMessages`: these are other files. Cohere's converted prompt is an input of `Cohere.SplitChatPrompt`.
- The Bedrock `prepareTools` and the finish-reason maps of Google, Cohere and Bedrock: these are other files, so they are parameters.
- The Google `generationConfig` and the per-mode request bodies of Google `getArgs`: they forward settings unchanged. Only tool preparation is modelled.
- The standardized settings Cohere forwards in its request body: forwarded unchanged.
- Bedrock provider metadata (cache usage and trace): the model's `finish` carries none.
- The array and enum output strategies and `elementStream` of `streamObject`: the strategy is a parameter, and element streams belong to the array strategy.
- The `fullStream` view, the `object`, `usage` and `response` promises, and the `flush` of the materializer: timing of promises is not modelled. The object outcome is a field of the materializer state.
- Asynchronous timing of tool executions in the stream merge: interleavings are an explicit sequence of events, and every interleaving is covered.
- CoreTypes.CalculateUsage: the source of `calculateLanguageModelUsage` is not part of this model. Its total is taken to be prompt plus completion tokens, which matches the summed usage in `packages/ai/core/generate-text/generate-text.test.ts:533-539`.
- `NaN` arithmetic is modelled as `None`; the real numbers of the settings are only checked for presence.
- GenerateText.ExecuteTools: with several failing executors, the source rejects with whichever failure `Promise.all` sees first. The model states only that the error is that of some failing call; its definition picks the first one in call order.
- GenerateText.GenerateText: the loop uses the corrected text update of "## Findings", not the one as written. So where the source's returned text, response messages and later requests carry the earlier step's text ("Hi Hello "), the model's carry only the continued message ("Hello ").
- GenerateText.ResponseMessagesStep: states the response messages under the corrected text update. As written, a tool round-trip step followed by a continuation appends the accumulated text instead of its own (`GenerateText.HistoryAsWrittenCarriesEarlierText`).
- Cohere.FirstDelivered: assumes one read is pending when the transform runs, as for a reader that awaits each part. A reader with several reads outstanding would get more of the throwing chunk's parts; that is not modelled.
- GenerateText.GenerateText: the source validates and converts the prompt with `validatePrompt` and `convertToLanguageModelPrompt` from `packages/ai/core/prompt` (`packages/ai/core/generate-text/generate-text.ts:7-14`, `235-249`), whose files are not part of this model. The model uses `Prompt.GetValidatedPrompt` and `Prompt.ConvertToLanguageModelPrompt` of `packages/core/core` in their place. The `modelSupportsImageUrls` argument it passes to the converter is not modelled.
- Prompt.ConvertUserImage: image data starts as bytes. The conversion of base64 text and buffers to bytes (`convertDataContentToUint8Array`, called at `packages/core/core/prompt/convert-to-language-model-prompt.ts:80`) and its failure on invalid base64 are not modelled; that helper's file is not part of this model.
- Bedrock.GetArgs: of the keys the Bedrock provider metadata can spread over the base command, only `inferenceConfig` and `toolConfig` are modelled; `system`, `messages` and `additionalModelRequestFields` come from the message converter and the settings, which are not part of this model.
- ToolStream.OnChunk: the order of the available tool names in `NoSuchToolError` is not modelled; they are a set.
- ToolStream.ResultsFollowCalls: states the order in which parts are enqueued on the two sides. The delivery order of the merged output, which interleaves the two sides as they are read (`packages/ai/core/generate-text/run-tools-transformation.ts:289-316`), is not modelled.

## Findings

| source | as written | input that shows it | evidently intended | confidence | as-written member | corrected member |
|---|---|---|---|---|---|---|
| packages/ai/core/generate-text/generate-text.ts:417-420 | The text accumulates when this step or the next step is a continuation, so a tool round-trip step followed by a continuation keeps the earlier step's text. The step then appends that text in its assistant message (lines 462-467), so the response messages and the next request's prompt carry it too. | With continuation on, a step with text "Hi " makes tool calls, then the tool round-trip step answers "Hello " and is cut off by length: the text becomes "Hi Hello " (`GenerateText.ContinuationAfterToolStepAsWritten`), and so does the assistant message appended to the history (`GenerateText.HistoryAsWrittenCarriesEarlierText`). Over every sequence of steps, the text as written is the carried text followed by the intended text. | Only a continuation appends its text to the message it continues; the returned text is the last step's text preceded by the continued steps' texts. | not executed | GenerateText.ChainTextAsWrittenCarries | GenerateText.ChainTextStep |

=== FILE: bedrock.dfy ===
/** The Amazon Bedrock chat adapter (`BedrockChatLanguageModel`): the
    warnings, inference configuration and mode switch of `getArgs`, the
    model URL, and the `doStream` transform, which reassembles tool calls
    from content blocks. */
module Bedrock {
  import opened Wrappers
  import opened CoreTypes

  // ---------------------------------------------------------------------
  // getArgs
  // ---------------------------------------------------------------------

  const WarningOrder: seq<Setting> := [FrequencyPenalty, PresencePenalty, Seed, TopK, ResponseFormatSetting]

  const JsonFormatDetails := "JSON response format is not supported."


  /** Each setting Bedrock does not support produces one warning, in a fixed
      order; a JSON response format is the only one that explains itself. */
  function GetArgsWarnings(settings: CallSettings): (r: seq<Warning>)
    ensures forall s :: s in WarningOrder ==> (UnsupportedSetting(s, Details(s)) in r <==> Warns(settings, s))
    ensures forall w :: w in r ==> w.setting in WarningOrder && w.details == Details(w.setting)
    ensures InOrder(r, WarningOrder)
  {
    WarningsFor(WarningOrder, s => Warns(settings, s), Details)
  }

  /** A response format warns only when it asks for JSON. */
  predicate Warns(settings: CallSettings, setting: Setting) {
    if setting == ResponseFormatSetting then settings.responseFormat.Some? && settings.responseFormat.value.JsonFormat?
    else Given(settings, setting)
  }

  function Details(setting: Setting): Option<string> {
    if setting == ResponseFormatSetting then Some(JsonFormatDetails) else None
  }

  /** The warnings setting by setting: penalties, seed and `topK` warn when
      given, a response format only when it asks for JSON. */
  lemma GetArgsWarningsBySetting(settings: CallSettings)
    ensures var r := GetArgsWarnings(settings);
            && (UnsupportedSetting(FrequencyPenalty, None) in r <==> settings.frequencyPenalty.Some?)
            && (UnsupportedSetting(PresencePenalty, None) in r <==> settings.presencePenalty.Some?)
            && (UnsupportedSetting(Seed, None) in r <==> settings.seed.Some?)
            && (UnsupportedSetting(TopK, None) in r <==> settings.topK.Some?)
            && forall w :: w in r ==> (w.details.Some? <==> w.setting == ResponseFormatSetting)
  {
    PlainSettingsWarn(settings);
    WarningDetails(settings);
  }

  lemma PlainSettingsWarn(settings: CallSettings)
    ensures var r := GetArgsWarnings(settings);
            && (UnsupportedSetting(FrequencyPenalty, None) in r <==> settings.frequencyPenalty.Some?)
            && (UnsupportedSetting(PresencePenalty, None) in r <==> settings.presencePenalty.Some?)
            && (UnsupportedSetting(Seed, None) in r <==> settings.seed.Some?)
            && (UnsupportedSetting(TopK, None) in r <==> settings.topK.Some?)
  {
    assert Warns(settings, FrequencyPenalty) == settings.frequencyPenalty.Some?;
    assert Warns(settings, PresencePenalty) == settings.presencePenalty.Some?;
    assert Warns(settings, Seed) == settings.seed.Some?;
    assert Warns(settings, TopK) == settings.topK.Some?;
    assert Details(FrequencyPenalty) == Details(PresencePenalty) == Details(Seed) == Details(TopK) == None;
    assert FrequencyPenalty in WarningOrder && PresencePenalty in WarningOrder && Seed in WarningOrder && TopK in WarningOrder;
  }

  lemma WarningDetails(settings: CallSettings)
    ensures forall w :: w in GetArgsWarnings(settings) ==> (w.details.Some? <==> w.setting == ResponseFormatSetting)
  {
    forall w | w in GetArgsWarnings(settings)
      ensures w.details.Some? <==> w.setting == ResponseFormatSetting
    {
      assert w.details == Details(w.setting);
    }
  }

  /** A setting other than the response format warns, without details,
      exactly when it was given. */
  lemma PlainSettingWarns(settings: CallSettings, setting: Setting)
    requires setting in WarningOrder && setting != ResponseFormatSetting
    ensures UnsupportedSetting(setting, None) in GetArgsWarnings(settings) <==> Given(settings, setting)
  {
    var r := GetArgsWarnings(settings);
    assert Details(setting) == None;
    assert Warns(settings, setting) == Given(settings, setting);
    assert UnsupportedSetting(setting, Details(setting)) in r <==> Warns(settings, setting);
  }

  /** Only a JSON response format draws the response-format warning, and
      that warning explains itself. */
  lemma ResponseFormatWarning(settings: CallSettings)
    ensures var r := GetArgsWarnings(settings);
            UnsupportedSetting(ResponseFormatSetting, Some(JsonFormatDetails)) in r <==>
              settings.responseFormat.Some? && settings.responseFormat.value.JsonFormat?
  {
    assert ResponseFormatSetting in WarningOrder;
  }

  datatype InferenceConfig = InferenceConfig(
    maxTokens: Option<nat>,
    temperature: Option<real>,
    topP: Option<real>,
    stopSequences: Option<seq<string>>)

  /** `inferenceConfig` is sent only when it would not be empty, and then
      carries exactly the four generation settings that were given. */
  function InferenceConfigOf(settings: CallSettings): (r: Option<InferenceConfig>)
    ensures r.Some? <==>
              settings.maxTokens.Some? || settings.temperature.Some? ||
              settings.topP.Some? || settings.stopSequences.Some?
    ensures r.Some? ==>
              && r.value.maxTokens == settings.maxTokens
              && r.value.temperature == settings.temperature
              && r.value.topP == settings.topP
              && r.value.stopSequences == settings.stopSequences
  {
    var config := InferenceConfig(settings.maxTokens, settings.temperature, settings.topP, settings.stopSequences);
    if config == InferenceConfig(None, None, None, None) then None else Some(config)
  }

  datatype ToolSpec = ToolSpec(name: string, description: Option<string>, inputSchema: Json)

  datatype BedrockToolChoice = ChooseAuto | ChooseAny | ChooseTool(name: string)

  datatype ToolConfig = ToolConfig(tools: Option<seq<ToolSpec>>, toolChoice: Option<BedrockToolChoice>)

  /** What `prepareTools` returns (that function is not part of this model;
      it is a parameter of `GetArgs`). */
  datatype PreparedTools = PreparedTools(toolConfig: ToolConfig, toolWarnings: seq<Warning>)

  /** The parts of the Converse command this model tracks. */
  datatype Command = Command(inferenceConfig: Option<InferenceConfig>, toolConfig: Option<ToolConfig>)

  datatype Args = Args(command: Command, warnings: seq<Warning>)

  /** The `bedrock` entry of the call's provider metadata, spread over the
      base command: a key that is present replaces the field of that name.
      Only the two fields this model tracks are represented. */
  datatype CommandOverrides = CommandOverrides(inferenceConfig: Option<InferenceConfig>, toolConfig: Option<ToolConfig>)

  /** The base command: the settings' inference configuration, then the
      provider metadata's keys on top. */
  function BaseCommand(settings: CallSettings, overrides: Option<CommandOverrides>): (r: Command)
    ensures overrides.None? ==> r == Command(InferenceConfigOf(settings), None)
    ensures overrides.Some? ==>
              && r.inferenceConfig == (if overrides.value.inferenceConfig.Some? then overrides.value.inferenceConfig
                                       else InferenceConfigOf(settings))
              && r.toolConfig == overrides.value.toolConfig
  {
    match overrides
    case None => Command(InferenceConfigOf(settings), None)
    case Some(o) =>
      Command(if o.inferenceConfig.Some? then o.inferenceConfig else InferenceConfigOf(settings), o.toolConfig)
  }

  /** `getArgs`. JSON mode is not supported; tool mode sends only the
      object's tool and forces it. `overrides` is `providerMetadata?.bedrock`. */
  function GetArgs(
    mode: CallMode<Json>,
    settings: CallSettings,
    overrides: Option<CommandOverrides>,
    prepareTools: (Option<seq<FunctionTool<Json>>>, Option<ToolChoice>) -> PreparedTools): (r: Result<Args, ErrorValue>)
    ensures r.Failure? <==> mode.ObjectJson?
    ensures mode.ObjectJson? ==> r == Failure(UnsupportedFunctionalityError("json-mode object generation"))
    ensures r.Success? ==> r.value.command.inferenceConfig == BaseCommand(settings, overrides).inferenceConfig
    ensures mode.Regular? ==>
              var prepared := prepareTools(mode.tools, mode.toolChoice);
              var sendsTools := prepared.toolConfig.tools.Some? && |prepared.toolConfig.tools.value| > 0;
              && r.Success?
              && r.value.warnings == GetArgsWarnings(settings) + prepared.toolWarnings
              && (sendsTools ==> r.value.command.toolConfig == Some(prepared.toolConfig))
              && (!sendsTools ==> r.value.command.toolConfig == BaseCommand(settings, overrides).toolConfig)
    ensures mode.ObjectTool? ==>
              && r.Success?
              && r.value.warnings == GetArgsWarnings(settings)
              && r.value.command.toolConfig.Some?
              && r.value.command.toolConfig.value.tools.Some?
              && |r.value.command.toolConfig.value.tools.value| == 1
              && r.value.command.toolConfig.value.tools.value[0].name == mode.tool.name
              && r.value.command.toolConfig.value.tools.value[0].description == mode.tool.description
              && r.value.command.toolConfig.value.tools.value[0].inputSchema == mode.tool.parameters
              && r.value.command.toolConfig.value.toolChoice == Some(ChooseTool(mode.tool.name))
  {
    var warnings := GetArgsWarnings(settings);
    var base := BaseCommand(settings, overrides);
    var inference := base.inferenceConfig;
    match mode
    case Regular(tools, toolChoice) =>
      var prepared := prepareTools(tools, toolChoice);
      var toolConfig :=
        if prepared.toolConfig.tools.Some? && |prepared.toolConfig.tools.value| > 0
        then Some(prepared.toolConfig) else base.toolConfig;
      Success(Args(Command(inference, toolConfig), warnings + prepared.toolWarnings))
    case ObjectJson(_) => Failure(UnsupportedFunctionalityError("json-mode object generation"))
    case ObjectTool(tool) =>
      var spec := ToolSpec(tool.name, tool.description, tool.parameters);
      Success(Args(Command(inference, Some(ToolConfig(Some([spec]), Some(ChooseTool(tool.name))))), warnings))
  }

  // ---------------------------------------------------------------------
  // getUrl
  // ---------------------------------------------------------------------

  const ModelPath := "/model/"

  /** `getUrl`; `encode` is `encodeURIComponent`. */
  function GetUrl(baseUrl: string, modelId: string, encode: string -> string): (r: string)
    ensures |r| == |baseUrl| + |ModelPath| + |encode(modelId)|
    ensures r[..|baseUrl|] == baseUrl
    ensures r[|baseUrl|..|baseUrl| + |ModelPath|] == ModelPath
    ensures r[|baseUrl| + |ModelPath|..] == encode(modelId)
  {
    baseUrl + ModelPath + encode(modelId)
  }

  /** Under one base URL, two model ids share a URL only if they encode
      alike, so an injective encoding gives every model its own URL. */
  lemma GetUrlDistinguishesModels(baseUrl: string, a: string, b: string, encode: string -> string)
    requires GetUrl(baseUrl, a, encode) == GetUrl(baseUrl, b, encode)
    ensures encode(a) == encode(b)
  {
    var ua := GetUrl(baseUrl, a, encode);
    assert ua[|baseUrl| + |ModelPath|..] == encode(a);
    assert GetUrl(baseUrl, b, encode)[|baseUrl| + |ModelPath|..] == encode(b);
  }

  // ---------------------------------------------------------------------
  // doStream
  // ---------------------------------------------------------------------

  datatype ToolUseStart = ToolUseStart(toolUseId: string, name: string)

  datatype BlockStart = BlockStart(contentBlockIndex: nat, toolUse: Option<ToolUseStart>)

  datatype Delta = TextBlockDelta(text: string) | ToolUseBlockDelta(input: string)

  datatype BlockDelta = BlockDelta(contentBlockIndex: nat, delta: Option<Delta>)

  datatype MetadataUsage = MetadataUsage(inputTokens: nat, outputTokens: nat)

  /** A Converse stream event. Each field may be absent; the exceptions carry
      their payload. */
  datatype Chunk = Chunk(
    internalServerException: Option<Json>,
    modelStreamErrorException: Option<Json>,
    throttlingException: Option<Json>,
    validationException: Option<Json>,
    messageStop: Option<string>,
    metadata: Option<Option<MetadataUsage>>,
    contentBlockStart: Option<BlockStart>,
    contentBlockDelta: Option<BlockDelta>,
    contentBlockStop: Option<nat>)

  /** The exception a chunk reports, the four kinds checked in this order. */
  function FirstException(chunk: Chunk): (r: Option<Json>)
    ensures r.None? <==>
              chunk.internalServerException.None? && chunk.modelStreamErrorException.None? &&
              chunk.throttlingException.None? && chunk.validationException.None?
    ensures chunk.internalServerException.Some? ==> r == chunk.internalServerException
    ensures chunk.internalServerException.None? && chunk.modelStreamErrorException.Some? ==>
              r == chunk.modelStreamErrorException
    ensures (chunk.internalServerException.None? && chunk.modelStreamErrorException.None? &&
             chunk.throttlingException.Some?) ==> r == chunk.throttlingException
    ensures (chunk.internalServerException.None? && chunk.modelStreamErrorException.None? &&
             chunk.throttlingException.None?) ==> r == chunk.validationException
  {
    if chunk.internalServerException.Some? then chunk.internalServerException
    else if chunk.modelStreamErrorException.Some? then chunk.modelStreamErrorException
    else if chunk.throttlingException.Some? then chunk.throttlingException
    else chunk.validationException
  }

  /** A tool-use content block being streamed. */
  datatype ToolBlock = ToolBlock(toolCallId: string, toolName: string, jsonText: string)

  /** The variables the transform closes over (provider metadata aside). */
  datatype StreamState = StreamState(finishReason: FinishReason, usage: ProviderUsage, blocks: map<nat, ToolBlock>)

  const InitialStreamState := StreamState(Unknown, ProviderUsage(None, None), map[])

  datatype ChunkOut = ChunkOut(state: StreamState, out: seq<StreamPart>)

  /** A `toolUse` start registers its block with no argument text yet. */
  function OnStart(blocks: map<nat, ToolBlock>, start: Option<BlockStart>): (r: map<nat, ToolBlock>)
    ensures start.Some? && start.value.toolUse.Some? ==>
              r == blocks[start.value.contentBlockIndex :=
                            ToolBlock(start.value.toolUse.value.toolUseId, start.value.toolUse.value.name, "")]
    ensures start.None? || start.value.toolUse.None? ==> r == blocks
  {
    if start.Some? && start.value.toolUse.Some? then
      blocks[start.value.contentBlockIndex := ToolBlock(start.value.toolUse.value.toolUseId, start.value.toolUse.value.name, "")]
    else blocks
  }

  /** A `toolUse` delta is emitted under its block's id and name and appended
      to the block's text; a delta for a block never started throws a
      `TypeError`. */
  function OnToolDelta(blocks: map<nat, ToolBlock>, index: nat, input: string): (r: Result<(map<nat, ToolBlock>, StreamPart), ErrorValue>)
    ensures r.Success? <==> index in blocks
    ensures r.Failure? ==> r.error.TypeError?
    ensures r.Success? ==>
              && r.value.0 == blocks[index := blocks[index].(jsonText := blocks[index].jsonText + input)]
              && r.value.1 == ToolCallDeltaPart(blocks[index].toolCallId, blocks[index].toolName, input)
  {
    if index !in blocks then Failure(TypeError("Cannot read properties of undefined (reading 'toolCallId')"))
    else
      var block := blocks[index];
      Success((blocks[index := block.(jsonText := block.jsonText + input)],
               ToolCallDeltaPart(block.toolCallId, block.toolName, input)))
  }

  /** A block stop on a tool block emits the complete call and forgets the
      block; a stop on any other block emits nothing. */
  function OnStop(blocks: map<nat, ToolBlock>, index: nat): (r: (map<nat, ToolBlock>, seq<StreamPart>))
    ensures index in blocks ==>
              && r.0 == blocks - {index}
              && r.1 == [ToolCallPart(blocks[index].toolCallId, blocks[index].toolName, blocks[index].jsonText)]
    ensures index !in blocks ==> r == (blocks, [])
  {
    if index in blocks then
      var block := blocks[index];
      (blocks - {index}, [ToolCallPart(block.toolCallId, block.toolName, block.jsonText)])
    else (blocks, [])
  }

  /** `mapBedrockFinishReason` is not part of this model. */
  datatype StreamConfig = StreamConfig(mapFinishReason: string -> FinishReason)

  function TextDeltaOf(delta: Option<BlockDelta>): seq<StreamPart> {
    if delta.Some? && delta.value.delta.Some? && delta.value.delta.value.TextBlockDelta? &&
       |delta.value.delta.value.text| > 0
    then [TextDeltaPart(delta.value.delta.value.text)]
    else []
  }

  /** The tool-use delta a chunk carries, if any. */
  predicate HasToolDelta(chunk: Chunk) {
    chunk.contentBlockDelta.Some? && chunk.contentBlockDelta.value.delta.Some? &&
    chunk.contentBlockDelta.value.delta.value.ToolUseBlockDelta?
  }

  /** A parsed chunk without exception: the finish reason, the usage, a text
      delta, a block start, a tool delta and a block stop, in that order. */
  function OnContent(state: StreamState, chunk: Chunk, cfg: StreamConfig): (r: Result<ChunkOut, ErrorValue>)
    ensures r.Failure? <==>
              HasToolDelta(chunk) &&
              chunk.contentBlockDelta.value.contentBlockIndex !in OnStart(state.blocks, chunk.contentBlockStart)
    ensures r.Failure? ==> r.error.TypeError?
    ensures r.Success? ==>
              && NoFinish(r.value.out)
              && r.value.state.finishReason ==
                   (if chunk.messageStop.Some? then cfg.mapFinishReason(chunk.messageStop.value) else state.finishReason)
              && r.value.state.usage ==
                   (if chunk.metadata.None? then state.usage
                    else if chunk.metadata.value.None? then ProviderUsage(None, None)
                    else ProviderUsage(Some(chunk.metadata.value.value.inputTokens), Some(chunk.metadata.value.value.outputTokens)))
    // The parts: the text delta, then the tool delta, then the call of the
    // stopped block; a block start registers its block and emits nothing.
    ensures r.Success? ==>
              var started := OnStart(state.blocks, chunk.contentBlockStart);
              var delta := if HasToolDelta(chunk)
                           then var d := OnToolDelta(started, chunk.contentBlockDelta.value.contentBlockIndex,
                                                     chunk.contentBlockDelta.value.delta.value.input).value;
                                (d.0, [d.1])
                           else (started, []);
              var stopped := if chunk.contentBlockStop.Some? then OnStop(delta.0, chunk.contentBlockStop.value)
                             else (delta.0, []);
              && r.value.out == TextDeltaOf(chunk.contentBlockDelta) + delta.1 + stopped.1
              && r.value.state.blocks == stopped.0
  {
    var finishReason := if chunk.messageStop.Some? then cfg.mapFinishReason(chunk.messageStop.value) else state.finishReason;
    var usage :=
      if chunk.metadata.None? then state.usage
      else if chunk.metadata.value.None? then ProviderUsage(None, None)
      else ProviderUsage(Some(chunk.metadata.value.value.inputTokens), Some(chunk.metadata.value.value.outputTokens));
    var textOut := TextDeltaOf(chunk.contentBlockDelta);
    var started := OnStart(state.blocks, chunk.contentBlockStart);
    var afterDelta: Result<(map<nat, ToolBlock>, seq<StreamPart>), ErrorValue> :=
      if HasToolDelta(chunk) then
        var d := OnToolDelta(started, chunk.contentBlockDelta.value.contentBlockIndex, chunk.contentBlockDelta.value.delta.value.input);
        if d.Failure? then Failure(d.error) else Success((d.value.0, [d.value.1]))
      else Success((started, []));
    if afterDelta.Failure? then Failure(afterDelta.error)
    else
      var stopped := if chunk.contentBlockStop.Some? then OnStop(afterDelta.value.0, chunk.contentBlockStop.value)
                     else (afterDelta.value.0, []);
      Success(ChunkOut(StreamState(finishReason, usage, stopped.0), textOut + afterDelta.value.1 + stopped.1))
  }

  /** The transform on one chunk. A chunk that failed to parse, or that
      reports an exception, emits one `error` part, sets the finish reason
      to `error`, and is otherwise ignored. */
  function OnChunk(state: StreamState, chunk: Result<Chunk, ErrorValue>, cfg: StreamConfig): (r: Result<ChunkOut, ErrorValue>)
    ensures chunk.Failure? ==> r == Success(ChunkOut(state.(finishReason := Error), [ErrorPart(chunk.error)]))
    ensures chunk.Success? && FirstException(chunk.value).Some? ==>
              r == Success(ChunkOut(state.(finishReason := Error), [ErrorPart(Thrown(FirstException(chunk.value).value))]))
    ensures chunk.Success? && FirstException(chunk.value).None? ==> r == OnContent(state, chunk.value, cfg)
    ensures r.Success? ==> NoFinish(r.value.out)
  {
    if chunk.Failure? then Success(ChunkOut(state.(finishReason := Error), [ErrorPart(chunk.error)]))
    else
      var exception := FirstException(chunk.value);
      if exception.Some? then Success(ChunkOut(state.(finishReason := Error), [ErrorPart(Thrown(exception.value))]))
      else OnContent(state, chunk.value, cfg)
  }

  /** The parts read from the stream, and the error it ended with, if any. */
  datatype StreamRun = StreamRun(state: StreamState, out: seq<StreamPart>, failure: Option<ErrorValue>)

  /** The transform over the chunks; a throw ends the stream in error and the
      throwing chunk's parts are lost with it. */
  function RunChunks(state: StreamState, chunks: seq<Result<Chunk, ErrorValue>>, cfg: StreamConfig): (r: StreamRun)
    ensures NoFinish(r.out)
    decreases |chunks|
  {
    if |chunks| == 0 then StreamRun(state, [], None)
    else
      var step := OnChunk(state, chunks[0], cfg);
      if step.Failure? then StreamRun(state, [], Some(step.error))
      else
        var rest := RunChunks(step.value.state, chunks[1..], cfg);
        StreamRun(rest.state, step.value.out + rest.out, rest.failure)
  }

  /** A throw ends the stream: once a batch of chunks has thrown, later
      chunks are never read. Otherwise the next batch continues from the
      state the first one left. */
  lemma {:induction false} RunChunksAppend(state: StreamState, a: seq<Result<Chunk, ErrorValue>>,
                                           b: seq<Result<Chunk, ErrorValue>>, cfg: StreamConfig)
    ensures var ra := RunChunks(state, a, cfg);
            var rb := RunChunks(ra.state, b, cfg);
            RunChunks(state, a + b, cfg) ==
              if ra.failure.Some? then ra else StreamRun(rb.state, ra.out + rb.out, rb.failure)
    decreases |a|
  {
    if |a| == 0 {
      assert a + b == b;
    } else {
      assert (a + b)[0] == a[0];
      assert (a + b)[1..] == a[1..] + b;
      var step := OnChunk(state, a[0], cfg);
      if step.Success? {
        RunChunksAppend(step.value.state, a[1..], b, cfg);
        var ra' := RunChunks(step.value.state, a[1..], cfg);
        var rb := RunChunks(ra'.state, b, cfg);
        ConcatAssoc(step.value.out, ra'.out, rb.out);
      }
    }
  }

  /** The whole `doStream` stream: unless a chunk threw, `flush` closes it
      with exactly one `finish` carrying the last finish reason and usage. */
  function DoStream(chunks: seq<Result<Chunk, ErrorValue>>, cfg: StreamConfig): (r: StreamRun)
    ensures r.failure.Some? ==> NoFinish(r.out)
    ensures r.failure.None? ==> EndsWithOneFinish(r.out, FinishPart(r.state.finishReason, r.state.usage, None))
  {
    var run := RunChunks(InitialStreamState, chunks, cfg);
    if run.failure.Some? then run
    else
      var out := run.out + [FinishPart(run.state.finishReason, run.state.usage, None)];
      assert out[..|out| - 1] == run.out;
      run.(out := out)
  }

  // ---------------------------------------------------------------------
  // Tool-call reassembly
  // ---------------------------------------------------------------------

  /** The chunk starts or stops block `index`. */
  predicate TouchesBlock(chunk: Result<Chunk, ErrorValue>, index: nat) {
    chunk.Success? &&
    ((chunk.value.contentBlockStart.Some? && chunk.value.contentBlockStart.value.contentBlockIndex == index &&
      chunk.value.contentBlockStart.value.toolUse.Some?) ||
     chunk.value.contentBlockStop == Some(index))
  }

  /** The argument text a chunk streams into block `index`. */
  function DeltaInput(chunk: Result<Chunk, ErrorValue>, index: nat): string {
    if chunk.Success? && FirstException(chunk.value).None? && HasToolDelta(chunk.value) &&
       chunk.value.contentBlockDelta.value.contentBlockIndex == index
    then chunk.value.contentBlockDelta.value.delta.value.input
    else ""
  }

  function DeltaInputs(chunks: seq<Result<Chunk, ErrorValue>>, index: nat): string {
    if |chunks| == 0 then "" else DeltaInput(chunks[0], index) + DeltaInputs(chunks[1..], index)
  }

  /** A chunk that neither starts nor stops a registered block appends its
      delta for that block, if any, and leaves the block otherwise alone. */
  lemma OnChunkAppendsDelta(state: StreamState, chunk: Result<Chunk, ErrorValue>, cfg: StreamConfig, index: nat)
    requires index in state.blocks && !TouchesBlock(chunk, index)
    requires OnChunk(state, chunk, cfg).Success?
    ensures var next := OnChunk(state, chunk, cfg).value.state;
            index in next.blocks &&
            next.blocks[index] == state.blocks[index].(jsonText := state.blocks[index].jsonText + DeltaInput(chunk, index))
  {
    if chunk.Success? && FirstException(chunk.value).None? {
      var c := chunk.value;
      var started := OnStart(state.blocks, c.contentBlockStart);
      assert index in started && started[index] == state.blocks[index];
    }
  }

  /** While block `index` is neither restarted nor stopped, its text is the
      text it had followed by the deltas streamed into it, in order. */
  lemma {:induction false} BlockTextIsConcatenation(state: StreamState, chunks: seq<Result<Chunk, ErrorValue>>, cfg: StreamConfig, index: nat)
    requires index in state.blocks
    requires forall i :: 0 <= i < |chunks| ==> !TouchesBlock(chunks[i], index)
    requires RunChunks(state, chunks, cfg).failure.None?
    ensures var final := RunChunks(state, chunks, cfg).state;
            index in final.blocks &&
            final.blocks[index] == state.blocks[index].(jsonText := state.blocks[index].jsonText + DeltaInputs(chunks, index))
    decreases |chunks|
  {
    if |chunks| == 0 {
    } else {
      var step := OnChunk(state, chunks[0], cfg);
      var rest := RunChunks(step.value.state, chunks[1..], cfg);
      assert step.Success? && rest.failure.None? && RunChunks(state, chunks, cfg).state == rest.state;
      OnChunkAppendsDelta(state, chunks[0], cfg, index);
      assert forall i :: 0 <= i < |chunks[1..]| ==> !TouchesBlock(chunks[1..][i], index) by {
        assert forall i :: 0 <= i < |chunks[1..]| ==> chunks[1..][i] == chunks[i + 1];
      }
      BlockTextIsConcatenation(step.value.state, chunks[1..], cfg, index);
      assert DeltaInputs(chunks, index) == DeltaInput(chunks[0], index) + DeltaInputs(chunks[1..], index);
      AppendTwice(state.blocks[index], step.value.state.blocks[index], rest.state.blocks[index],
                  DeltaInput(chunks[0], index), DeltaInputs(chunks[1..], index), DeltaInputs(chunks, index));
    }
  }

  lemma AppendTwice(b: ToolBlock, mid: ToolBlock, last: ToolBlock, d: string, ds: string, all: string)
    requires mid == b.(jsonText := b.jsonText + d) && last == mid.(jsonText := mid.jsonText + ds) && all == d + ds
    ensures last == b.(jsonText := b.jsonText + all)
  {
    assert (b.jsonText + d) + ds == b.jsonText + (d + ds);
  }

  /** A tool call's arguments are exactly the deltas streamed into its block:
      after a start registers block `index`, and chunks that neither restart
      nor stop it, a chunk that stops it (and carries no exception, start or
      delta for it) emits the call with the concatenated deltas as its
      arguments. */
  lemma ToolCallArgsAreStreamedDeltas(
    state: StreamState, chunks: seq<Result<Chunk, ErrorValue>>, cfg: StreamConfig,
    index: nat, stop: Chunk)
    requires index in state.blocks && state.blocks[index].jsonText == ""
    requires forall i :: 0 <= i < |chunks| ==> !TouchesBlock(chunks[i], index)
    requires RunChunks(state, chunks, cfg).failure.None?
    requires FirstException(stop).None? && stop.contentBlockStart.None? && !HasToolDelta(stop)
    requires stop.contentBlockStop == Some(index)
    ensures var final := RunChunks(state, chunks, cfg).state;
            var r := OnChunk(final, Success(stop), cfg);
            && r.Success?
            && |r.value.out| > 0
            && r.value.out[|r.value.out| - 1] ==
                 ToolCallPart(state.blocks[index].toolCallId, state.blocks[index].toolName, DeltaInputs(chunks, index))
            && index !in r.value.state.blocks
  {
    BlockTextIsConcatenation(state, chunks, cfg, index);
    var final := RunChunks(state, chunks, cfg).state;
    assert final.blocks[index].jsonText == DeltaInputs(chunks, index) by {
      assert state.blocks[index].jsonText + DeltaInputs(chunks, index) == DeltaInputs(chunks, index);
    }
    var stopped := OnStop(final.blocks, index);
    assert stopped.1 == [ToolCallPart(state.blocks[index].toolCallId, state.blocks[index].toolName, DeltaInputs(chunks, index))];
    var r := OnContent(final, stop, cfg);
    assert r.Success? && r.value.out == TextDeltaOf(stop.contentBlockDelta) + stopped.1 by {
      assert OnStart(final.blocks, stop.contentBlockStart) == final.blocks;
    }
  }
}

=== FILE: cohere.dfy ===
/** The Cohere chat adapter (`CohereChatLanguageModel`): how `getArgs` splits
    the converted prompt into history and current message, how tools and the
    tool choice are translated, how a generated response's tool calls are
    read, and the tool-index bookkeeping of the `doStream` transform. */
module Cohere {
  import opened Wrappers
  import opened CoreTypes

  // ---------------------------------------------------------------------
  // Messages
  // ---------------------------------------------------------------------

  /** A message of the converted chat prompt (`convertToCohereChatPrompt` is
      not part of this model; its output is the input here). */
  datatype CohereMessage =
    | SystemMessage(message: string)
    | UserMessage(message: string)
    | ChatbotMessage(message: string, toolCalls: seq<Json>)
    | ToolMessage(toolResults: seq<Json>)

  /** `chat_history`, `message` and `tool_results` of the request body;
      `None` stands for an absent or `undefined` field. */
  datatype MessageArgs = MessageArgs(chatHistory: seq<CohereMessage>, message: Option<string>, toolResults: Option<seq<Json>>)

  /** Cohere separates the current message from the history: the last message
      becomes `message` when it is a user message and `tool_results` when it
      is a tool message; every other message is history. */
  function SplitChatPrompt(chatPrompt: seq<CohereMessage>): (r: MessageArgs)
    ensures |chatPrompt| == 0 ==> r == MessageArgs([], None, None)
    ensures |chatPrompt| > 0 ==> r.chatHistory + [chatPrompt[|chatPrompt| - 1]] == chatPrompt
    ensures r.message.Some? <==> |chatPrompt| > 0 && chatPrompt[|chatPrompt| - 1].UserMessage?
    ensures r.message.Some? ==> UserMessage(r.message.value) == chatPrompt[|chatPrompt| - 1]
    ensures r.toolResults.Some? <==> |chatPrompt| > 0 && chatPrompt[|chatPrompt| - 1].ToolMessage?
    ensures r.toolResults.Some? ==> ToolMessage(r.toolResults.value) == chatPrompt[|chatPrompt| - 1]
  {
    if |chatPrompt| == 0 then MessageArgs([], None, None)
    else
      var last := chatPrompt[|chatPrompt| - 1];
      MessageArgs(
        chatPrompt[..|chatPrompt| - 1],
        if last.UserMessage? then Some(last.message) else None,
        if last.ToolMessage? then Some(last.toolResults) else None)
  }

  // ---------------------------------------------------------------------
  // prepareToolsAndToolChoice
  // ---------------------------------------------------------------------

  /** A property of a tool's JSON schema: a boolean schema, or a schema
      object with its `type` (any JSON value, absent as `None`) and
      `description`. */
  datatype PropertySchema =
    | BooleanSchema(b: bool)
    | ObjectSchema(typeName: Option<Json>, description: Option<string>)

  /** The parts of a tool's parameter schema Cohere reads. */
  datatype ParametersSchema = ParametersSchema(properties: Option<seq<(string, PropertySchema)>>, required: Option<seq<string>>)

  datatype ParameterType = Str | Float | Int | Bool

  datatype ParameterDefinition = ParameterDefinition(key: string, required: bool, paramType: ParameterType, description: Option<string>)

  datatype CohereTool = CohereTool(name: string, description: Option<string>, parameterDefinitions: seq<ParameterDefinition>)

  const NonPrimitiveMessage := "tool call parameter of non-primitive type"

  predicate IsPrimitiveTypeName(typeName: Option<Json>) {
    typeName.Some? && typeName.value.JStr? &&
    (typeName.value.s == "string" || typeName.value.s == "number" ||
     typeName.value.s == "integer" || typeName.value.s == "boolean")
  }

  /** Only the four primitive JSON types have a Cohere counterpart. */
  function MapParameterType(typeName: Option<Json>): (r: Result<ParameterType, ErrorValue>)
    ensures r.Success? <==> IsPrimitiveTypeName(typeName)
    ensures r.Failure? ==> r.error == UnsupportedFunctionalityError(NonPrimitiveMessage)
    ensures r == Success(Str) <==> typeName == Some(JStr("string"))
    ensures r == Success(Float) <==> typeName == Some(JStr("number"))
    ensures r == Success(Int) <==> typeName == Some(JStr("integer"))
    ensures r == Success(Bool) <==> typeName == Some(JStr("boolean"))
  {
    if typeName == Some(JStr("string")) then Success(Str)
    else if typeName == Some(JStr("number")) then Success(Float)
    else if typeName == Some(JStr("integer")) then Success(Int)
    else if typeName == Some(JStr("boolean")) then Success(Bool)
    else Failure(UnsupportedFunctionalityError(NonPrimitiveMessage))
  }

  /** The properties given as schema objects; boolean schemas are skipped. */
  function ObjectProperties(properties: seq<(string, PropertySchema)>): (r: seq<(string, PropertySchema)>)
    ensures forall p :: p in r <==> p in properties && p.1.ObjectSchema?
  {
    if |properties| == 0 then []
    else if properties[0].1.ObjectSchema? then [properties[0]] + ObjectProperties(properties[1..])
    else ObjectProperties(properties[1..])
  }

  function IsRequired(key: string, required: Option<seq<string>>): bool {
    required.Some? && key in required.value
  }

  /** The definition of one object property whose type is primitive. */
  function Definition(property: (string, PropertySchema), required: Option<seq<string>>): (r: ParameterDefinition)
    requires property.1.ObjectSchema? && IsPrimitiveTypeName(property.1.typeName)
    ensures r.key == property.0
    ensures r.required <==> required.Some? && property.0 in required.value
    ensures Success(r.paramType) == MapParameterType(property.1.typeName)
    ensures r.description == property.1.description
  {
    ParameterDefinition(property.0, IsRequired(property.0, required), MapParameterType(property.1.typeName).value, property.1.description)
  }

  /** One definition per property, in order. */
  function Definitions(props: seq<(string, PropertySchema)>, required: Option<seq<string>>): (r: seq<ParameterDefinition>)
    requires forall p :: p in props ==> p.1.ObjectSchema? && IsPrimitiveTypeName(p.1.typeName)
    ensures |r| == |props|
    ensures forall k :: 0 <= k < |props| ==> r[k] == Definition(props[k], required)
  {
    if |props| == 0 then [] else [Definition(props[0], required)] + Definitions(props[1..], required)
  }

  /** `parameterDefinitions` of one tool, one entry per object property.
      The source throws at the first property of non-primitive type; every
      such throw carries the same error, so the outcome depends only on
      whether there is one. */
  function ParameterDefinitions(properties: seq<(string, PropertySchema)>, required: Option<seq<string>>): (r: Result<seq<ParameterDefinition>, ErrorValue>)
    ensures r.Success? <==> forall p :: p in ObjectProperties(properties) ==> IsPrimitiveTypeName(p.1.typeName)
    ensures r.Failure? ==> r.error == UnsupportedFunctionalityError(NonPrimitiveMessage)
    ensures r.Success? ==>
              var props := ObjectProperties(properties);
              && |r.value| == |props|
              && forall k :: 0 <= k < |props| ==>
                   && r.value[k].key == props[k].0
                   && (r.value[k].required <==> required.Some? && props[k].0 in required.value)
                   && Success(r.value[k].paramType) == MapParameterType(props[k].1.typeName)
                   && r.value[k].description == props[k].1.description
  {
    var props := ObjectProperties(properties);
    if forall p :: p in props ==> IsPrimitiveTypeName(p.1.typeName) then
      var defs := Definitions(props, required);
      assert forall k :: 0 <= k < |props| ==> defs[k] == Definition(props[k], required) && props[k] in props;
      Success(defs)
    else Failure(UnsupportedFunctionalityError(NonPrimitiveMessage))
  }

  /** One tool in Cohere's form: its name, description and parameter
      definitions; it fails exactly when its parameter definitions do. */
  function MapTool(tool: FunctionTool<ParametersSchema>): (r: Result<CohereTool, ErrorValue>)
    ensures var definitions := ParameterDefinitions(tool.parameters.properties.GetOr([]), tool.parameters.required);
            && (r.Success? <==> definitions.Success?)
            && (r.Failure? ==> r.error == definitions.error)
            && (r.Success? ==>
                  && r.value.name == tool.name && r.value.description == tool.description
                  && r.value.parameterDefinitions == definitions.value)
  {
    var definitions := ParameterDefinitions(tool.parameters.properties.GetOr([]), tool.parameters.required);
    if definitions.Failure? then Failure(definitions.error)
    else Success(CohereTool(tool.name, tool.description, definitions.value))
  }

  /** `tools.map(...)`: fails with the first tool whose schema fails. */
  function MapTools(tools: seq<FunctionTool<ParametersSchema>>): (r: Result<seq<CohereTool>, ErrorValue>)
    ensures r.Success? <==> forall i :: 0 <= i < |tools| ==> MapTool(tools[i]).Success?
    ensures r.Success? ==> |r.value| == |tools| && forall i :: 0 <= i < |tools| ==> r.value[i] == MapTool(tools[i]).value
    ensures r.Failure? ==> r.error == UnsupportedFunctionalityError(NonPrimitiveMessage)
  {
    if |tools| == 0 then Success([])
    else
      var head := MapTool(tools[0]);
      if head.Failure? then Failure(head.error)
      else
        var rest := MapTools(tools[1..]);
        if rest.Failure? then rest else Success([head.value] + rest.value)
  }

  /** `tools.filter(tool => tool.name === name)`. */
  function ToolsNamed(tools: seq<CohereTool>, name: string): (r: seq<CohereTool>)
    ensures forall t :: t in r <==> t in tools && t.name == name
    ensures forall t :: multiset(r)[t] == if t.name == name then multiset(tools)[t] else 0
    decreases |tools|
  {
    if |tools| == 0 then []
    else
      var rest := ToolsNamed(tools[1..], name);
      assert tools == [tools[0]] + tools[1..];
      if tools[0].name == name then [tools[0]] + rest else rest
  }

  /** The filter keeps the order of the tools it keeps: filtering a
      concatenation filters each part in turn. */
  lemma {:induction false} ToolsNamedAppend(a: seq<CohereTool>, b: seq<CohereTool>, name: string)
    ensures ToolsNamed(a + b, name) == ToolsNamed(a, name) + ToolsNamed(b, name)
    decreases |a|
  {
    if |a| == 0 {
      assert a + b == b;
    } else {
      assert (a + b)[0] == a[0];
      assert (a + b)[1..] == a[1..] + b;
      ToolsNamedAppend(a[1..], b, name);
      ConcatAssoc([a[0]], ToolsNamed(a[1..], name), ToolsNamed(b, name));
    }
  }

  /** `tools` (`None` for `undefined`) and `force_single_step` (`None` when the
      field is not set at all). */
  datatype ToolSetup = ToolSetup(tools: Option<seq<CohereTool>>, forceSingleStep: Option<bool>)

  /** Cohere has no `none` and no named-tool choice: `none` drops the tools,
      and a named tool keeps only that tool and forces a single step. */
  function PrepareToolsAndToolChoice(tools: Option<seq<FunctionTool<ParametersSchema>>>, toolChoice: Option<ToolChoice>): (r: Result<ToolSetup, ErrorValue>)
    ensures tools.None? || |tools.value| == 0 ==> r == Success(ToolSetup(None, None))
    ensures tools.Some? && |tools.value| > 0 ==>
              && (r.Success? <==> MapTools(tools.value).Success?)
              && (r.Failure? ==> r.error == UnsupportedFunctionalityError(NonPrimitiveMessage))
    ensures tools.Some? && |tools.value| > 0 && r.Success? ==>
              var mapped := MapTools(tools.value).value;
              && (toolChoice.None? || toolChoice == Some(Auto) ==> r.value == ToolSetup(Some(mapped), Some(false)))
              && (toolChoice == Some(Required) ==> r.value == ToolSetup(Some(mapped), Some(true)))
              && (toolChoice == Some(NoTools) ==> r.value == ToolSetup(None, Some(false)))
              && (toolChoice.Some? && toolChoice.value.SpecificTool? ==>
                    && r.value.forceSingleStep == Some(true)
                    && r.value.tools.Some?
                    && forall t :: t in r.value.tools.value <==> t in mapped && t.name == toolChoice.value.toolName)
  {
    if tools.None? || |tools.value| == 0 then Success(ToolSetup(None, None))
    else
      var mapped := MapTools(tools.value);
      if mapped.Failure? then Failure(mapped.error)
      else if toolChoice.None? then Success(ToolSetup(Some(mapped.value), Some(false)))
      else
        match toolChoice.value
        case Auto => Success(ToolSetup(Some(mapped.value), Some(false)))
        case Required => Success(ToolSetup(Some(mapped.value), Some(true)))
        case NoTools => Success(ToolSetup(None, Some(false)))
        case SpecificTool(name) => Success(ToolSetup(Some(ToolsNamed(mapped.value, name)), Some(true)))
  }

  // ---------------------------------------------------------------------
  // getArgs
  // ---------------------------------------------------------------------

  /** The request body `getArgs` builds, the standardized settings aside,
      which it forwards unchanged. `jsonSchema` is `Some` when
      `response_format` is a JSON object format, carrying its schema. */
  datatype CohereArgs = CohereArgs(messages: MessageArgs, jsonSchema: Option<Option<Json>>, tools: ToolSetup)

  function GetArgs(mode: CallMode<ParametersSchema>, chatPrompt: seq<CohereMessage>, settings: CallSettings): (r: Result<CohereArgs, ErrorValue>)
    ensures mode.ObjectJson? ==> r == Failure(UnsupportedFunctionalityError("object-json mode"))
    ensures mode.ObjectTool? ==> r == Failure(UnsupportedFunctionalityError("object-tool mode"))
    ensures mode.Regular? ==>
              && (r.Success? <==> PrepareToolsAndToolChoice(mode.tools, mode.toolChoice).Success?)
              && (r.Success? ==>
                    && r.value.messages == SplitChatPrompt(chatPrompt)
                    && r.value.tools == PrepareToolsAndToolChoice(mode.tools, mode.toolChoice).value
                    && (r.value.jsonSchema.Some? <==> settings.responseFormat.Some? && settings.responseFormat.value.JsonFormat?)
                    && (r.value.jsonSchema.Some? ==> r.value.jsonSchema.value == settings.responseFormat.value.schema))
  {
    var messages := SplitChatPrompt(chatPrompt);
    var jsonSchema :=
      if settings.responseFormat.Some? && settings.responseFormat.value.JsonFormat?
      then Some(settings.responseFormat.value.schema) else None;
    match mode
    case Regular(tools, toolChoice) =>
      var setup := PrepareToolsAndToolChoice(tools, toolChoice);
      if setup.Failure? then Failure(setup.error) else Success(CohereArgs(messages, jsonSchema, setup.value))
    case ObjectJson(_) => Failure(UnsupportedFunctionalityError("object-json mode"))
    case ObjectTool(_) => Failure(UnsupportedFunctionalityError("object-tool mode"))
  }

  // ---------------------------------------------------------------------
  // doGenerate tool calls
  // ---------------------------------------------------------------------

  datatype ResponseToolCall = ResponseToolCall(name: string, parameters: Json)

  /** The tool calls of a generated response. A response without
      `tool_calls` has none; the `k`-th call takes id `ids(nextId + k)`. */
  function GenerateToolCalls(toolCalls: Option<seq<ResponseToolCall>>, nextId: nat, ids: nat -> string, stringify: Json -> string): (r: seq<ProviderToolCall>)
    ensures toolCalls.None? ==> r == []
    ensures toolCalls.Some? ==>
              && |r| == |toolCalls.value|
              && forall k :: 0 <= k < |r| ==>
                   r[k] == ProviderToolCall(ids(nextId + k), toolCalls.value[k].name, stringify(toolCalls.value[k].parameters))
    decreases if toolCalls.Some? then |toolCalls.value| else 0
  {
    if toolCalls.None? || |toolCalls.value| == 0 then []
    else
      var call := toolCalls.value[0];
      [ProviderToolCall(ids(nextId), call.name, stringify(call.parameters))]
        + GenerateToolCalls(Some(toolCalls.value[1..]), nextId + 1, ids, stringify)
  }

  // ---------------------------------------------------------------------
  // doStream
  // ---------------------------------------------------------------------

  datatype ToolCallDelta = ToolCallDelta(index: nat, name: Option<string>, parameters: Option<string>)

  /** A stream event, by `event_type`. */
  datatype Chunk =
    | StreamStart
    | SearchQueriesGeneration
    | SearchResults
    | TextGeneration(text: string)
    | CitationGeneration
    | ToolCallsGeneration(toolCalls: seq<ResponseToolCall>)
    | ToolCallsChunk(toolCallDelta: Option<ToolCallDelta>)
    | StreamEnd(finishReason: string, inputTokens: nat, outputTokens: nat)

  /** An entry of the transform's sparse `toolCalls` array. */
  datatype StreamedCall = StreamedCall(toolCallId: string, toolName: string)

  /** The variables the transform closes over; `nextId` counts the ids used. */
  datatype StreamState = StreamState(finishReason: FinishReason, usage: ProviderUsage, toolCalls: map<nat, StreamedCall>, nextId: nat)

  const InitialStreamState := StreamState(Unknown, ProviderUsage(None, None), map[], 0)

  /** `generateId` as the sequence `ids`, `JSON.stringify`, and
      `mapCohereFinishReason`. */
  datatype StreamConfig = StreamConfig(ids: nat -> string, stringify: Json -> string, mapFinishReason: string -> FinishReason)

  datatype ChunkOut = ChunkOut(state: StreamState, out: seq<StreamPart>)

  /** A truthy string: present and not empty. */
  predicate Truthy(s: Option<string>) {
    s.Some? && |s.value| > 0
  }

  /** The entry for `index`, created with a fresh id on first sight. */
  function Allocate(state: StreamState, index: nat, cfg: StreamConfig): (r: StreamState)
    ensures index in r.toolCalls
    ensures index in state.toolCalls ==> r == state
    ensures index !in state.toolCalls ==>
              && r.toolCalls == state.toolCalls[index := StreamedCall(cfg.ids(state.nextId), "")]
              && r.nextId == state.nextId + 1
    ensures r.finishReason == state.finishReason && r.usage == state.usage
  {
    if index in state.toolCalls then state
    else state.(toolCalls := state.toolCalls[index := StreamedCall(cfg.ids(state.nextId), "")], nextId := state.nextId + 1)
  }

  /** A `tool-calls-chunk` delta. A non-empty name renames the call and emits
      an empty delta; otherwise non-empty parameters are emitted as a delta. */
  function OnDelta(state: StreamState, delta: ToolCallDelta, cfg: StreamConfig): (r: ChunkOut)
    ensures delta.index in r.state.toolCalls
    ensures delta.index in state.toolCalls ==>
              r.state.toolCalls[delta.index].toolCallId == state.toolCalls[delta.index].toolCallId &&
              r.state.nextId == state.nextId
    ensures delta.index !in state.toolCalls ==>
              r.state.toolCalls[delta.index].toolCallId == cfg.ids(state.nextId) &&
              r.state.nextId == state.nextId + 1
    ensures forall i :: i in state.toolCalls && i != delta.index ==>
              i in r.state.toolCalls && r.state.toolCalls[i] == state.toolCalls[i]
    ensures r.state.toolCalls.Keys == state.toolCalls.Keys + {delta.index}
    ensures Truthy(delta.name) ==>
              && r.state.toolCalls[delta.index].toolName == delta.name.value
              && r.out == [ToolCallDeltaPart(r.state.toolCalls[delta.index].toolCallId, delta.name.value, "")]
    ensures !Truthy(delta.name) && Truthy(delta.parameters) ==>
              r.out == [ToolCallDeltaPart(r.state.toolCalls[delta.index].toolCallId,
                                          r.state.toolCalls[delta.index].toolName, delta.parameters.value)]
    ensures !Truthy(delta.name) && !Truthy(delta.parameters) ==> r.out == []
    ensures r.state.finishReason == state.finishReason && r.state.usage == state.usage
  {
    var withEntry := Allocate(state, delta.index, cfg);
    var entry := withEntry.toolCalls[delta.index];
    if Truthy(delta.name) then
      var renamed := entry.(toolName := delta.name.value);
      ChunkOut(withEntry.(toolCalls := withEntry.toolCalls[delta.index := renamed]),
               [ToolCallDeltaPart(renamed.toolCallId, renamed.toolName, "")])
    else if Truthy(delta.parameters) then
      ChunkOut(withEntry, [ToolCallDeltaPart(entry.toolCallId, entry.toolName, delta.parameters.value)])
    else ChunkOut(withEntry, [])
  }

  /** `tool-calls-generation`: the complete calls, each under the id and name
      streamed for its index. An index never streamed throws a `TypeError`. */
  function CompleteCalls(toolCalls: map<nat, StreamedCall>, calls: seq<ResponseToolCall>, from: nat, stringify: Json -> string): (r: Result<seq<StreamPart>, ErrorValue>)
    ensures r.Success? <==> forall k :: from <= k < from + |calls| ==> k in toolCalls
    ensures r.Failure? ==> r.error.TypeError?
    ensures r.Success? ==>
              && |r.value| == |calls|
              && forall k :: 0 <= k < |calls| ==>
                   r.value[k] == ToolCallPart(toolCalls[from + k].toolCallId, toolCalls[from + k].toolName, stringify(calls[k].parameters))
    decreases |calls|
  {
    if |calls| == 0 then Success([])
    else if from !in toolCalls then Failure(TypeError("Cannot read properties of undefined (reading 'toolCallId')"))
    else
      var entry := toolCalls[from];
      var rest := CompleteCalls(toolCalls, calls[1..], from + 1, stringify);
      if rest.Failure? then rest
      else
        var r := [ToolCallPart(entry.toolCallId, entry.toolName, stringify(calls[0].parameters))] + rest.value;
        assert forall k :: 1 <= k < |calls| ==> r[k] == rest.value[k - 1];
        Success(r)
  }

  /** The transform on one chunk. */
  function OnChunk(state: StreamState, chunk: Result<Chunk, ErrorValue>, cfg: StreamConfig): (r: Result<ChunkOut, ErrorValue>)
    ensures chunk.Failure? ==>
              r == Success(ChunkOut(state.(finishReason := Error), [ErrorPart(chunk.error)]))
    ensures chunk.Success? && chunk.value.TextGeneration? ==>
              r == Success(ChunkOut(state, [TextDeltaPart(chunk.value.text)]))
    ensures chunk.Success? && chunk.value.ToolCallsChunk? && chunk.value.toolCallDelta.Some? ==>
              r == Success(OnDelta(state, chunk.value.toolCallDelta.value, cfg))
    ensures chunk.Success? && chunk.value.ToolCallsGeneration? ==>
              && (r.Success? <==> forall k :: 0 <= k < |chunk.value.toolCalls| ==> k in state.toolCalls)
              && (r.Success? ==>
                    && r.value.state == state
                    && Success(r.value.out) == CompleteCalls(state.toolCalls, chunk.value.toolCalls, 0, cfg.stringify))
    ensures chunk.Success? && chunk.value.StreamEnd? ==>
              r == Success(ChunkOut(state.(finishReason := cfg.mapFinishReason(chunk.value.finishReason),
                                           usage := ProviderUsage(Some(chunk.value.inputTokens), Some(chunk.value.outputTokens))), []))
    ensures r.Failure? ==> r.error.TypeError?
    ensures r.Success? ==>
              && NoFinish(r.value.out)
              && r.value.state.nextId >= state.nextId
              && forall i :: i in state.toolCalls ==>
                   i in r.value.state.toolCalls && r.value.state.toolCalls[i].toolCallId == state.toolCalls[i].toolCallId
  {
    if chunk.Failure? then Success(ChunkOut(state.(finishReason := Error), [ErrorPart(chunk.error)]))
    else
      match chunk.value
      case TextGeneration(text) => Success(ChunkOut(state, [TextDeltaPart(text)]))
      case ToolCallsChunk(delta) =>
        if delta.None? then Success(ChunkOut(state, [])) else Success(OnDelta(state, delta.value, cfg))
      case ToolCallsGeneration(calls) =>
        var parts := CompleteCalls(state.toolCalls, calls, 0, cfg.stringify);
        if parts.Failure? then Failure(parts.error) else Success(ChunkOut(state, parts.value))
      case StreamEnd(reason, inputTokens, outputTokens) =>
        Success(ChunkOut(state.(finishReason := cfg.mapFinishReason(reason),
                                usage := ProviderUsage(Some(inputTokens), Some(outputTokens))), []))
      case StreamStart => Success(ChunkOut(state, []))
      case SearchQueriesGeneration => Success(ChunkOut(state, []))
      case SearchResults => Success(ChunkOut(state, []))
      case CitationGeneration => Success(ChunkOut(state, []))
  }

  /** The parts read from the stream, and the error it ended with, if any. */
  datatype StreamRun = StreamRun(state: StreamState, out: seq<StreamPart>, failure: Option<ErrorValue>)

  /** What the reader still receives of a chunk whose transform throws. The
      transform runs only while a read is pending (the readable side of a
      default `TransformStream` has a high-water mark of 0), so its first
      `enqueue` answers that read; the parts queued after it are discarded
      when the throw errors the stream. Only `tool-calls-generation` throws,
      at the first index never streamed, after enqueuing the calls before it:
      so the reader gets the first call exactly when that index is not 0. */
  function FirstDelivered(state: StreamState, chunk: Result<Chunk, ErrorValue>, cfg: StreamConfig): (r: seq<StreamPart>)
    ensures |r| <= 1
    ensures OnChunk(state, chunk, cfg).Failure? ==>
              && chunk.Success? && chunk.value.ToolCallsGeneration? && |chunk.value.toolCalls| > 0
              && (r != [] <==> 0 in state.toolCalls)
              && (r != [] ==> CompleteCalls(state.toolCalls, chunk.value.toolCalls[..1], 0, cfg.stringify) == Success(r))
  {
    if chunk.Success? && chunk.value.ToolCallsGeneration? && |chunk.value.toolCalls| > 0 && 0 in state.toolCalls then
      var entry := state.toolCalls[0];
      var first := chunk.value.toolCalls[..1];
      var part := ToolCallPart(entry.toolCallId, entry.toolName, cfg.stringify(first[0].parameters));
      var done := CompleteCalls(state.toolCalls, first, 0, cfg.stringify);
      assert done.Success? && |done.value| == 1 && done.value[0] == part;
      assert done.value == [part];
      [part]
    else []
  }

  /** The transform over the chunks; a throw ends the stream in error, and of
      the throwing chunk's parts only `FirstDelivered` reaches the reader. */
  function RunChunks(state: StreamState, chunks: seq<Result<Chunk, ErrorValue>>, cfg: StreamConfig): (r: StreamRun)
    ensures NoFinish(r.out)
    decreases |chunks|
  {
    if |chunks| == 0 then StreamRun(state, [], None)
    else
      var step := OnChunk(state, chunks[0], cfg);
      if step.Failure? then StreamRun(state, FirstDelivered(state, chunks[0], cfg), Some(step.error))
      else
        var rest := RunChunks(step.value.state, chunks[1..], cfg);
        StreamRun(rest.state, step.value.out + rest.out, rest.failure)
  }

  /** Stated as `Bedrock.RunChunksAppend` is, over Cohere's chunks and state.
      A throw ends the stream: once a batch of chunks has thrown, later
      chunks are never read. Otherwise the next batch continues from the
      state the first one left. */
  lemma {:induction false} RunChunksAppend(state: StreamState, a: seq<Result<Chunk, ErrorValue>>,
                                           b: seq<Result<Chunk, ErrorValue>>, cfg: StreamConfig)
    ensures var ra := RunChunks(state, a, cfg);
            var rb := RunChunks(ra.state, b, cfg);
            RunChunks(state, a + b, cfg) ==
              if ra.failure.Some? then ra else StreamRun(rb.state, ra.out + rb.out, rb.failure)
    decreases |a|
  {
    if |a| == 0 {
      assert a + b == b;
    } else {
      assert (a + b)[0] == a[0];
      assert (a + b)[1..] == a[1..] + b;
      var step := OnChunk(state, a[0], cfg);
      if step.Success? {
        RunChunksAppend(step.value.state, a[1..], b, cfg);
        var ra' := RunChunks(step.value.state, a[1..], cfg);
        var rb := RunChunks(ra'.state, b, cfg);
        ConcatAssoc(step.value.out, ra'.out, rb.out);
      }
    }
  }

  /** A stream that throws at `chunk` delivers the parts of the chunks before
      it, then the first call of the throwing chunk when it had enqueued one,
      and then ends in the error; the chunks after it are never read. */
  lemma ThrowDeliversFirstCall(state: StreamState, a: seq<Result<Chunk, ErrorValue>>, chunk: Result<Chunk, ErrorValue>,
                               b: seq<Result<Chunk, ErrorValue>>, cfg: StreamConfig)
    requires RunChunks(state, a, cfg).failure.None?
    requires OnChunk(RunChunks(state, a, cfg).state, chunk, cfg).Failure?
    ensures var ra := RunChunks(state, a, cfg);
            RunChunks(state, a + [chunk] + b, cfg) ==
              StreamRun(ra.state, ra.out + FirstDelivered(ra.state, chunk, cfg),
                        Some(OnChunk(ra.state, chunk, cfg).error))
  {
    var ra := RunChunks(state, a, cfg);
    assert a + [chunk] + b == a + ([chunk] + b);
    RunChunksAppend(state, a, [chunk] + b, cfg);
    assert ([chunk] + b)[0] == chunk;
  }

  /** Built as `Bedrock.DoStream` is, over Cohere's chunks and state.
      The whole `doStream` stream: unless a chunk threw, `flush` closes it
      with exactly one `finish` carrying the last finish reason and usage. */
  function DoStream(chunks: seq<Result<Chunk, ErrorValue>>, cfg: StreamConfig): (r: StreamRun)
    ensures r.failure.Some? ==> NoFinish(r.out)
    ensures r.failure.None? ==> EndsWithOneFinish(r.out, FinishPart(r.state.finishReason, r.state.usage, None))
  {
    var run := RunChunks(InitialStreamState, chunks, cfg);
    if run.failure.Some? then run
    else
      var out := run.out + [FinishPart(run.state.finishReason, run.state.usage, None)];
      assert out[..|out| - 1] == run.out;
      run.(out := out)
  }

  /** Every entry's id was drawn from `ids` below `nextId`, and no two
      entries share an id. */
  ghost predicate IdsAllocated(state: StreamState, ids: nat -> string) {
    && (forall i :: i in state.toolCalls ==> exists n: nat :: n < state.nextId && state.toolCalls[i].toolCallId == ids(n))
    && (forall i, j :: i in state.toolCalls && j in state.toolCalls && i != j ==>
          state.toolCalls[i].toolCallId != state.toolCalls[j].toolCallId)
  }

  ghost predicate Injective(ids: nat -> string) {
    forall a: nat, b: nat :: ids(a) == ids(b) ==> a == b
  }

  /** `next` keeps every entry of `state` under the same id. */
  ghost predicate KeepsIds(state: StreamState, next: StreamState) {
    forall i :: i in state.toolCalls ==>
      i in next.toolCalls && next.toolCalls[i].toolCallId == state.toolCalls[i].toolCallId
  }

  /** A step that keeps the entries, their ids and the counter keeps the
      allocation invariant. */
  lemma SameIdsKeepAllocated(state: StreamState, next: StreamState, ids: nat -> string)
    requires IdsAllocated(state, ids) && KeepsIds(state, next)
    requires next.toolCalls.Keys == state.toolCalls.Keys && next.nextId == state.nextId
    ensures IdsAllocated(next, ids)
  {
    forall i | i in next.toolCalls
      ensures exists n: nat :: n < next.nextId && next.toolCalls[i].toolCallId == ids(n)
    {
      var n: nat :| n < state.nextId && state.toolCalls[i].toolCallId == ids(n);
    }
  }

  /** A step that adds one entry under the next unused id keeps the
      allocation invariant, provided ids never repeat. */
  lemma FreshIdKeepsAllocated(state: StreamState, next: StreamState, index: nat, ids: nat -> string)
    requires Injective(ids) && IdsAllocated(state, ids) && KeepsIds(state, next)
    requires index !in state.toolCalls && next.toolCalls.Keys == state.toolCalls.Keys + {index}
    requires next.toolCalls[index].toolCallId == ids(state.nextId) && next.nextId == state.nextId + 1
    ensures IdsAllocated(next, ids)
  {
    FreshIdsDrawn(state, next, index, ids);
    FreshIdsDistinct(state, next, index, ids);
  }

  lemma FreshIdsDrawn(state: StreamState, next: StreamState, index: nat, ids: nat -> string)
    requires IdsAllocated(state, ids) && KeepsIds(state, next)
    requires next.toolCalls.Keys == state.toolCalls.Keys + {index}
    requires next.toolCalls[index].toolCallId == ids(state.nextId) && next.nextId == state.nextId + 1
    ensures forall i :: i in next.toolCalls ==> exists n: nat :: n < next.nextId && next.toolCalls[i].toolCallId == ids(n)
  {
    forall i | i in next.toolCalls
      ensures exists n: nat :: n < next.nextId && next.toolCalls[i].toolCallId == ids(n)
    {
      if i != index {
        var n: nat :| n < state.nextId && state.toolCalls[i].toolCallId == ids(n);
        assert n < next.nextId;
      } else {
        assert state.nextId < next.nextId;
      }
    }
  }

  lemma FreshIdsDistinct(state: StreamState, next: StreamState, index: nat, ids: nat -> string)
    requires Injective(ids) && IdsAllocated(state, ids) && KeepsIds(state, next)
    requires index !in state.toolCalls && next.toolCalls.Keys == state.toolCalls.Keys + {index}
    requires next.toolCalls[index].toolCallId == ids(state.nextId)
    ensures forall i, j :: i in next.toolCalls && j in next.toolCalls && i != j ==>
              next.toolCalls[i].toolCallId != next.toolCalls[j].toolCallId
  {
    forall i, j | i in next.toolCalls && j in next.toolCalls && i != j
      ensures next.toolCalls[i].toolCallId != next.toolCalls[j].toolCallId
    {
      if i == index || j == index {
        var other := if i == index then j else i;
        var n: nat :| n < state.nextId && state.toolCalls[other].toolCallId == ids(n);
        assert ids(n) != ids(state.nextId);
      } else {
        assert state.toolCalls[i].toolCallId != state.toolCalls[j].toolCallId;
      }
    }
  }

  lemma OnChunkKeepsIdsAllocated(state: StreamState, chunk: Result<Chunk, ErrorValue>, cfg: StreamConfig)
    requires Injective(cfg.ids) && IdsAllocated(state, cfg.ids)
    requires OnChunk(state, chunk, cfg).Success?
    ensures IdsAllocated(OnChunk(state, chunk, cfg).value.state, cfg.ids)
  {
    var next := OnChunk(state, chunk, cfg).value.state;
    assert KeepsIds(state, next);
    if chunk.Success? && chunk.value.ToolCallsChunk? && chunk.value.toolCallDelta.Some? {
      var index := chunk.value.toolCallDelta.value.index;
      if index !in state.toolCalls {
        FreshIdKeepsAllocated(state, next, index, cfg.ids);
      } else {
        SameIdsKeepAllocated(state, next, cfg.ids);
      }
    } else {
      assert next.toolCalls == state.toolCalls && next.nextId == state.nextId;
      SameIdsKeepAllocated(state, next, cfg.ids);
    }
  }

  /** Over a whole stream, the first delta of an index allocates its id and
      later deltas reuse it: an id, once given to an index, never changes,
      and with an injective id source two indices never share an id. */
  lemma {:induction false} StreamIdsStable(state: StreamState, chunks: seq<Result<Chunk, ErrorValue>>, cfg: StreamConfig)
    requires Injective(cfg.ids) && IdsAllocated(state, cfg.ids)
    ensures var r := RunChunks(state, chunks, cfg);
            && IdsAllocated(r.state, cfg.ids)
            && forall i :: i in state.toolCalls ==>
                 i in r.state.toolCalls && r.state.toolCalls[i].toolCallId == state.toolCalls[i].toolCallId
    decreases |chunks|
  {
    if |chunks| > 0 {
      var step := OnChunk(state, chunks[0], cfg);
      if step.Success? {
        OnChunkKeepsIdsAllocated(state, chunks[0], cfg);
        StreamIdsStable(step.value.state, chunks[1..], cfg);
      }
    }
  }
}

=== FILE: core_types.dfy ===
/** Values shared by the step loop, the tool-call stream merge, the object
    materializer and the provider adapters: finish reasons, token usage,
    tool calls and results, and the provider stream part
    (`LanguageModelV1StreamPart`). */
module CoreTypes {
  import opened Wrappers

  /** A JSON value. Structural equality on it plays the part of the source's
      deep equality (`isDeepEqualData`). */
  datatype Json =
    | JNull
    | JBool(b: bool)
    | JNum(n: int)
    | JStr(s: string)
    | JArr(items: seq<Json>)
    | JObj(fields: seq<(string, Json)>)

  /** `LanguageModelV1FinishReason`. */
  datatype FinishReason = Stop | Length | ContentFilter | ToolCalls | Error | Other | Unknown

  /** A token count. `None` stands for the source's `NaN`, which every
      provider reports when the response carries no count. */
  type Tokens = Option<nat>

  /** Addition on counts that may be `NaN`: `NaN` absorbs, as in JavaScript. */
  function AddTokens(a: Tokens, b: Tokens): (r: Tokens)
    ensures r.Some? <==> a.Some? && b.Some?
    ensures r.Some? ==> r.value == a.value + b.value
  {
    if a.Some? && b.Some? then Some(a.value + b.value) else None
  }

  /** Usage as a provider reports it. */
  datatype ProviderUsage = ProviderUsage(promptTokens: Tokens, completionTokens: Tokens)

  /** `LanguageModelUsage`: provider usage completed with a total. */
  datatype Usage = Usage(promptTokens: Tokens, completionTokens: Tokens, totalTokens: Tokens)

  const ZeroUsage := Usage(Some(0), Some(0), Some(0))

  /** Field-wise sum of two usages. */
  function AddUsage(a: Usage, b: Usage): Usage {
    Usage(
      AddTokens(a.promptTokens, b.promptTokens),
      AddTokens(a.completionTokens, b.completionTokens),
      AddTokens(a.totalTokens, b.totalTokens))
  }

  /** `calculateLanguageModelUsage`: the total is prompt plus completion tokens. */
  function CalculateUsage(u: ProviderUsage): (r: Usage)
    ensures r.promptTokens == u.promptTokens && r.completionTokens == u.completionTokens
    ensures r.totalTokens.Some? <==> u.promptTokens.Some? && u.completionTokens.Some?
    ensures r.totalTokens.Some? ==>
              r.totalTokens.value == u.promptTokens.value + u.completionTokens.value
  {
    Usage(u.promptTokens, u.completionTokens, AddTokens(u.promptTokens, u.completionTokens))
  }

  /** A tool call after its arguments were parsed against the tool's schema. */
  datatype ToolCall = ToolCall(toolCallId: string, toolName: string, args: Json)

  /** The outcome of executing one tool call. */
  datatype ToolResult = ToolResult(toolCallId: string, toolName: string, args: Json, result: Json)

  /** The payload of an `error` part or of a rejected promise (`PlainError` is
      a JavaScript `Error`). The available
      tool names of `NoSuchToolError` are a set: the order of `Object.keys`
      is not modelled. */
  datatype ErrorValue =
    | NoSuchToolError(toolName: string, availableTools: Option<set<string>>)
    | InvalidArgumentError(parameter: string, message: string)
    | InvalidPromptError(message: string)
    | UnsupportedFunctionalityError(functionality: string)
    | TypeError(message: string)
    | PlainError(message: string)
    | Thrown(detail: Json)

  /** `LanguageModelV1StreamPart`: what a provider's `doStream` emits. Tool
      call arguments are still JSON text here. */
  datatype StreamPart =
    | TextDeltaPart(textDelta: string)
    | ToolCallDeltaPart(toolCallId: string, toolName: string, argsTextDelta: string)
    | ToolCallPart(toolCallId: string, toolName: string, args: string)
    | ResponseMetadataPart(id: Option<string>, timestamp: Option<int>, modelId: Option<string>)
    | FinishPart(finishReason: FinishReason, usage: ProviderUsage, providerMetadata: Option<Json>)
    | ErrorPart(error: ErrorValue)

  /** No `finish` part among `out`. */
  predicate NoFinish(out: seq<StreamPart>) {
    forall i :: 0 <= i < |out| ==> !out[i].FinishPart?
  }

  /** `out` ends with `finish`, and that is its only `finish` part: what a
      provider stream's `flush` guarantees when no chunk threw. */
  predicate EndsWithOneFinish(out: seq<StreamPart>, finish: StreamPart) {
    && |out| > 0
    && out[|out| - 1] == finish
    && finish.FinishPart?
    && NoFinish(out[..|out| - 1])
  }

  /** Tool choice policy handed to a provider (`LanguageModelV1ToolChoice`). */
  datatype ToolChoice = Auto | NoTools | Required | SpecificTool(toolName: string)

  /** A function tool as handed to a provider. The parameter schema is opaque. */
  datatype FunctionTool<Schema> = FunctionTool(name: string, description: Option<string>, parameters: Schema)

  /** `mode` of a provider call. */
  datatype CallMode<Schema> =
    | Regular(tools: Option<seq<FunctionTool<Schema>>>, toolChoice: Option<ToolChoice>)
    | ObjectJson(schema: Option<Schema>)
    | ObjectTool(tool: FunctionTool<Schema>)

  /** The standardized call settings a warning can name
      (`keyof LanguageModelV1CallSettings`). */
  datatype Setting =
    | MaxTokens | Temperature | StopSequences | TopP | TopK
    | PresencePenalty | FrequencyPenalty | ResponseFormatSetting | Seed

  /** A call warning (`LanguageModelV1CallWarning`). */
  datatype Warning = UnsupportedSetting(setting: Setting, details: Option<string>)

  /** The warnings name settings in the order `order` lists them: their
      settings form a subsequence of `order`. */
  predicate InOrder(warnings: seq<Warning>, order: seq<Setting>)
    decreases |order|
  {
    || |warnings| == 0
    || (&& |order| > 0
        && ((warnings[0].setting == order[0] && InOrder(warnings[1..], order[1..])) || InOrder(warnings, order[1..])))
  }

  /** One `unsupported-setting` warning for each setting of `order` that
      `warns` flags, in the order of `order`. */
  function WarningsFor(order: seq<Setting>, warns: Setting -> bool, details: Setting -> Option<string>): (r: seq<Warning>)
    ensures forall w :: w in r ==> w.setting in order && warns(w.setting) && w.details == details(w.setting)
    ensures forall s :: s in order && warns(s) ==> UnsupportedSetting(s, details(s)) in r
    ensures InOrder(r, order)
  {
    if |order| == 0 then []
    else
      var rest := WarningsFor(order[1..], warns, details);
      if warns(order[0]) then [UnsupportedSetting(order[0], details(order[0]))] + rest else rest
  }

  /** Whether the call gave `setting` a value. */
  predicate Given(settings: CallSettings, setting: Setting) {
    match setting
    case MaxTokens => settings.maxTokens.Some?
    case Temperature => settings.temperature.Some?
    case StopSequences => settings.stopSequences.Some?
    case TopP => settings.topP.Some?
    case TopK => settings.topK.Some?
    case PresencePenalty => settings.presencePenalty.Some?
    case FrequencyPenalty => settings.frequencyPenalty.Some?
    case ResponseFormatSetting => settings.responseFormat.Some?
    case Seed => settings.seed.Some?
  }

  /** `response_format` of a call (`LanguageModelV1CallOptions.responseFormat`). */
  datatype ResponseFormat = TextFormat | JsonFormat(schema: Option<Json>)

  /** The standardized settings of a provider call. Numbers the model only
      forwards keep their value; only presence matters to the adapters. */
  datatype CallSettings = CallSettings(
    maxTokens: Option<nat>,
    temperature: Option<real>,
    topP: Option<real>,
    topK: Option<nat>,
    frequencyPenalty: Option<real>,
    presencePenalty: Option<real>,
    stopSequences: Option<seq<string>>,
    responseFormat: Option<ResponseFormat>,
    seed: Option<int>)

  /** A tool call as a provider returns it, arguments still JSON text
      (`LanguageModelV1FunctionToolCall`). */
  datatype ProviderToolCall = ProviderToolCall(toolCallId: string, toolName: string, args: string)

  /** Concatenation regroups freely; stated once so that the stream folds
      need not prove it in their own, larger contexts. */
  lemma ConcatAssoc<T>(a: seq<T>, b: seq<T>, c: seq<T>)
    ensures (a + b) + c == a + (b + c)
  {
  }
}

=== FILE: generate_text.dfy ===
/** The step loop of `generateText`: call the model, execute the tools it
    asked for, decide whether another step follows (a tool round trip or a
    length-induced continuation) and keep usage, text, steps and the message
    history up to date. The model is a function of the step index and the
    prompt it is sent; each tool's executor is a function of its arguments. */
module GenerateText {
  import opened Wrappers
  import opened CoreTypes
  import opened Prompt
  import opened ResponseMessages

  /** A registered tool. A tool without `execute` is resolved by the caller. */
  datatype Tool = Tool(execute: Option<Json -> Result<Json, Json>>)

  /** What one `doGenerate` call returns. Its tool calls still carry their
      arguments as JSON text; the loop parses them. */
  datatype ModelResponse = ModelResponse(
    text: Option<string>,
    toolCalls: seq<ProviderToolCall>,
    finishReason: FinishReason,
    usage: ProviderUsage)

  datatype StepType = Initial | ToolResultStep | Continue | Done

  datatype StepResult = StepResult(
    stepType: StepType,
    text: string,
    toolCalls: seq<ToolCall>,
    toolResults: seq<ToolResult>,
    finishReason: FinishReason,
    usage: Usage,
    isContinued: bool)

  datatype GenerateTextResult = GenerateTextResult(
    text: string,
    toolCalls: seq<ToolCall>,
    toolResults: seq<ToolResult>,
    finishReason: FinishReason,
    usage: Usage,
    responseMessages: seq<CoreMessage>,
    steps: seq<StepResult>)

  const MaxStepsMessage := "maxSteps must be at least 1"

  /** `maxSteps` after the deprecated options' defaults: one more than the
      tool round trips, which default to the automatic round trips, which
      default to zero. */
  function ResolveMaxSteps(maxSteps: Option<int>, maxToolRoundtrips: Option<int>, maxAutomaticRoundtrips: Option<int>): (r: int)
    ensures maxSteps.Some? ==> r == maxSteps.value
    ensures maxSteps.None? && maxToolRoundtrips.None? && maxAutomaticRoundtrips.None? ==> r == 1
    ensures maxSteps.None? && maxToolRoundtrips.Some? ==> r == maxToolRoundtrips.value + 1
    ensures maxSteps.None? && maxToolRoundtrips.None? && maxAutomaticRoundtrips.Some? ==>
              r == maxAutomaticRoundtrips.value + 1
  {
    maxSteps.GetOr(maxToolRoundtrips.GetOr(maxAutomaticRoundtrips.GetOr(0)) + 1)
  }

  // ---------------------------------------------------------------------
  // executeTools

  predicate HasExecutor(call: ToolCall, tools: map<string, Tool>) {
    call.toolName in tools && tools[call.toolName].execute.Some?
  }

  function Execute(call: ToolCall, tools: map<string, Tool>): Result<Json, Json>
    requires HasExecutor(call, tools)
  {
    tools[call.toolName].execute.value(call.args)
  }

  /** The calls whose tool has an executor, in call order. */
  function ExecutableCalls(calls: seq<ToolCall>, tools: map<string, Tool>): (r: seq<ToolCall>)
    ensures forall c :: c in r <==> c in calls && HasExecutor(c, tools)
  {
    if |calls| == 0 then []
    else (if HasExecutor(calls[0], tools) then [calls[0]] else []) + ExecutableCalls(calls[1..], tools)
  }

  /** `executeTools`: one result per call whose tool has an executor, in call
      order; calls of tools without an executor get no result. The calls are
      awaited together, so one failing executor fails the whole step; this
      model reports the first failure in call order. */
  function ExecuteTools(calls: seq<ToolCall>, tools: map<string, Tool>): (r: Result<seq<ToolResult>, ErrorValue>)
    ensures r.Success? <==>
              forall i :: 0 <= i < |calls| && HasExecutor(calls[i], tools) ==> Execute(calls[i], tools).Success?
    ensures r.Failure? ==>
              exists i :: 0 <= i < |calls| && HasExecutor(calls[i], tools) &&
                Execute(calls[i], tools).Failure? && r.error == Thrown(Execute(calls[i], tools).error)
    ensures r.Success? ==>
              var executable := ExecutableCalls(calls, tools);
              && |r.value| == |executable|
              && forall i :: 0 <= i < |executable| ==>
                   Execute(executable[i], tools).Success? &&
                   r.value[i] == ToolResult(executable[i].toolCallId, executable[i].toolName,
                                            executable[i].args, Execute(executable[i], tools).value)
  {
    var executable := ExecutableCalls(calls, tools);
    if forall c :: c in executable ==> Execute(c, tools).Success? then
      assert forall i :: 0 <= i < |calls| && HasExecutor(calls[i], tools) ==> calls[i] in executable;
      Success(Results(executable, tools))
    else
      var c := FirstFailure(executable, tools);
      var i :| 0 <= i < |calls| && calls[i] == c;
      Failure(Thrown(Execute(c, tools).error))
  }

  /** The results of calls whose executors all succeed, in call order. */
  function Results(executable: seq<ToolCall>, tools: map<string, Tool>): (r: seq<ToolResult>)
    requires forall c :: c in executable ==> HasExecutor(c, tools) && Execute(c, tools).Success?
    ensures |r| == |executable|
    ensures forall i :: 0 <= i < |executable| ==>
              r[i] == ToolResult(executable[i].toolCallId, executable[i].toolName,
                                 executable[i].args, Execute(executable[i], tools).value)
  {
    if |executable| == 0 then []
    else
      var c := executable[0];
      [ToolResult(c.toolCallId, c.toolName, c.args, Execute(c, tools).value)] + Results(executable[1..], tools)
  }

  /** The first call, in call order, whose executor fails. */
  function FirstFailure(executable: seq<ToolCall>, tools: map<string, Tool>): (r: ToolCall)
    requires forall c :: c in executable ==> HasExecutor(c, tools)
    requires exists c :: c in executable && Execute(c, tools).Failure?
    ensures r in executable && Execute(r, tools).Failure?
  {
    if Execute(executable[0], tools).Failure? then executable[0] else FirstFailure(executable[1..], tools)
  }

  lemma {:induction false} ExecutableCallsBound(calls: seq<ToolCall>, tools: map<string, Tool>)
    ensures |ExecutableCalls(calls, tools)| <= |calls|
    ensures |ExecutableCalls(calls, tools)| == |calls| <==>
              forall i :: 0 <= i < |calls| ==> HasExecutor(calls[i], tools)
    decreases |calls|
  {
    if |calls| > 0 {
      ExecutableCallsBound(calls[1..], tools);
      assert forall i :: 1 <= i < |calls| ==> calls[i] == calls[1..][i - 1];
    }
  }

  /** The results of a step, as the loop computes them: none without tools,
      else those of `executeTools`. */
  function StepToolResults(calls: seq<ToolCall>, tools: Option<map<string, Tool>>): (r: Result<seq<ToolResult>, ErrorValue>)
    ensures tools.None? ==> r == Success([])
    ensures tools.Some? ==> r == ExecuteTools(calls, tools.value)
  {
    if tools.None? then Success([]) else ExecuteTools(calls, tools.value)
  }

  lemma StepToolResultsBound(calls: seq<ToolCall>, tools: Option<map<string, Tool>>)
    requires StepToolResults(calls, tools).Success?
    ensures |StepToolResults(calls, tools).value| <= |calls|
    ensures |StepToolResults(calls, tools).value| == |calls| <==>
              |calls| == 0 || (tools.Some? && forall i :: 0 <= i < |calls| ==> HasExecutor(calls[i], tools.value))
  {
    if tools.Some? {
      ExecutableCallsBound(calls, tools.value);
    }
  }

  // ---------------------------------------------------------------------
  // parseToolCall

  /** `parseToolCall` applied to one call of the response. */
  function Parse(call: ProviderToolCall, parse: (string, string, string) -> Result<ToolCall, ErrorValue>): Result<ToolCall, ErrorValue> {
    parse(call.toolCallId, call.toolName, call.args)
  }

  /** The response's tool calls parsed in call order. A call that does not
      parse throws out of the `map`, so the first such call fails the step. */
  function ParseToolCalls(calls: seq<ProviderToolCall>, parse: (string, string, string) -> Result<ToolCall, ErrorValue>): Result<seq<ToolCall>, ErrorValue>
    decreases |calls|
  {
    if |calls| == 0 then Success([])
    else
      var first := Parse(calls[0], parse);
      if first.Failure? then Failure(first.error)
      else
        var rest := ParseToolCalls(calls[1..], parse);
        if rest.Failure? then rest else Success([first.value] + rest.value)
  }

  /** Parsing succeeds exactly when every call parses, and then yields the
      parsed calls in order; otherwise it fails with the error of the first
      call, in call order, that does not parse. */
  lemma {:induction false} ParseToolCallsSpec(calls: seq<ProviderToolCall>, parse: (string, string, string) -> Result<ToolCall, ErrorValue>)
    ensures var r := ParseToolCalls(calls, parse);
            && (r.Success? <==> forall i :: 0 <= i < |calls| ==> Parse(calls[i], parse).Success?)
            && (r.Success? ==>
                  && |r.value| == |calls|
                  && forall i :: 0 <= i < |calls| ==> r.value[i] == Parse(calls[i], parse).value)
            && (r.Failure? ==>
                  exists i :: 0 <= i < |calls| && Parse(calls[i], parse) == Failure(r.error) &&
                    forall j :: 0 <= j < i ==> Parse(calls[j], parse).Success?)
    decreases |calls|
  {
    if |calls| > 0 {
      var tail := calls[1..];
      ParseToolCallsSpec(tail, parse);
      assert forall i :: 1 <= i < |calls| ==> calls[i] == tail[i - 1];
      var r, rest := ParseToolCalls(calls, parse), ParseToolCalls(tail, parse);
      if Parse(calls[0], parse).Success? && rest.Failure? {
        var k :| 0 <= k < |tail| && Parse(tail[k], parse) == Failure(rest.error) &&
                 forall j :: 0 <= j < k ==> Parse(tail[j], parse).Success?;
        assert Parse(calls[k + 1], parse) == Failure(r.error);
      }
    }
  }

  /** A step's parsed tool calls and the results of executing them. */
  datatype Executed = Executed(toolCalls: seq<ToolCall>, toolResults: seq<ToolResult>)

  /** What the loop does with a response's tool calls: it parses them all, then
      executes them. Either failure rejects `generateText`; a call that does
      not parse fails the step before any tool runs. */
  function StepOutcome(calls: seq<ProviderToolCall>, tools: Option<map<string, Tool>>,
                       parse: (string, string, string) -> Result<ToolCall, ErrorValue>): (r: Result<Executed, ErrorValue>)
    ensures ParseToolCalls(calls, parse).Failure? ==> r == Failure(ParseToolCalls(calls, parse).error)
    ensures r.Success? ==>
              && ParseToolCalls(calls, parse) == Success(r.value.toolCalls)
              && StepToolResults(r.value.toolCalls, tools) == Success(r.value.toolResults)
    ensures ParseToolCalls(calls, parse).Success? ==>
              (r.Success? <==> StepToolResults(ParseToolCalls(calls, parse).value, tools).Success?)
    ensures r.Failure? && ParseToolCalls(calls, parse).Success? ==>
              r.error == StepToolResults(ParseToolCalls(calls, parse).value, tools).error
  {
    var parsed := ParseToolCalls(calls, parse);
    if parsed.Failure? then Failure(parsed.error)
    else
      var results := StepToolResults(parsed.value, tools);
      if results.Failure? then Failure(results.error) else Success(Executed(parsed.value, results.value))
  }

  // ---------------------------------------------------------------------
  // the transition function

  /** The type of the next step, decided after `stepCount` model calls. */
  function NextStepType(stepCount: nat, maxSteps: int, continueSteps: bool,
                        finishReason: FinishReason, toolCallCount: nat, toolResultCount: nat): (r: StepType)
    ensures stepCount >= maxSteps ==> r == Done
    ensures r == Continue <==>
              stepCount < maxSteps && continueSteps && finishReason == Length && toolCallCount == 0
    ensures r == ToolResultStep <==>
              && stepCount < maxSteps
              && !(continueSteps && finishReason == Length && toolCallCount == 0)
              && toolCallCount > 0 && toolResultCount == toolCallCount
    ensures r != Initial
  {
    if stepCount < maxSteps then
      if continueSteps && finishReason == Length && toolCallCount == 0 then Continue
      else if toolCallCount > 0 && toolResultCount == toolCallCount then ToolResultStep
      else Done
    else Done
  }

  /** The step type that followed step `i`. */
  function NextAfter(steps: seq<StepResult>, i: nat, maxSteps: int, continueSteps: bool): StepType
    requires i < |steps|
  {
    NextStepType(i + 1, maxSteps, continueSteps, steps[i].finishReason, |steps[i].toolCalls|, |steps[i].toolResults|)
  }

  /** The steps so far form a chain: the first is `initial`, each later one has
      the type its predecessor decided, and `isContinued` records a
      `continue` decision. */
  ghost predicate WellChained(steps: seq<StepResult>, maxSteps: int, continueSteps: bool) {
    && (|steps| > 0 ==> steps[0].stepType == Initial)
    && (forall i :: 0 <= i < |steps| ==>
          steps[i].isContinued == (NextAfter(steps, i, maxSteps, continueSteps) == Continue))
    && (forall i :: 0 <= i < |steps| - 1 ==>
          NextAfter(steps, i, maxSteps, continueSteps) != Done &&
          steps[i + 1].stepType == NextAfter(steps, i, maxSteps, continueSteps))
  }

  /** A finished run: a non-empty chain whose last decision is `done`. */
  ghost predicate CompleteRun(steps: seq<StepResult>, maxSteps: int, continueSteps: bool) {
    && |steps| > 0
    && WellChained(steps, maxSteps, continueSteps)
    && NextAfter(steps, |steps| - 1, maxSteps, continueSteps) == Done
  }

  /** How a step relates to the model response it was built from. */
  ghost predicate StepMatchesResponse(step: StepResult, response: ModelResponse, tools: Option<map<string, Tool>>,
                                      parse: (string, string, string) -> Result<ToolCall, ErrorValue>,
                                      removeTextAfterLastWhitespace: string -> string) {
    && StepOutcome(response.toolCalls, tools, parse) == Success(Executed(step.toolCalls, step.toolResults))
    && step.finishReason == response.finishReason
    && step.usage == CalculateUsage(response.usage)
    && step.text == (if step.isContinued then removeTextAfterLastWhitespace(response.text.GetOr(""))
                     else response.text.GetOr(""))
  }

  /** Field-wise sum of the steps' usage, starting from zero. */
  function TotalUsage(steps: seq<StepResult>): Usage {
    if |steps| == 0 then ZeroUsage
    else AddUsage(TotalUsage(steps[..|steps| - 1]), steps[|steps| - 1].usage)
  }

  /** The text of the last logical message: the last step's text, preceded by
      the texts of the steps it continues. */
  function ChainText(steps: seq<StepResult>): string {
    if |steps| == 0 then ""
    else if steps[|steps| - 1].stepType == Continue then ChainText(steps[..|steps| - 1]) + steps[|steps| - 1].text
    else steps[|steps| - 1].text
  }

  /** Messages each step adds to the history: none for a continuation (it
      rewrites the last assistant message), else an assistant message and, if
      some tool produced a result, a tool message. */
  function ResponseMessageCount(steps: seq<StepResult>): nat {
    if |steps| == 0 then 0
    else
      var last := steps[|steps| - 1];
      ResponseMessageCount(steps[..|steps| - 1]) +
      (if last.stepType == Continue then 0 else if |last.toolResults| > 0 then 2 else 1)
  }

  /** The response messages the steps build under the corrected text update,
      in order: a step that is not a continuation appends its response
      messages, which carry its own text; a continuation rewrites the last
      assistant message with the text of the chain it ends. */
  function ResponseMessagesOf(steps: seq<StepResult>): seq<CoreMessage> {
    if |steps| == 0 then []
    else
      var earlier := ResponseMessagesOf(steps[..|steps| - 1]);
      var last := steps[|steps| - 1];
      if last.stepType != Continue then
        earlier + ToResponseMessages(Some(last.text), last.toolCalls, last.toolResults)
      else if |earlier| > 0 && LastMessage(earlier).AssistantMessage? then
        earlier[..|earlier| - 1] + [ContinueMessage(LastMessage(earlier), ChainText(steps), last.text)]
      else earlier
  }

  lemma ResponseMessagesStep(steps: seq<StepResult>, step: StepResult)
    ensures var earlier := ResponseMessagesOf(steps);
            ResponseMessagesOf(steps + [step]) ==
              if step.stepType != Continue then
                earlier + ToResponseMessages(Some(step.text), step.toolCalls, step.toolResults)
              else if |earlier| > 0 && LastMessage(earlier).AssistantMessage? then
                earlier[..|earlier| - 1] + [ContinueMessage(LastMessage(earlier), ChainText(steps + [step]), step.text)]
              else earlier
  {
    assert (steps + [step])[..|steps|] == steps;
  }

  /** Each step that is not a continuation adds its messages, a continuation
      none. */
  lemma {:induction false} ResponseMessagesCount(steps: seq<StepResult>)
    ensures |ResponseMessagesOf(steps)| == ResponseMessageCount(steps)
  {
    if |steps| > 0 {
      ResponseMessagesCount(steps[..|steps| - 1]);
    }
  }

  // ---------------------------------------------------------------------
  // text accumulation

  /** The text update as the source writes it: the text accumulates when this
      step or the next is a continuation. At the first step of a continuation
      that follows a tool round trip, this prepends the previous step's text. */
  function UpdateTextAsWritten(text: string, stepText: string, stepType: StepType, nextStepType: StepType): string {
    if nextStepType == Continue || stepType == Continue then text + stepText else stepText
  }

  /** The corrected text update: only a continuation step appends to the text
      carried from the step it continues, so the text is that of the last
      logical message. */
  function UpdateText(text: string, stepText: string, stepType: StepType): (r: string)
    ensures stepType != Continue ==> r == stepText
    ensures stepType == Continue ==> |r| == |text| + |stepText| && r[..|text|] == text && r[|text|..] == stepText
  {
    if stepType == Continue then text + stepText else stepText
  }

  /** A tool round trip followed by a length-cut step: as written, the
      continuation's text starts with the tool-calling step's text "Hi ",
      which is already in the history; the corrected update does not. */
  lemma ContinuationAfterToolStepAsWritten()
    ensures UpdateTextAsWritten("Hi ", "Hello ", ToolResultStep, Continue) == "Hi Hello "
    ensures UpdateText("Hi ", "Hello ", ToolResultStep) == "Hello "
  {
  }

  /** With the corrected update the loop's text is the chain text of its steps. */
  lemma ChainTextStep(steps: seq<StepResult>, step: StepResult)
    ensures ChainText(steps + [step]) == UpdateText(ChainText(steps), step.text, step.stepType)
  {
    assert (steps + [step])[..|steps|] == steps;
  }

  /** The text the loop would return with the update as written: a step that
      is a continuation, or is followed by one, appends to the text before it. */
  function ChainTextAsWritten(steps: seq<StepResult>): string {
    if |steps| == 0 then ""
    else
      var last := steps[|steps| - 1];
      if last.isContinued || last.stepType == Continue then ChainTextAsWritten(steps[..|steps| - 1]) + last.text
      else last.text
  }

  /** With the update as written, the loop's text is `ChainTextAsWritten`. */
  lemma ChainTextAsWrittenStep(steps: seq<StepResult>, step: StepResult, nextStepType: StepType)
    requires step.isContinued == (nextStepType == Continue)
    ensures ChainTextAsWritten(steps + [step]) ==
              UpdateTextAsWritten(ChainTextAsWritten(steps), step.text, step.stepType, nextStepType)
  {
    assert (steps + [step])[..|steps|] == steps;
  }

  /** What the update as written carries in front of the last logical message:
      when that message starts with a step (not itself a continuation) that is
      followed by a continuation, the as-written text before that step;
      otherwise nothing. */
  function CarriedText(steps: seq<StepResult>): string {
    if |steps| == 0 then ""
    else
      var last := steps[|steps| - 1];
      if last.stepType == Continue then CarriedText(steps[..|steps| - 1])
      else if last.isContinued then ChainTextAsWritten(steps[..|steps| - 1])
      else ""
  }

  /** For every sequence of steps, the as-written text is the carried text
      followed by the corrected text, so the two agree exactly when nothing
      is carried. */
  lemma {:induction false} ChainTextAsWrittenCarries(steps: seq<StepResult>)
    ensures ChainTextAsWritten(steps) == CarriedText(steps) + ChainText(steps)
    ensures ChainTextAsWritten(steps) == ChainText(steps) <==> CarriedText(steps) == ""
  {
    if |steps| > 0 {
      var earlier := steps[..|steps| - 1];
      ChainTextAsWrittenCarries(earlier);
      if steps[|steps| - 1].stepType == Continue {
        assert ChainTextAsWritten(steps) == (CarriedText(earlier) + ChainText(earlier)) + steps[|steps| - 1].text;
      }
    }
    var c, t := CarriedText(steps), ChainText(steps);
    assert c + t == t ==> |c| == 0;
  }

  /** A prefix of a chain is a chain. */
  lemma ChainPrefix(steps: seq<StepResult>, k: nat, maxSteps: int, continueSteps: bool)
    requires WellChained(steps, maxSteps, continueSteps) && k <= |steps|
    ensures WellChained(steps[..k], maxSteps, continueSteps)
  {
    forall i | 0 <= i < k
      ensures NextAfter(steps[..k], i, maxSteps, continueSteps) == NextAfter(steps, i, maxSteps, continueSteps)
    {
    }
  }

  /** Every step after the first is a tool round trip or a continuation. */
  lemma LaterStepType(steps: seq<StepResult>, n: nat, maxSteps: int, continueSteps: bool)
    requires WellChained(steps, maxSteps, continueSteps) && 0 < n < |steps|
    ensures steps[n].stepType == ToolResultStep || steps[n].stepType == Continue
  {
    assert steps[n].stepType == NextAfter(steps, n - 1, maxSteps, continueSteps);
  }

  /** In a chain without tool round trips every logical message starts at the
      first step, whose text before is empty, so the update as written and the
      corrected update return the same text. */
  lemma {:induction false} NoRoundTripAsWrittenAgrees(steps: seq<StepResult>, maxSteps: int, continueSteps: bool)
    requires WellChained(steps, maxSteps, continueSteps)
    requires forall i :: 0 <= i < |steps| ==> steps[i].stepType != ToolResultStep
    ensures CarriedText(steps) == ""
    ensures ChainTextAsWritten(steps) == ChainText(steps)
  {
    if |steps| > 0 {
      var n := |steps| - 1;
      var earlier := steps[..n];
      if n > 0 {
        LaterStepType(steps, n, maxSteps, continueSteps);
      }
      if steps[n].stepType == Continue {
        ChainPrefix(steps, n, maxSteps, continueSteps);
        NoRoundTripAsWrittenAgrees(earlier, maxSteps, continueSteps);
      } else if n > 0 {
        assert false;
      }
    }
    ChainTextAsWrittenCarries(steps);
  }

  // ---------------------------------------------------------------------
  // the loop

  function LastMessage(ms: seq<CoreMessage>): CoreMessage
    requires |ms| > 0
  {
    ms[|ms| - 1]
  }

  /** The continuation rewrite of the last assistant message: string content
      becomes the whole text, array content gains a text part. */
  function ContinueMessage(last: CoreMessage, text: string, stepText: string): (r: CoreMessage)
    requires last.AssistantMessage?
    ensures r.AssistantMessage?
    ensures last.assistantContent.Str? ==> r.assistantContent == Str(text)
    ensures last.assistantContent.Parts? ==>
              r.assistantContent == Parts(last.assistantContent.parts + [AssistantText(stepText)])
  {
    match last.assistantContent
    case Str(_) => AssistantMessage(Str(text))
    case Parts(parts) => AssistantMessage(Parts(parts + [AssistantText(stepText)]))
  }

  lemma ConvertMessagesAppend(a: seq<CoreMessage>, b: seq<CoreMessage>, detectMimeType: seq<bv8> -> Option<string>)
    ensures ConvertMessages(a + b, detectMimeType) == ConvertMessages(a, detectMimeType) + ConvertMessages(b, detectMimeType)
  {
    var l := ConvertMessages(a + b, detectMimeType);
    var rr := ConvertMessages(a, detectMimeType) + ConvertMessages(b, detectMimeType);
    assert |l| == |rr|;
    forall i | 0 <= i < |l| ensures l[i] == rr[i] {
      if i < |a| {
        assert (a + b)[i] == a[i];
      } else {
        assert (a + b)[i] == b[i - |a|];
      }
    }
  }

  lemma TotalUsageStep(steps: seq<StepResult>, step: StepResult)
    ensures TotalUsage(steps + [step]) == AddUsage(TotalUsage(steps), step.usage)
    ensures ResponseMessageCount(steps + [step]) ==
              ResponseMessageCount(steps) +
              (if step.stepType == Continue then 0 else if |step.toolResults| > 0 then 2 else 1)
  {
    assert (steps + [step])[..|steps|] == steps;
  }

  /** The variables the loop carries from one step to the next. */
  datatype LoopState = LoopState(
    stepType: StepType,
    steps: seq<StepResult>,
    usage: Usage,
    text: string,
    responseMessages: seq<CoreMessage>,
    promptMessages: seq<LanguageModelMessage>)

  /** The message history and the prompt built from it. */
  datatype History = History(responseMessages: seq<CoreMessage>, promptMessages: seq<LanguageModelMessage>)

  /** What a continuation step needs: an assistant message to rewrite and the
      prompt message converted from it. */
  predicate CanContinue(stepType: StepType, h: History) {
    stepType == Continue ==>
      |h.responseMessages| > 0 && LastMessage(h.responseMessages).AssistantMessage? && |h.promptMessages| > 0
  }

  /** The step record of one model call. A step followed by a continuation
      keeps its text only up to the last whitespace. */
  function MakeStep(stepType: StepType, response: ModelResponse, executed: Executed,
                    isContinued: bool, removeTextAfterLastWhitespace: string -> string): (r: StepResult)
    ensures r.stepType == stepType && r.isContinued == isContinued
    ensures r.toolCalls == executed.toolCalls && r.toolResults == executed.toolResults
    ensures r.finishReason == response.finishReason && r.usage == CalculateUsage(response.usage)
    ensures isContinued ==> r.text == removeTextAfterLastWhitespace(response.text.GetOr(""))
    ensures !isContinued ==> r.text == response.text.GetOr("")
  {
    var stepText := if isContinued then removeTextAfterLastWhitespace(response.text.GetOr(""))
                    else response.text.GetOr("");
    StepResult(stepType, stepText, executed.toolCalls, executed.toolResults, response.finishReason,
               CalculateUsage(response.usage), isContinued)
  }

  /** The history after a step: a continuation rewrites the last assistant
      message (and the prompt message converted from it); any other step
      appends its response messages, whose text is the accumulated text when
      a continuation follows. */
  function ExtendHistory(h: History, stepType: StepType, step: StepResult, text: string, responseText: Option<string>,
                         detectMimeType: seq<bv8> -> Option<string>): (r: History)
    requires CanContinue(stepType, h)
  {
    if stepType == Continue then
      var updated := ContinueMessage(LastMessage(h.responseMessages), text, step.text);
      History(h.responseMessages[..|h.responseMessages| - 1] + [updated],
              h.promptMessages[..|h.promptMessages| - 1] + [ConvertToLanguageModelMessage(updated, detectMimeType)])
    else
      var added := ToResponseMessages(if step.isContinued then Some(text) else responseText,
                                      step.toolCalls, step.toolResults);
      History(h.responseMessages + added, h.promptMessages + ConvertMessages(added, detectMimeType))
  }

  /** What a step does to the history: a continuation replaces the last
      response message by its rewrite, and the last prompt message by the
      conversion of that rewrite, keeping everything before them; any other
      step keeps the history and appends its response messages, and their
      conversions to the prompt. */
  lemma ExtendHistoryEffect(h: History, stepType: StepType, step: StepResult, text: string, responseText: Option<string>,
                            detectMimeType: seq<bv8> -> Option<string>)
    requires CanContinue(stepType, h)
    ensures var r := ExtendHistory(h, stepType, step, text, responseText, detectMimeType);
            stepType == Continue ==>
              var n, m := |h.responseMessages|, |h.promptMessages|;
              && |r.responseMessages| == n && |r.promptMessages| == m
              && r.responseMessages[..n - 1] == h.responseMessages[..n - 1]
              && r.responseMessages[n - 1] == ContinueMessage(h.responseMessages[n - 1], text, step.text)
              && r.promptMessages[..m - 1] == h.promptMessages[..m - 1]
              && r.promptMessages[m - 1] == ConvertToLanguageModelMessage(r.responseMessages[n - 1], detectMimeType)
    ensures var r := ExtendHistory(h, stepType, step, text, responseText, detectMimeType);
            stepType != Continue ==>
              var added := ToResponseMessages(if step.isContinued then Some(text) else responseText,
                                              step.toolCalls, step.toolResults);
              && h.responseMessages <= r.responseMessages
              && r.responseMessages[|h.responseMessages|..] == added
              && h.promptMessages <= r.promptMessages
              && r.promptMessages[|h.promptMessages|..] == ConvertMessages(added, detectMimeType)
  {
  }

  /** The update as written reaches the history, not only the returned text.
      A tool round-trip step "Hello " that a continuation follows appends the
      assistant message holding the loop's text: as written, after a
      tool-calling step "Hi ", that is "Hi Hello ", and the message goes into
      the response messages and, converted, into the next request's prompt;
      with the corrected update it is "Hello ". */
  lemma HistoryAsWrittenCarriesEarlierText(h: History, step: StepResult, detectMimeType: seq<bv8> -> Option<string>)
    requires step.stepType == ToolResultStep && step.isContinued && step.text == "Hello "
    requires step.toolCalls == [] && step.toolResults == []
    ensures var asWritten := ExtendHistory(h, ToolResultStep, step,
                                           UpdateTextAsWritten("Hi ", step.text, ToolResultStep, Continue), None, detectMimeType);
            var message := AssistantMessage(Parts([AssistantText("Hi Hello ")]));
            && asWritten.responseMessages == h.responseMessages + [message]
            && asWritten.promptMessages == h.promptMessages + [ConvertToLanguageModelMessage(message, detectMimeType)]
    ensures var corrected := ExtendHistory(h, ToolResultStep, step,
                                           UpdateText("Hi ", step.text, ToolResultStep), None, detectMimeType);
            var message := AssistantMessage(Parts([AssistantText("Hello ")]));
            && corrected.responseMessages == h.responseMessages + [message]
            && corrected.promptMessages == h.promptMessages + [ConvertToLanguageModelMessage(message, detectMimeType)]
  {
    ContinuationAfterToolStepAsWritten();
    assert ToolCallParts([]) == [];
    assert [AssistantText("Hi Hello ")] + [] == [AssistantText("Hi Hello ")];
    assert [AssistantText("Hello ")] + [] == [AssistantText("Hello ")];
    assert ToResponseMessages(Some("Hi Hello "), [], []) == [AssistantMessage(Parts([AssistantText("Hi Hello ")]))];
    assert ToResponseMessages(Some("Hello "), [], []) == [AssistantMessage(Parts([AssistantText("Hello ")]))];
  }

  /** The prompt stays the initial prompt followed by the converted history. */
  lemma ExtendHistoryKeepsPrompt(h: History, stepType: StepType, step: StepResult, text: string, responseText: Option<string>,
                                 initialPrompt: seq<LanguageModelMessage>, detectMimeType: seq<bv8> -> Option<string>)
    requires CanContinue(stepType, h)
    requires step.isContinued ==> |step.toolResults| == 0
    requires h.promptMessages == initialPrompt + ConvertMessages(h.responseMessages, detectMimeType)
    ensures var h' := ExtendHistory(h, stepType, step, text, responseText, detectMimeType);
            && h'.promptMessages == initialPrompt + ConvertMessages(h'.responseMessages, detectMimeType)
            && |h'.responseMessages| == |h.responseMessages| +
                 (if stepType == Continue then 0 else if |step.toolResults| > 0 then 2 else 1)
            && (step.isContinued ==> |h'.responseMessages| > 0 && LastMessage(h'.responseMessages).AssistantMessage?)
  {
    var h' := ExtendHistory(h, stepType, step, text, responseText, detectMimeType);
    if stepType == Continue {
      var updated := ContinueMessage(LastMessage(h.responseMessages), text, step.text);
      assert h' == History(h.responseMessages[..|h.responseMessages| - 1] + [updated],
                           h.promptMessages[..|h.promptMessages| - 1] + [ConvertToLanguageModelMessage(updated, detectMimeType)]);
      RewriteLastKeepsPrompt(h.responseMessages, updated, h.promptMessages, initialPrompt, detectMimeType);
    } else {
      var added := ToResponseMessages(if step.isContinued then Some(text) else responseText, step.toolCalls, step.toolResults);
      assert h' == History(h.responseMessages + added, h.promptMessages + ConvertMessages(added, detectMimeType));
      AppendKeepsPrompt(h.responseMessages, added, h.promptMessages, initialPrompt, detectMimeType);
    }
  }

  lemma RewriteLastKeepsPrompt(ms: seq<CoreMessage>, updated: CoreMessage, pm: seq<LanguageModelMessage>,
                               initialPrompt: seq<LanguageModelMessage>, detectMimeType: seq<bv8> -> Option<string>)
    requires |ms| > 0 && pm == initialPrompt + ConvertMessages(ms, detectMimeType)
    ensures |pm| > 0
    ensures pm[..|pm| - 1] + [ConvertToLanguageModelMessage(updated, detectMimeType)] ==
            initialPrompt + ConvertMessages(ms[..|ms| - 1] + [updated], detectMimeType)
  {
    var kept, last := ms[..|ms| - 1], ms[|ms| - 1];
    var k := ConvertMessages(kept, detectMimeType);
    var x, y := ConvertToLanguageModelMessage(last, detectMimeType), ConvertToLanguageModelMessage(updated, detectMimeType);
    assert ConvertMessages(ms, detectMimeType) == k + [x] by {
      SplitLast(ms);
      ConvertMessagesAppend(kept, [last], detectMimeType);
      assert ConvertMessages([last], detectMimeType) == [x];
    }
    assert ConvertMessages(kept + [updated], detectMimeType) == k + [y] by {
      ConvertMessagesAppend(kept, [updated], detectMimeType);
      assert ConvertMessages([updated], detectMimeType) == [y];
    }
    ReplaceLast(pm, initialPrompt, k, x, y, initialPrompt + ConvertMessages(kept + [updated], detectMimeType));
  }

  lemma ReplaceLast<T>(whole: seq<T>, p: seq<T>, k: seq<T>, x: T, y: T, target: seq<T>)
    requires whole == p + (k + [x]) && target == p + (k + [y])
    ensures |whole| > 0 && whole[..|whole| - 1] + [y] == target
  {
    assert (p + (k + [x]))[..|p| + |k|] == p + k;
    assert (p + k) + [y] == p + (k + [y]);
  }

  lemma AppendKeepsPrompt(ms: seq<CoreMessage>, added: seq<CoreMessage>, pm: seq<LanguageModelMessage>,
                          initialPrompt: seq<LanguageModelMessage>, detectMimeType: seq<bv8> -> Option<string>)
    requires pm == initialPrompt + ConvertMessages(ms, detectMimeType)
    ensures pm + ConvertMessages(added, detectMimeType) == initialPrompt + ConvertMessages(ms + added, detectMimeType)
  {
    ConvertMessagesAppend(ms, added, detectMimeType);
    var a, b, c := initialPrompt, ConvertMessages(ms, detectMimeType), ConvertMessages(added, detectMimeType);
    SeqAssoc(a, b, c);
  }

  lemma SplitLast<T>(s: seq<T>)
    requires |s| > 0
    ensures s == s[..|s| - 1] + [s[|s| - 1]]
  {
  }

  lemma DropLast<T>(a: seq<T>, x: T)
    ensures (a + [x])[..|a|] == a
  {
  }

  lemma PrefixOfAppend<T>(a: seq<T>, b: seq<T>)
    ensures a <= a + b
  {
  }

  lemma SeqAssoc<T>(a: seq<T>, b: seq<T>, c: seq<T>)
    ensures (a + b) + c == a + (b + c)
  {
  }

  /** One iteration of the loop body after the model responded and the tools
      ran: decide the next step, update the text, record the step and rewrite
      or extend the message history. */
  function AdvanceStep(s: LoopState, response: ModelResponse, executed: Executed,
                       maxSteps: int, continueSteps: bool,
                       removeTextAfterLastWhitespace: string -> string,
                       detectMimeType: seq<bv8> -> Option<string>): (r: LoopState)
    requires CanContinue(s.stepType, History(s.responseMessages, s.promptMessages))
    ensures r.stepType == NextStepType(|s.steps| + 1, maxSteps, continueSteps, response.finishReason,
                                       |executed.toolCalls|, |executed.toolResults|)
    ensures |r.steps| == |s.steps| + 1 && r.steps[..|s.steps|] == s.steps
    ensures r.steps[|s.steps|] == MakeStep(s.stepType, response, executed, r.stepType == Continue, removeTextAfterLastWhitespace)
    ensures History(r.responseMessages, r.promptMessages) ==
              ExtendHistory(History(s.responseMessages, s.promptMessages), s.stepType, r.steps[|s.steps|], r.text,
                            response.text, detectMimeType)
    ensures var step := r.steps[|s.steps|];
            && step.stepType == s.stepType
            && step.isContinued == (r.stepType == Continue)
            && r.usage == AddUsage(s.usage, step.usage)
            && r.text == UpdateText(s.text, step.text, s.stepType)
  {
    var next := NextStepType(|s.steps| + 1, maxSteps, continueSteps, response.finishReason,
                             |executed.toolCalls|, |executed.toolResults|);
    var step := MakeStep(s.stepType, response, executed, next == Continue, removeTextAfterLastWhitespace);
    var text := UpdateText(s.text, step.text, s.stepType);
    var h := ExtendHistory(History(s.responseMessages, s.promptMessages), s.stepType, step, text, response.text, detectMimeType);
    assert (s.steps + [step])[..|s.steps|] == s.steps;
    LoopState(next, s.steps + [step], AddUsage(s.usage, step.usage), text, h.responseMessages, h.promptMessages)
  }

  /** The step chain the loop has built so far, with the usage and text it
      accumulates. */
  ghost predicate ChainInv(s: LoopState, maxSteps: int, continueSteps: bool) {
    && |s.steps| <= maxSteps
    && (s.stepType == Initial <==> |s.steps| == 0)
    && (|s.steps| > 0 ==> s.stepType == NextAfter(s.steps, |s.steps| - 1, maxSteps, continueSteps))
    && (s.stepType != Done ==> |s.steps| < maxSteps)
    && WellChained(s.steps, maxSteps, continueSteps)
    && s.usage == TotalUsage(s.steps)
    && s.text == ChainText(s.steps)
  }

  /** The message history: it is the one the steps build, the prompt is the
      initial prompt followed by the converted history, and a pending
      continuation has an assistant message to rewrite. */
  ghost predicate HistoryInv(s: LoopState, initialPrompt: seq<LanguageModelMessage>, detectMimeType: seq<bv8> -> Option<string>) {
    && s.promptMessages == initialPrompt + ConvertMessages(s.responseMessages, detectMimeType)
    && |s.responseMessages| == ResponseMessageCount(s.steps)
    && s.responseMessages == ResponseMessagesOf(s.steps)
    && (s.stepType == Continue ==> |s.responseMessages| > 0 && LastMessage(s.responseMessages).AssistantMessage?)
  }

  /** The requests sent so far: one per step, the first is the initial prompt,
      each extends it, and each step was built from the response to its request. */
  ghost predicate TraceInv(steps: seq<StepResult>, requests: seq<seq<LanguageModelMessage>>, initialPrompt: seq<LanguageModelMessage>,
                           model: (nat, seq<LanguageModelMessage>) -> ModelResponse, tools: Option<map<string, Tool>>,
                           parse: (string, string, string) -> Result<ToolCall, ErrorValue>,
                           removeTextAfterLastWhitespace: string -> string) {
    && |steps| == |requests|
    && (|requests| > 0 ==> requests[0] == initialPrompt)
    && (forall i :: 0 <= i < |requests| ==> initialPrompt <= requests[i])
    && (forall i :: 0 <= i < |steps| ==>
          StepMatchesResponse(steps[i], model(i, requests[i]), tools, parse, removeTextAfterLastWhitespace))
  }

  lemma HistoryCanContinue(s: LoopState, initialPrompt: seq<LanguageModelMessage>, detectMimeType: seq<bv8> -> Option<string>)
    requires HistoryInv(s, initialPrompt, detectMimeType)
    ensures CanContinue(s.stepType, History(s.responseMessages, s.promptMessages))
    ensures initialPrompt <= s.promptMessages
  {
    PrefixOfAppend(initialPrompt, ConvertMessages(s.responseMessages, detectMimeType));
  }

  /** Appending a step of the decided type keeps the chain well formed. */
  lemma ChainAppend(steps: seq<StepResult>, step: StepResult, maxSteps: int, continueSteps: bool)
    requires WellChained(steps, maxSteps, continueSteps)
    requires |steps| == 0 ==> step.stepType == Initial
    requires |steps| > 0 ==> NextAfter(steps, |steps| - 1, maxSteps, continueSteps) != Done &&
                             step.stepType == NextAfter(steps, |steps| - 1, maxSteps, continueSteps)
    requires step.isContinued == (NextAfter(steps + [step], |steps|, maxSteps, continueSteps) == Continue)
    ensures WellChained(steps + [step], maxSteps, continueSteps)
  {
    var s' := steps + [step];
    forall i | 0 <= i < |s'| - 1
      ensures NextAfter(s', i, maxSteps, continueSteps) != Done
      ensures s'[i + 1].stepType == NextAfter(s', i, maxSteps, continueSteps)
    {
      assert NextAfter(s', i, maxSteps, continueSteps) == NextAfter(steps, i, maxSteps, continueSteps);
    }
    forall i | 0 <= i < |s'|
      ensures s'[i].isContinued == (NextAfter(s', i, maxSteps, continueSteps) == Continue)
    {
      if i < |steps| {
        assert NextAfter(s', i, maxSteps, continueSteps) == NextAfter(steps, i, maxSteps, continueSteps);
      }
    }
  }

  /** One iteration extends the chain by the step the previous one decided. */
  lemma AdvanceChain(s: LoopState, s': LoopState, step: StepResult, maxSteps: int, continueSteps: bool)
    requires s.stepType != Done
    requires ChainInv(s, maxSteps, continueSteps)
    requires s'.steps == s.steps + [step] && step.stepType == s.stepType
    requires s'.stepType == NextAfter(s'.steps, |s.steps|, maxSteps, continueSteps)
    requires step.isContinued == (s'.stepType == Continue)
    requires s'.usage == AddUsage(s.usage, step.usage) && s'.text == UpdateText(s.text, step.text, s.stepType)
    ensures ChainInv(s', maxSteps, continueSteps)
  {
    TotalUsageStep(s.steps, step);
    ChainTextStep(s.steps, step);
    ChainAppend(s.steps, step, maxSteps, continueSteps);
  }

  /** One iteration keeps the prompt in step with the history. */
  lemma AdvanceHistory(s: LoopState, response: ModelResponse, executed: Executed,
                       initialPrompt: seq<LanguageModelMessage>, maxSteps: int, continueSteps: bool,
                       removeTextAfterLastWhitespace: string -> string,
                       detectMimeType: seq<bv8> -> Option<string>)
    requires HistoryInv(s, initialPrompt, detectMimeType)
    requires s.text == ChainText(s.steps)
    requires |executed.toolResults| <= |executed.toolCalls|
    ensures CanContinue(s.stepType, History(s.responseMessages, s.promptMessages))
    ensures HistoryInv(AdvanceStep(s, response, executed, maxSteps, continueSteps, removeTextAfterLastWhitespace, detectMimeType),
                       initialPrompt, detectMimeType)
  {
    HistoryCanContinue(s, initialPrompt, detectMimeType);
    var s' := AdvanceStep(s, response, executed, maxSteps, continueSteps, removeTextAfterLastWhitespace, detectMimeType);
    var step := s'.steps[|s.steps|];
    ExtendHistoryKeepsPrompt(History(s.responseMessages, s.promptMessages), s.stepType, step, s'.text, response.text,
                             initialPrompt, detectMimeType);
    SplitLast(s'.steps);
    TotalUsageStep(s.steps, step);
    ChainTextStep(s.steps, step);
    ResponseMessagesStep(s.steps, step);
  }

  /** A step built from a response whose tool calls parsed and ran matches
      that response. */
  lemma MakeStepMatches(stepType: StepType, response: ModelResponse, executed: Executed, isContinued: bool,
                        tools: Option<map<string, Tool>>, parse: (string, string, string) -> Result<ToolCall, ErrorValue>,
                        removeTextAfterLastWhitespace: string -> string)
    requires StepOutcome(response.toolCalls, tools, parse) == Success(executed)
    ensures StepMatchesResponse(MakeStep(stepType, response, executed, isContinued, removeTextAfterLastWhitespace),
                                response, tools, parse, removeTextAfterLastWhitespace)
  {
  }

  /** One iteration records the request it sent and the step built from the
      response. */
  lemma AdvanceTrace(steps: seq<StepResult>, step: StepResult, requests: seq<seq<LanguageModelMessage>>,
                     request: seq<LanguageModelMessage>, initialPrompt: seq<LanguageModelMessage>,
                     model: (nat, seq<LanguageModelMessage>) -> ModelResponse, tools: Option<map<string, Tool>>,
                     parse: (string, string, string) -> Result<ToolCall, ErrorValue>,
                     removeTextAfterLastWhitespace: string -> string)
    requires TraceInv(steps, requests, initialPrompt, model, tools, parse, removeTextAfterLastWhitespace)
    requires initialPrompt <= request
    requires |requests| == 0 ==> request == initialPrompt
    requires StepMatchesResponse(step, model(|steps|, request), tools, parse, removeTextAfterLastWhitespace)
    ensures TraceInv(steps + [step], requests + [request], initialPrompt, model, tools, parse, removeTextAfterLastWhitespace)
  {
    TraceAppend(steps, step, requests, request, initialPrompt, model, tools, parse, removeTextAfterLastWhitespace);
  }

  /** The trace of requests grows with the steps: each step still matches the
      response to its request, and every request extends the initial prompt. */
  lemma TraceAppend(steps: seq<StepResult>, step: StepResult, requests: seq<seq<LanguageModelMessage>>,
                    request: seq<LanguageModelMessage>, initialPrompt: seq<LanguageModelMessage>,
                    model: (nat, seq<LanguageModelMessage>) -> ModelResponse, tools: Option<map<string, Tool>>,
                    parse: (string, string, string) -> Result<ToolCall, ErrorValue>,
                    removeTextAfterLastWhitespace: string -> string)
    requires |steps| == |requests|
    requires forall i :: 0 <= i < |steps| ==>
               StepMatchesResponse(steps[i], model(i, requests[i]), tools, parse, removeTextAfterLastWhitespace)
    requires StepMatchesResponse(step, model(|steps|, request), tools, parse, removeTextAfterLastWhitespace)
    requires forall i :: 0 <= i < |requests| ==> initialPrompt <= requests[i]
    requires initialPrompt <= request
    ensures forall i :: 0 <= i < |steps| + 1 ==>
              StepMatchesResponse((steps + [step])[i], model(i, (requests + [request])[i]), tools, parse,
                                  removeTextAfterLastWhitespace)
    ensures forall i :: 0 <= i < |requests| + 1 ==> initialPrompt <= (requests + [request])[i]
  {
  }

  /** The loop invariant of `generateText`: the chain, the history and the
      trace of requests, and a prompt from which the next step can be built. */
  ghost predicate LoopInv(s: LoopState, requests: seq<seq<LanguageModelMessage>>, initialPrompt: seq<LanguageModelMessage>,
                          model: (nat, seq<LanguageModelMessage>) -> ModelResponse, tools: Option<map<string, Tool>>,
                          parse: (string, string, string) -> Result<ToolCall, ErrorValue>,
                          maxSteps: int, continueSteps: bool,
                          removeTextAfterLastWhitespace: string -> string,
                          detectMimeType: seq<bv8> -> Option<string>) {
    && ChainInv(s, maxSteps, continueSteps)
    && HistoryInv(s, initialPrompt, detectMimeType)
    && CanContinue(s.stepType, History(s.responseMessages, s.promptMessages))
    && TraceInv(s.steps, requests, initialPrompt, model, tools, parse, removeTextAfterLastWhitespace)
    && (|requests| == 0 ==> s.promptMessages == initialPrompt)
  }

  /** The loop starts from the initial prompt with no steps. */
  lemma StartLoop(initialPrompt: seq<LanguageModelMessage>,
                  model: (nat, seq<LanguageModelMessage>) -> ModelResponse, tools: Option<map<string, Tool>>,
                  parse: (string, string, string) -> Result<ToolCall, ErrorValue>,
                  maxSteps: int, continueSteps: bool,
                  removeTextAfterLastWhitespace: string -> string,
                  detectMimeType: seq<bv8> -> Option<string>)
    requires maxSteps >= 1
    ensures LoopInv(LoopState(Initial, [], ZeroUsage, "", [], initialPrompt), [], initialPrompt, model, tools, parse,
                    maxSteps, continueSteps, removeTextAfterLastWhitespace, detectMimeType)
  {
    assert ConvertMessages([], detectMimeType) == [];
  }

  /** One iteration that calls the model on the current prompt and executes
      its tool calls keeps the loop invariant and adds one step. */
  lemma AdvanceLoop(s: LoopState, requests: seq<seq<LanguageModelMessage>>, initialPrompt: seq<LanguageModelMessage>,
                    model: (nat, seq<LanguageModelMessage>) -> ModelResponse, tools: Option<map<string, Tool>>,
                    parse: (string, string, string) -> Result<ToolCall, ErrorValue>,
                    maxSteps: int, continueSteps: bool,
                    removeTextAfterLastWhitespace: string -> string,
                    detectMimeType: seq<bv8> -> Option<string>,
                    executed: Executed)
    requires LoopInv(s, requests, initialPrompt, model, tools, parse, maxSteps, continueSteps, removeTextAfterLastWhitespace, detectMimeType)
    requires s.stepType != Done
    requires StepOutcome(model(|s.steps|, s.promptMessages).toolCalls, tools, parse) == Success(executed)
    ensures var s' := AdvanceStep(s, model(|s.steps|, s.promptMessages), executed, maxSteps, continueSteps,
                                  removeTextAfterLastWhitespace, detectMimeType);
            && LoopInv(s', requests + [s.promptMessages], initialPrompt, model, tools, parse, maxSteps, continueSteps,
                       removeTextAfterLastWhitespace, detectMimeType)
            && |s'.steps| == |s.steps| + 1
  {
    var response := model(|s.steps|, s.promptMessages);
    var s' := AdvanceStep(s, response, executed, maxSteps, continueSteps, removeTextAfterLastWhitespace, detectMimeType);
    StepToolResultsBound(executed.toolCalls, tools);
    AdvanceHistory(s, response, executed, initialPrompt, maxSteps, continueSteps,
                   removeTextAfterLastWhitespace, detectMimeType);
    HistoryCanContinue(s, initialPrompt, detectMimeType);
    HistoryCanContinue(s', initialPrompt, detectMimeType);
    AdvanceChainAndTrace(s, requests, initialPrompt, model, tools, parse, maxSteps, continueSteps,
                         removeTextAfterLastWhitespace, detectMimeType, executed);
  }

  /** The chain and trace half of one iteration. */
  lemma AdvanceChainAndTrace(s: LoopState, requests: seq<seq<LanguageModelMessage>>, initialPrompt: seq<LanguageModelMessage>,
                             model: (nat, seq<LanguageModelMessage>) -> ModelResponse, tools: Option<map<string, Tool>>,
                             parse: (string, string, string) -> Result<ToolCall, ErrorValue>,
                             maxSteps: int, continueSteps: bool,
                             removeTextAfterLastWhitespace: string -> string,
                             detectMimeType: seq<bv8> -> Option<string>,
                             executed: Executed)
    requires ChainInv(s, maxSteps, continueSteps) && s.stepType != Done
    requires CanContinue(s.stepType, History(s.responseMessages, s.promptMessages))
    requires TraceInv(s.steps, requests, initialPrompt, model, tools, parse, removeTextAfterLastWhitespace)
    requires initialPrompt <= s.promptMessages && (|requests| == 0 ==> s.promptMessages == initialPrompt)
    requires StepOutcome(model(|s.steps|, s.promptMessages).toolCalls, tools, parse) == Success(executed)
    ensures var s' := AdvanceStep(s, model(|s.steps|, s.promptMessages), executed, maxSteps, continueSteps,
                                  removeTextAfterLastWhitespace, detectMimeType);
            && ChainInv(s', maxSteps, continueSteps)
            && TraceInv(s'.steps, requests + [s.promptMessages], initialPrompt, model, tools, parse, removeTextAfterLastWhitespace)
            && |s'.steps| == |s.steps| + 1
  {
    var response := model(|s.steps|, s.promptMessages);
    var s' := AdvanceStep(s, response, executed, maxSteps, continueSteps, removeTextAfterLastWhitespace, detectMimeType);
    var step := s'.steps[|s.steps|];
    SplitLast(s'.steps);
    AdvanceChain(s, s', step, maxSteps, continueSteps);
    MakeStepMatches(s.stepType, response, executed, s'.stepType == Continue, tools, parse, removeTextAfterLastWhitespace);
    AdvanceTrace(s.steps, step, requests, s.promptMessages, initialPrompt, model, tools, parse, removeTextAfterLastWhitespace);
  }

  /** When the loop stops, its steps form a complete run, one per request. */
  lemma FinishLoop(s: LoopState, requests: seq<seq<LanguageModelMessage>>, initialPrompt: seq<LanguageModelMessage>,
                   model: (nat, seq<LanguageModelMessage>) -> ModelResponse, tools: Option<map<string, Tool>>,
                   parse: (string, string, string) -> Result<ToolCall, ErrorValue>,
                   maxSteps: int, continueSteps: bool,
                   removeTextAfterLastWhitespace: string -> string,
                   detectMimeType: seq<bv8> -> Option<string>)
    requires LoopInv(s, requests, initialPrompt, model, tools, parse, maxSteps, continueSteps, removeTextAfterLastWhitespace, detectMimeType)
    requires s.stepType == Done
    ensures |s.steps| > 0
    ensures CompletedRun(RunResult(s.text, s.usage, s.responseMessages, s.steps), requests, initialPrompt, model, tools, parse,
                         maxSteps, continueSteps, removeTextAfterLastWhitespace)
  {
  }

  /** The tool calls, tool results and finish reason of a result are those of
      its last step. */
  ghost predicate ReportsLastStep(res: GenerateTextResult) {
    && |res.steps| > 0
    && res.finishReason == res.steps[|res.steps| - 1].finishReason
    && res.toolCalls == res.steps[|res.steps| - 1].toolCalls
    && res.toolResults == res.steps[|res.steps| - 1].toolResults
  }

  /** The result of a finished run. */
  function RunResult(text: string, usage: Usage, responseMessages: seq<CoreMessage>, steps: seq<StepResult>): (r: GenerateTextResult)
    requires |steps| > 0
    ensures r.text == text && r.usage == usage && r.responseMessages == responseMessages && r.steps == steps
    ensures ReportsLastStep(r)
  {
    var last := steps[|steps| - 1];
    GenerateTextResult(text, last.toolCalls, last.toolResults, last.finishReason, usage, responseMessages, steps)
  }

  /** A response whose tool calls do not parse, or whose tools fail, ends the
      run: every earlier response was handled, and the request that drew it
      is the last one sent. */
  lemma FailLoop(steps: seq<StepResult>, requests: seq<seq<LanguageModelMessage>>, request: seq<LanguageModelMessage>,
                 initialPrompt: seq<LanguageModelMessage>,
                 model: (nat, seq<LanguageModelMessage>) -> ModelResponse, tools: Option<map<string, Tool>>,
                 parse: (string, string, string) -> Result<ToolCall, ErrorValue>,
                 maxSteps: int, removeTextAfterLastWhitespace: string -> string, error: ErrorValue)
    requires TraceInv(steps, requests, initialPrompt, model, tools, parse, removeTextAfterLastWhitespace)
    requires |requests| == 0 ==> request == initialPrompt
    requires |requests| < maxSteps
    requires StepOutcome(model(|requests|, request).toolCalls, tools, parse) == Failure(error)
    ensures |requests + [request]| <= maxSteps
    ensures FailedRun(requests + [request], initialPrompt, model, tools, parse, error)
  {
  }

  /** A failed run: the first request is the initial prompt, every response
      but the last was handled, and the last one's tool calls failed to parse
      or to execute with `error`. */
  ghost predicate FailedRun(requests: seq<seq<LanguageModelMessage>>, initialPrompt: seq<LanguageModelMessage>,
                            model: (nat, seq<LanguageModelMessage>) -> ModelResponse, tools: Option<map<string, Tool>>, parse: (string, string, string) -> Result<ToolCall, ErrorValue>, error: ErrorValue) {
    && |requests| > 0
    && requests[0] == initialPrompt
    && (forall i :: 0 <= i < |requests| - 1 ==> StepOutcome(model(i, requests[i]).toolCalls, tools, parse).Success?)
    && StepOutcome(model(|requests| - 1, requests[|requests| - 1]).toolCalls, tools, parse) == Failure(error)
  }

  /** A finished run: its steps form a complete chain, one per request; the
      requests start with the initial prompt and extend it; each step was
      built from the response to its request; and the result carries the
      steps' total usage, the text of the last logical message, the history
      the steps build and the last step's calls, results and finish reason. */
  ghost predicate CompletedRun(res: GenerateTextResult, requests: seq<seq<LanguageModelMessage>>, initialPrompt: seq<LanguageModelMessage>,
                               model: (nat, seq<LanguageModelMessage>) -> ModelResponse, tools: Option<map<string, Tool>>, parse: (string, string, string) -> Result<ToolCall, ErrorValue>,
                               maxSteps: int, continueSteps: bool, removeTextAfterLastWhitespace: string -> string) {
    var steps := res.steps;
    && CompleteRun(steps, maxSteps, continueSteps)
    && |steps| == |requests| <= maxSteps
    && requests[0] == initialPrompt
    && (forall i :: 0 <= i < |requests| ==> requests[0] <= requests[i])
    && (forall i :: 0 <= i < |steps| ==>
          StepMatchesResponse(steps[i], model(i, requests[i]), tools, parse, removeTextAfterLastWhitespace))
    && res.usage == TotalUsage(steps)
    && res.text == ChainText(steps)
    && res.responseMessages == ResponseMessagesOf(steps)
    && |res.responseMessages| == ResponseMessageCount(steps)
    && ReportsLastStep(res)
  }

  /** `generateText`, given the resolved `maxSteps`. The prompt is validated
      and converted by the `Prompt` helpers, which stand in for the ones
      `generateText` imports. `requests` lists the
      prompts sent to the model, one per model call, in order. A response
      whose tool calls do not parse, or whose tools fail, ends the run after
      that call. */
  method GenerateText(
    model: (nat, seq<LanguageModelMessage>) -> ModelResponse,
    tools: Option<map<string, Tool>>,
    parse: (string, string, string) -> Result<ToolCall, ErrorValue>,
    prompt: PromptInput,
    maxSteps: int,
    continueSteps: bool,
    removeTextAfterLastWhitespace: string -> string,
    detectMimeType: seq<bv8> -> Option<string>)
    returns (r: Result<GenerateTextResult, ErrorValue>, requests: seq<seq<LanguageModelMessage>>)
    ensures maxSteps < 1 ==> r == Failure(InvalidArgumentError("maxSteps", MaxStepsMessage)) && requests == []
    ensures maxSteps >= 1 && GetValidatedPrompt(prompt).Failure? ==>
              r == Failure(GetValidatedPrompt(prompt).error) && requests == []
    ensures |requests| <= (if maxSteps < 1 then 0 else maxSteps)
    ensures r.Failure? && maxSteps >= 1 && GetValidatedPrompt(prompt).Success? ==>
              FailedRun(requests, ConvertToLanguageModelPrompt(GetValidatedPrompt(prompt).value, detectMimeType),
                        model, tools, parse, r.error)
    ensures r.Success? ==>
              && GetValidatedPrompt(prompt).Success?
              && CompletedRun(r.value, requests, ConvertToLanguageModelPrompt(GetValidatedPrompt(prompt).value, detectMimeType),
                              model, tools, parse, maxSteps, continueSteps, removeTextAfterLastWhitespace)
  {
    requests := [];
    if maxSteps < 1 {
      r := Failure(InvalidArgumentError("maxSteps", MaxStepsMessage));
      return;
    }
    var validated := GetValidatedPrompt(prompt);
    if validated.Failure? {
      r := Failure(validated.error);
      return;
    }
    var initialPrompt := ConvertToLanguageModelPrompt(validated.value, detectMimeType);
    var s := LoopState(Initial, [], ZeroUsage, "", [], initialPrompt);
    StartLoop(initialPrompt, model, tools, parse, maxSteps, continueSteps, removeTextAfterLastWhitespace, detectMimeType);

    while s.stepType != Done
      invariant LoopInv(s, requests, initialPrompt, model, tools, parse, maxSteps, continueSteps,
                        removeTextAfterLastWhitespace, detectMimeType)
      decreases maxSteps - |s.steps|
    {
      var response := model(|s.steps|, s.promptMessages);
      var executed := StepOutcome(response.toolCalls, tools, parse);
      if executed.Failure? {
        FailLoop(s.steps, requests, s.promptMessages, initialPrompt, model, tools, parse, maxSteps,
                 removeTextAfterLastWhitespace, executed.error);
        r := Failure(executed.error);
        requests := requests + [s.promptMessages];
        return;
      }
      AdvanceLoop(s, requests, initialPrompt, model, tools, parse, maxSteps, continueSteps,
                  removeTextAfterLastWhitespace, detectMimeType, executed.value);
      requests := requests + [s.promptMessages];
      s := AdvanceStep(s, response, executed.value, maxSteps, continueSteps,
                       removeTextAfterLastWhitespace, detectMimeType);
    }

    FinishLoop(s, requests, initialPrompt, model, tools, parse, maxSteps, continueSteps,
               removeTextAfterLastWhitespace, detectMimeType);
    r := Success(RunResult(s.text, s.usage, s.responseMessages, s.steps));
  }

  // ---------------------------------------------------------------------
  // properties of complete runs

  /** A model that calls no tools, without continuation, is called once and
      its finish reason is the run's. */
  lemma NoToolCallsSingleStep(steps: seq<StepResult>, maxSteps: int)
    requires CompleteRun(steps, maxSteps, false)
    requires |steps[0].toolCalls| == 0
    ensures |steps| == 1
  {
  }

  /** A tool round trip happens only when the previous step made tool calls
      and every one of them got a result. */
  lemma ToolResultStepHasAllResults(steps: seq<StepResult>, maxSteps: int, continueSteps: bool, i: nat)
    requires WellChained(steps, maxSteps, continueSteps)
    requires 0 < i < |steps| && steps[i].stepType == ToolResultStep
    ensures |steps[i - 1].toolCalls| > 0
    ensures |steps[i - 1].toolResults| == |steps[i - 1].toolCalls|
  {
    assert steps[i].stepType == NextAfter(steps, i - 1, maxSteps, continueSteps);
  }

  /** A continuation follows only a step cut off by length that made no tool
      calls, and only when continuation is enabled. */
  lemma ContinueStepFollowsLength(steps: seq<StepResult>, maxSteps: int, continueSteps: bool, i: nat)
    requires WellChained(steps, maxSteps, continueSteps)
    requires 0 < i < |steps| && steps[i].stepType == Continue
    ensures continueSteps
    ensures steps[i - 1].finishReason == Length && |steps[i - 1].toolCalls| == 0
    ensures steps[i - 1].isContinued
  {
    assert steps[i].stepType == NextAfter(steps, i - 1, maxSteps, continueSteps);
  }

  /** A tool call without an executor keeps the run from a tool round trip. */
  lemma MissingExecutorEndsRoundTrips(calls: seq<ToolCall>, tools: Option<map<string, Tool>>, j: nat,
                                      stepCount: nat, maxSteps: int, continueSteps: bool, finishReason: FinishReason)
    requires j < |calls| && (tools.None? || !HasExecutor(calls[j], tools.value))
    requires StepToolResults(calls, tools).Success?
    ensures NextStepType(stepCount, maxSteps, continueSteps, finishReason,
                         |calls|, |StepToolResults(calls, tools).value|) != ToolResultStep
  {
    StepToolResultsBound(calls, tools);
  }

  lemma AddTokensAssoc(a: Tokens, b: Tokens, c: Tokens)
    ensures AddTokens(AddTokens(a, b), c) == AddTokens(a, AddTokens(b, c))
  {
  }

  /** Usage over two runs of steps is the sum of their usages. */
  lemma {:induction false} TotalUsageAppend(a: seq<StepResult>, b: seq<StepResult>)
    ensures TotalUsage(a + b) == AddUsage(TotalUsage(a), TotalUsage(b))
    decreases |b|
  {
    if |b| == 0 {
      assert a + b == a;
      var t := TotalUsage(a);
      assert AddUsage(t, ZeroUsage) == t;
    } else {
      var b' := b[..|b| - 1];
      var x := b[|b| - 1];
      assert a + b == (a + b') + [x];
      assert b == b' + [x];
      TotalUsageStep(a + b', x);
      TotalUsageStep(b', x);
      TotalUsageAppend(a, b');
      var ta, tb := TotalUsage(a), TotalUsage(b');
      AddTokensAssoc(ta.promptTokens, tb.promptTokens, x.usage.promptTokens);
      AddTokensAssoc(ta.completionTokens, tb.completionTokens, x.usage.completionTokens);
      AddTokensAssoc(ta.totalTokens, tb.totalTokens, x.usage.totalTokens);
    }
  }

  /** Usage never decreases as steps are added: a count known after more steps
      was known before, and was no larger. */
  lemma UsageMonotone(a: seq<StepResult>, b: seq<StepResult>)
    ensures var before, after := TotalUsage(a), TotalUsage(a + b);
            && (after.promptTokens.Some? ==> before.promptTokens.Some? && before.promptTokens.value <= after.promptTokens.value)
            && (after.completionTokens.Some? ==> before.completionTokens.Some? && before.completionTokens.value <= after.completionTokens.value)
            && (after.totalTokens.Some? ==> before.totalTokens.Some? && before.totalTokens.value <= after.totalTokens.value)
  {
    TotalUsageAppend(a, b);
  }

  /** A run whose last step is not a continuation returns that step's text;
      a step cut off by length followed by its continuation returns both
      texts joined. */
  lemma ChainTextCases(steps: seq<StepResult>)
    requires |steps| > 0
    ensures steps[|steps| - 1].stepType != Continue ==> ChainText(steps) == steps[|steps| - 1].text
    ensures |steps| == 2 && steps[0].stepType != Continue && steps[1].stepType == Continue ==>
              ChainText(steps) == steps[0].text + steps[1].text
  {
    if |steps| == 2 {
      assert steps[..1][..0] == [];
    }
  }
}

=== FILE: google.dfy ===
/** The Google Generative AI adapter (`GoogleGenerativeAILanguageModel`): the
    model id it stores, the warnings of `getArgs`, the tool configuration it
    sends, and how text and tool calls are read off response parts, both in
    one response and in the `doStream` transform. */
module Google {
  import opened Wrappers
  import opened CoreTypes

  const ModelsPrefix: string := "models/"

  /** The constructor drops the deprecated `models/` prefix of a model id. */
  function StripModelsPrefix(modelId: string): (r: string)
    ensures ModelsPrefix <= modelId ==> ModelsPrefix + r == modelId
    ensures !(ModelsPrefix <= modelId) ==> r == modelId
  {
    if ModelsPrefix <= modelId then modelId[|ModelsPrefix|..] else modelId
  }

  // ---------------------------------------------------------------------
  // getArgs warnings
  // ---------------------------------------------------------------------

  const WarningOrder: seq<Setting> := [FrequencyPenalty, PresencePenalty, Seed]


  /** The settings Google does not support each produce one warning without
      details, in a fixed order. */
  function GetArgsWarnings(settings: CallSettings): (r: seq<Warning>)
    ensures UnsupportedSetting(FrequencyPenalty, None) in r <==> settings.frequencyPenalty.Some?
    ensures UnsupportedSetting(PresencePenalty, None) in r <==> settings.presencePenalty.Some?
    ensures UnsupportedSetting(Seed, None) in r <==> settings.seed.Some?
    ensures forall w :: w in r ==> w.details.None? && w.setting in WarningOrder
    ensures InOrder(r, WarningOrder)
  {
    WarningsFor(WarningOrder, s => Given(settings, s), s => None)
  }

  // ---------------------------------------------------------------------
  // prepareToolsAndToolConfig
  // ---------------------------------------------------------------------

  datatype CallingMode = ModeAuto | ModeNone | ModeAny

  datatype FunctionCallingConfig = FunctionCallingConfig(mode: CallingMode, allowedFunctionNames: Option<seq<string>>)

  datatype FunctionDeclaration = FunctionDeclaration(name: string, description: string, parameters: Json)

  /** `tools` holds the `functionDeclarations`; `None` stands for `undefined`. */
  datatype ToolSetup = ToolSetup(tools: Option<seq<FunctionDeclaration>>, toolConfig: Option<FunctionCallingConfig>)

  /** A tool as Google declares it; `convert` is the conversion of the JSON
      schema to an OpenAPI schema. */
  function Declare(tool: FunctionTool<Json>, convert: Json -> Json): FunctionDeclaration {
    FunctionDeclaration(tool.name, tool.description.GetOr(""), convert(tool.parameters))
  }

  function Declarations(tools: seq<FunctionTool<Json>>, convert: Json -> Json): (r: seq<FunctionDeclaration>)
    ensures |r| == |tools|
    ensures forall i :: 0 <= i < |tools| ==> r[i] == Declare(tools[i], convert)
  {
    if |tools| == 0 then [] else [Declare(tools[0], convert)] + Declarations(tools[1..], convert)
  }

  /** The calling mode a tool choice selects: only `none` forbids calls,
      `required` and a named tool force one, and only a named tool restricts
      which function may be called. */
  function ChoiceConfig(choice: ToolChoice): (r: FunctionCallingConfig)
    ensures r.mode == ModeAuto <==> choice.Auto?
    ensures r.mode == ModeNone <==> choice.NoTools?
    ensures r.mode == ModeAny <==> choice.Required? || choice.SpecificTool?
    ensures r.allowedFunctionNames.Some? <==> choice.SpecificTool?
    ensures choice.SpecificTool? ==> r.allowedFunctionNames == Some([choice.toolName])
  {
    match choice
    case Auto => FunctionCallingConfig(ModeAuto, None)
    case NoTools => FunctionCallingConfig(ModeNone, None)
    case Required => FunctionCallingConfig(ModeAny, None)
    case SpecificTool(name) => FunctionCallingConfig(ModeAny, Some([name]))
  }

  function PrepareToolsAndToolConfig(tools: Option<seq<FunctionTool<Json>>>, toolChoice: Option<ToolChoice>, convert: Json -> Json): (r: ToolSetup)
    ensures r.tools.None? <==> tools.None? || |tools.value| == 0
    ensures r.tools.None? ==> r.toolConfig.None?
    ensures r.tools.Some? ==>
              && |r.tools.value| == |tools.value|
              && forall i :: 0 <= i < |tools.value| ==>
                   && r.tools.value[i].name == tools.value[i].name
                   && r.tools.value[i].description == tools.value[i].description.GetOr("")
                   && r.tools.value[i].parameters == convert(tools.value[i].parameters)
    ensures r.tools.Some? ==> (r.toolConfig.None? <==> toolChoice.None?)
    ensures r.toolConfig.Some? ==> toolChoice.Some? && r.toolConfig.value == ChoiceConfig(toolChoice.value)
  {
    if tools.None? || |tools.value| == 0 then ToolSetup(None, None)
    else
      var declarations := Declarations(tools.value, convert);
      if toolChoice.None? then ToolSetup(Some(declarations), None)
      else ToolSetup(Some(declarations), Some(ChoiceConfig(toolChoice.value)))
  }

  // ---------------------------------------------------------------------
  // Response parts
  // ---------------------------------------------------------------------

  datatype ContentPart = TextPart(text: string) | FunctionCallPart(name: string, args: Json)

  predicate AllText(parts: seq<ContentPart>) {
    forall i :: 0 <= i < |parts| ==> parts[i].TextPart?
  }

  predicate AllCalls(parts: seq<ContentPart>) {
    forall i :: 0 <= i < |parts| ==> parts[i].FunctionCallPart?
  }

  /** The `functionCall` parts, in order. */
  function FunctionCalls(parts: seq<ContentPart>): (r: seq<ContentPart>)
    ensures AllCalls(r)
    ensures forall p :: p in r <==> p in parts && p.FunctionCallPart?
    ensures |r| == 0 <==> AllText(parts)
  {
    if |parts| == 0 then []
    else if parts[0].FunctionCallPart? then [parts[0]] + FunctionCalls(parts[1..])
    else FunctionCalls(parts[1..])
  }

  /** The texts of the text parts, in order. */
  function Texts(parts: seq<ContentPart>): (r: seq<string>)
    ensures forall t :: t in r <==> TextPart(t) in parts
    ensures |r| == 0 <==> AllCalls(parts)
  {
    if |parts| == 0 then []
    else if parts[0].TextPart? then [parts[0].text] + Texts(parts[1..])
    else Texts(parts[1..])
  }

  /** `join('')`. */
  function Concat(texts: seq<string>): string {
    if |texts| == 0 then "" else texts[0] + Concat(texts[1..])
  }

  lemma {:induction false} ConcatAppend(a: seq<string>, b: seq<string>)
    ensures Concat(a + b) == Concat(a) + Concat(b)
    decreases |a|
  {
    if |a| == 0 {
      assert a + b == b;
    } else {
      assert (a + b)[1..] == a[1..] + b;
      ConcatAppend(a[1..], b);
    }
  }

  lemma {:induction false} TextsAppend(a: seq<ContentPart>, b: seq<ContentPart>)
    ensures Texts(a + b) == Texts(a) + Texts(b)
    decreases |a|
  {
    if |a| == 0 {
      assert a + b == b;
    } else {
      assert (a + b)[1..] == a[1..] + b;
      TextsAppend(a[1..], b);
    }
  }

  lemma {:induction false} FunctionCallsAppend(a: seq<ContentPart>, b: seq<ContentPart>)
    ensures FunctionCalls(a + b) == FunctionCalls(a) + FunctionCalls(b)
    decreases |a|
  {
    if |a| == 0 {
      assert a + b == b;
    } else {
      assert (a + b)[1..] == a[1..] + b;
      FunctionCallsAppend(a[1..], b);
    }
  }

  function ToProviderCall(part: ContentPart, id: string, stringify: Json -> string): ProviderToolCall
    requires part.FunctionCallPart?
  {
    ProviderToolCall(id, part.name, stringify(part.args))
  }

  /** One call per `functionCall` part, the `k`-th taking id `ids(nextId + k)`. */
  function ProviderCalls(calls: seq<ContentPart>, nextId: nat, ids: nat -> string, stringify: Json -> string): (r: seq<ProviderToolCall>)
    requires AllCalls(calls)
    ensures |r| == |calls|
    ensures forall k :: 0 <= k < |calls| ==> r[k] == ToProviderCall(calls[k], ids(nextId + k), stringify)
  {
    if |calls| == 0 then []
    else [ToProviderCall(calls[0], ids(nextId), stringify)] + ProviderCalls(calls[1..], nextId + 1, ids, stringify)
  }

  /** `getToolCallsFromParts`. `generateId` is the sequence `ids` read from
      position `nextId`; `stringify` is `JSON.stringify`. */
  function GetToolCallsFromParts(parts: seq<ContentPart>, nextId: nat, ids: nat -> string, stringify: Json -> string): (r: Option<seq<ProviderToolCall>>)
    ensures r.None? <==> AllText(parts)
    ensures r.Some? ==>
              var calls := FunctionCalls(parts);
              && |r.value| == |calls|
              && forall k :: 0 <= k < |calls| ==>
                   r.value[k] == ProviderToolCall(ids(nextId + k), calls[k].name, stringify(calls[k].args))
  {
    var calls := FunctionCalls(parts);
    if |calls| == 0 then None else Some(ProviderCalls(calls, nextId, ids, stringify))
  }

  /** Every tool call names the function of a `functionCall` part. */
  lemma ToolCallsComeFromParts(parts: seq<ContentPart>, nextId: nat, ids: nat -> string, stringify: Json -> string)
    requires !AllText(parts)
    ensures var r := GetToolCallsFromParts(parts, nextId, ids, stringify);
            r.Some? && forall k :: 0 <= k < |r.value| ==>
              exists i :: 0 <= i < |parts| && parts[i].FunctionCallPart? && parts[i].name == r.value[k].toolName
  {
    var r := GetToolCallsFromParts(parts, nextId, ids, stringify);
    var calls := FunctionCalls(parts);
    forall k | 0 <= k < |r.value|
      ensures exists i :: 0 <= i < |parts| && parts[i].FunctionCallPart? && parts[i].name == r.value[k].toolName
    {
      assert calls[k] in calls;
      var i :| 0 <= i < |parts| && parts[i] == calls[k];
      assert parts[i].FunctionCallPart? && parts[i].name == r.value[k].toolName;
    }
  }

  /** `getTextFromParts`: the joined texts, or `undefined` without a text part. */
  function GetTextFromParts(parts: seq<ContentPart>): (r: Option<string>)
    ensures r.None? <==> AllCalls(parts)
    ensures r.Some? ==> r.value == Concat(Texts(parts))
  {
    var texts := Texts(parts);
    if |texts| == 0 then None else Some(Concat(texts))
  }

  /** Splitting the parts splits the text: the text of a response is the text
      of its first parts followed by the text of the rest. */
  lemma TextFromPartsAppend(a: seq<ContentPart>, b: seq<ContentPart>)
    ensures GetTextFromParts(a + b).GetOr("") == GetTextFromParts(a).GetOr("") + GetTextFromParts(b).GetOr("")
  {
    TextsAppend(a, b);
    ConcatAppend(Texts(a), Texts(b));
  }

  // ---------------------------------------------------------------------
  // doStream
  // ---------------------------------------------------------------------

  datatype Candidate = Candidate(content: Option<seq<ContentPart>>, finishReason: Option<string>)

  datatype UsageMetadata = UsageMetadata(promptTokenCount: nat, candidatesTokenCount: nat)

  datatype Chunk = Chunk(candidates: seq<Candidate>, usageMetadata: Option<UsageMetadata>)

  /** The collaborators of the transform: `generateId` as the sequence `ids`,
      `JSON.stringify`, and `mapGoogleGenerativeAIFinishReason`. */
  datatype StreamConfig = StreamConfig(
    ids: nat -> string,
    stringify: Json -> string,
    mapFinishReason: (string, bool) -> FinishReason)

  /** The variables the transform closes over; `nextId` counts the ids used. */
  datatype StreamState = StreamState(finishReason: FinishReason, usage: ProviderUsage, hasToolCalls: bool, nextId: nat)

  const InitialStreamState := StreamState(Unknown, ProviderUsage(None, None), false, 0)

  datatype ChunkOut = ChunkOut(state: StreamState, out: seq<StreamPart>)

  /** Every `tool-call` part directly follows a `tool-call-delta` of the same
      call whose delta is the complete arguments. */
  predicate CallsFollowDeltas(out: seq<StreamPart>) {
    forall k :: 0 <= k < |out| && out[k].ToolCallPart? ==>
      k > 0 && out[k - 1] == ToolCallDeltaPart(out[k].toolCallId, out[k].toolName, out[k].args)
  }

  lemma {:induction false} CallsFollowDeltasAppend(a: seq<StreamPart>, b: seq<StreamPart>)
    requires CallsFollowDeltas(a) && CallsFollowDeltas(b)
    ensures CallsFollowDeltas(a + b)
  {
    forall k | 0 <= k < |a + b| && (a + b)[k].ToolCallPart?
      ensures k > 0 && (a + b)[k - 1] == ToolCallDeltaPart((a + b)[k].toolCallId, (a + b)[k].toolName, (a + b)[k].args)
    {
      if k < |a| {
        assert (a + b)[k] == a[k];
        assert (a + b)[k - 1] == a[k - 1];
      } else {
        assert (a + b)[k] == b[k - |a|];
        assert b[k - |a|].ToolCallPart?;
        assert k - |a| > 0;
        assert (a + b)[k - 1] == b[k - |a| - 1];
      }
    }
  }

  /** A `tool-call-delta` carrying the whole arguments, then the `tool-call`. */
  function CallParts(calls: seq<ProviderToolCall>): (r: seq<StreamPart>)
    ensures |r| == 2 * |calls|
    ensures NoFinish(r) && CallsFollowDeltas(r)
    ensures forall k :: 0 <= k < |calls| ==>
              r[2 * k + 1] == ToolCallPart(calls[k].toolCallId, calls[k].toolName, calls[k].args)
  {
    if |calls| == 0 then []
    else
      var c := calls[0];
      var head := [ToolCallDeltaPart(c.toolCallId, c.toolName, c.args), ToolCallPart(c.toolCallId, c.toolName, c.args)];
      var rest := CallParts(calls[1..]);
      CallsFollowDeltasAppend(head, rest);
      assert forall k :: 1 <= k < |calls| ==> (head + rest)[2 * k + 1] == rest[2 * (k - 1) + 1];
      head + rest
  }

  function TextDeltaOf(parts: seq<ContentPart>): seq<StreamPart> {
    var text := GetTextFromParts(parts);
    if text.Some? then [TextDeltaPart(text.value)] else []
  }

  /** What one parsed chunk's content emits, and the state after it. */
  function OnContent(state: StreamState, parts: seq<ContentPart>, cfg: StreamConfig): (r: ChunkOut)
    ensures NoFinish(r.out) && CallsFollowDeltas(r.out)
    ensures r.state.hasToolCalls == (state.hasToolCalls || !AllText(parts))
    ensures r.state.nextId == state.nextId + |FunctionCalls(parts)|
    ensures r.state.finishReason == state.finishReason && r.state.usage == state.usage
    ensures |r.out| == (if AllCalls(parts) then 0 else 1) + 2 * |FunctionCalls(parts)|
    ensures !AllCalls(parts) ==> r.out[0] == TextDeltaPart(Concat(Texts(parts)))
  {
    var textOut := TextDeltaOf(parts);
    var calls := GetToolCallsFromParts(parts, state.nextId, cfg.ids, cfg.stringify);
    if calls.None? then
      ChunkOut(state, textOut)
    else
      var callOut := CallParts(calls.value);
      CallsFollowDeltasAppend(textOut, callOut);
      ChunkOut(state.(hasToolCalls := true, nextId := state.nextId + |calls.value|), textOut + callOut)
  }

  /** The transform on one chunk. A chunk that failed to parse emits its
      error; a chunk without candidates throws a `TypeError` when the
      transform reads `candidate.content`. The finish reason is mapped with
      the tool-call flag as it stood before this chunk's own tool calls. */
  function OnChunk(state: StreamState, chunk: Result<Chunk, ErrorValue>, cfg: StreamConfig): (r: Result<ChunkOut, ErrorValue>)
    ensures chunk.Failure? ==> r == Success(ChunkOut(state, [ErrorPart(chunk.error)]))
    ensures chunk.Success? && |chunk.value.candidates| == 0 ==> r.Failure? && r.error.TypeError?
    ensures chunk.Success? && |chunk.value.candidates| > 0 ==>
              var candidate := chunk.value.candidates[0];
              && r.Success?
              && r.value.state.finishReason ==
                   (if candidate.finishReason.Some? then cfg.mapFinishReason(candidate.finishReason.value, state.hasToolCalls)
                    else state.finishReason)
              && r.value.state.usage ==
                   (if chunk.value.usageMetadata.Some?
                    then ProviderUsage(Some(chunk.value.usageMetadata.value.promptTokenCount),
                                       Some(chunk.value.usageMetadata.value.candidatesTokenCount))
                    else state.usage)
              && (candidate.content.None? ==> r.value.out == [] && r.value.state.hasToolCalls == state.hasToolCalls)
              && (candidate.content.Some? ==>
                    r.value.state.hasToolCalls == (state.hasToolCalls || !AllText(candidate.content.value)))
    ensures r.Success? ==> NoFinish(r.value.out) && CallsFollowDeltas(r.value.out)
  {
    if chunk.Failure? then Success(ChunkOut(state, [ErrorPart(chunk.error)]))
    else if |chunk.value.candidates| == 0 then Failure(TypeError("Cannot read properties of undefined (reading 'content')"))
    else
      var candidate := chunk.value.candidates[0];
      var finishReason :=
        if candidate.finishReason.Some? then cfg.mapFinishReason(candidate.finishReason.value, state.hasToolCalls)
        else state.finishReason;
      var usage :=
        if chunk.value.usageMetadata.Some?
        then ProviderUsage(Some(chunk.value.usageMetadata.value.promptTokenCount),
                           Some(chunk.value.usageMetadata.value.candidatesTokenCount))
        else state.usage;
      var updated := state.(finishReason := finishReason, usage := usage);
      if candidate.content.None? then Success(ChunkOut(updated, []))
      else Success(OnContent(updated, candidate.content.value, cfg))
  }

  /** The parts read from the stream, and the error it ended with, if any. */
  datatype StreamRun = StreamRun(state: StreamState, out: seq<StreamPart>, failure: Option<ErrorValue>)

  /** The transform over the chunks; a throw ends the stream in error and the
      throwing chunk's parts are lost with it. */
  function RunChunks(state: StreamState, chunks: seq<Result<Chunk, ErrorValue>>, cfg: StreamConfig): (r: StreamRun)
    ensures NoFinish(r.out) && CallsFollowDeltas(r.out)
    ensures r.state.hasToolCalls ==> state.hasToolCalls || exists i :: 0 <= i < |chunks| && chunks[i].Success?
    decreases |chunks|
  {
    if |chunks| == 0 then StreamRun(state, [], None)
    else
      var step := OnChunk(state, chunks[0], cfg);
      if step.Failure? then StreamRun(state, [], Some(step.error))
      else
        var rest := RunChunks(step.value.state, chunks[1..], cfg);
        CallsFollowDeltasAppend(step.value.out, rest.out);
        assert rest.state.hasToolCalls && !step.value.state.hasToolCalls ==>
                 exists i :: 0 <= i < |chunks| && chunks[i].Success? by {
          if rest.state.hasToolCalls && !step.value.state.hasToolCalls {
            var i :| 0 <= i < |chunks[1..]| && chunks[1..][i].Success?;
            assert chunks[i + 1].Success?;
          }
        }
        StreamRun(rest.state, step.value.out + rest.out, rest.failure)
  }

  function FinishOf(state: StreamState): StreamPart {
    FinishPart(state.finishReason, state.usage, None)
  }

  /** The whole `doStream` stream. Unless it ends in error, `flush` closes it
      with exactly one `finish`, which carries the last finish reason and usage. */
  function DoStream(chunks: seq<Result<Chunk, ErrorValue>>, cfg: StreamConfig): (r: StreamRun)
    ensures CallsFollowDeltas(r.out)
    ensures r.failure.Some? ==> NoFinish(r.out)
    ensures r.failure.None? ==> EndsWithOneFinish(r.out, FinishPart(r.state.finishReason, r.state.usage, None))
    ensures r.state.hasToolCalls ==> exists i :: 0 <= i < |chunks| && chunks[i].Success?
  {
    var run := RunChunks(InitialStreamState, chunks, cfg);
    if run.failure.Some? then run
    else
      CallsFollowDeltasAppend(run.out, [FinishOf(run.state)]);
      assert (run.out + [FinishOf(run.state)])[..|run.out|] == run.out;
      run.(out := run.out + [FinishOf(run.state)])
  }
}

=== FILE: object_stream.dfy ===
/** The streaming side of `streamObject`: the mode transformers that reduce a
    provider stream to text chunks and control parts, the materializer that
    turns accumulated text into a stream of partial objects, and the
    `partialObjectStream` and `textStream` views of its output. Partial JSON
    parsing and the output strategy's validators are parameters. */
module ObjectStream {
  import opened Wrappers
  import opened CoreTypes

  // ---------------------------------------------------------------------
  // mode resolution and the mode transformers

  datatype OutputKind = ObjectOutput | ArrayOutput | NoSchemaOutput

  /** The `mode` setting of a call. */
  datatype ModeSetting = AutoMode | JsonSetting | ToolSetting

  /** The mode a call runs in. */
  datatype ObjectMode = JsonMode | ToolMode

  const NoDefaultModeMessage := "Model does not have a default object generation mode."

  /** The mode of a call: `no-schema` output without a mode uses JSON mode;
      `auto` or no mode uses the model's default, and a model without one is
      an error. */
  function ResolveMode(output: OutputKind, mode: Option<ModeSetting>, modelDefault: Option<ObjectMode>): (r: Result<ObjectMode, ErrorValue>)
    ensures output == NoSchemaOutput && mode.None? ==> r == Success(JsonMode)
    ensures mode == Some(JsonSetting) ==> r == Success(JsonMode)
    ensures mode == Some(ToolSetting) ==> r == Success(ToolMode)
    ensures (mode == Some(AutoMode) || (mode.None? && output != NoSchemaOutput)) ==>
              (modelDefault.Some? ==> r == Success(modelDefault.value)) &&
              (modelDefault.None? ==> r == Failure(PlainError(NoDefaultModeMessage)))
  {
    var m := if output == NoSchemaOutput && mode.None? then Some(JsonSetting) else mode;
    if m.None? || m.value == AutoMode then
      if modelDefault.Some? then Success(modelDefault.value) else Failure(PlainError(NoDefaultModeMessage))
    else if m.value == JsonSetting then Success(JsonMode)
    else Success(ToolMode)
  }

  /** What the mode transformer passes on: a text chunk, or a control part. */
  datatype ObjectInput =
    | InText(text: string)
    | InMetadata(id: Option<string>, timestamp: Option<int>, modelId: Option<string>)
    | InFinish(finishReason: FinishReason, usage: ProviderUsage, providerMetadata: Option<Json>)
    | InError(error: ErrorValue)

  /** Metadata, finish and error parts pass both transformers unchanged. */
  function ControlPart(part: StreamPart): (r: Option<ObjectInput>)
    ensures r.Some? <==> part.ResponseMetadataPart? || part.FinishPart? || part.ErrorPart?
  {
    match part
    case ResponseMetadataPart(id, ts, m) => Some(InMetadata(id, ts, m))
    case FinishPart(reason, usage, metadata) => Some(InFinish(reason, usage, metadata))
    case ErrorPart(e) => Some(InError(e))
    case _ => None
  }

  /** The transformer of a call in the given mode: JSON mode reads the text
      deltas, tool mode the tool call argument deltas; other parts are dropped. */
  function ModeTransform(mode: ObjectMode, part: StreamPart): (r: Option<ObjectInput>)
    ensures mode == JsonMode && part.TextDeltaPart? ==> r == Some(InText(part.textDelta))
    ensures mode == ToolMode && part.ToolCallDeltaPart? ==> r == Some(InText(part.argsTextDelta))
    ensures r.Some? && r.value.InText? ==>
              (mode == JsonMode && part.TextDeltaPart?) || (mode == ToolMode && part.ToolCallDeltaPart?)
    ensures r.Some? && !r.value.InText? ==> r == ControlPart(part)
    ensures r.None? <==> ControlPart(part).None? &&
                         !(mode == JsonMode && part.TextDeltaPart?) && !(mode == ToolMode && part.ToolCallDeltaPart?)
  {
    match mode
    case JsonMode => if part.TextDeltaPart? then Some(InText(part.textDelta)) else ControlPart(part)
    case ToolMode => if part.ToolCallDeltaPart? then Some(InText(part.argsTextDelta)) else ControlPart(part)
  }

  /** The transformer applied to a whole provider stream: each part maps to
      at most one input. */
  function TransformStream(mode: ObjectMode, parts: seq<StreamPart>): (r: seq<ObjectInput>)
    ensures |r| <= |parts|
    decreases |parts|
  {
    if |parts| == 0 then []
    else
      var head := ModeTransform(mode, parts[0]);
      (if head.Some? then [head.value] else []) + TransformStream(mode, parts[1..])
  }

  /** The transformer is a filter-map: every output comes from one input
      part, and when every part maps, the outputs are the mapped parts in
      order. */
  lemma {:induction false} TransformStreamSpec(mode: ObjectMode, parts: seq<StreamPart>)
    ensures var r := TransformStream(mode, parts);
            forall x :: x in r ==> exists i :: 0 <= i < |parts| && ModeTransform(mode, parts[i]) == Some(x)
    ensures var r := TransformStream(mode, parts);
            (forall i :: 0 <= i < |parts| ==> ModeTransform(mode, parts[i]).Some?) ==>
              |r| == |parts| && forall i :: 0 <= i < |parts| ==> r[i] == ModeTransform(mode, parts[i]).value
    decreases |parts|
  {
    if |parts| > 0 {
      TransformStreamSpec(mode, parts[1..]);
      var head := ModeTransform(mode, parts[0]);
      var h := if head.Some? then [head.value] else [];
      var rest := TransformStream(mode, parts[1..]);
      var r := TransformStream(mode, parts);
      assert r == h + rest;
      forall x | x in r
        ensures exists i :: 0 <= i < |parts| && ModeTransform(mode, parts[i]) == Some(x)
      {
        if x in h {
          assert ModeTransform(mode, parts[0]) == Some(x);
        } else {
          assert x in rest;
          var j :| 0 <= j < |parts[1..]| && ModeTransform(mode, parts[1..][j]) == Some(x);
          assert ModeTransform(mode, parts[j + 1]) == Some(x);
        }
      }
      if forall i :: 0 <= i < |parts| ==> ModeTransform(mode, parts[i]).Some? {
        assert forall i :: 0 <= i < |parts[1..]| ==> ModeTransform(mode, parts[1..][i]).Some? by {
          assert forall i :: 0 <= i < |parts[1..]| ==> parts[1..][i] == parts[i + 1];
        }
        assert ModeTransform(mode, parts[0]).Some?;
        forall i | 0 <= i < |parts|
          ensures r[i] == ModeTransform(mode, parts[i]).value
        {
          if i > 0 {
            assert r[i] == rest[i - 1] && parts[1..][i - 1] == parts[i];
          }
        }
      }
    }
  }

  /** The transformer works part by part: the output of a concatenation is
      the concatenation of the outputs. */
  lemma {:induction false} TransformStreamAppend(mode: ObjectMode, a: seq<StreamPart>, b: seq<StreamPart>)
    ensures TransformStream(mode, a + b) == TransformStream(mode, a) + TransformStream(mode, b)
    decreases |a|
  {
    if |a| > 0 {
      assert (a + b)[0] == a[0];
      assert (a + b)[1..] == a[1..] + b;
      TransformStreamAppend(mode, a[1..], b);
    } else {
      assert a + b == b;
    }
  }

  /** A single part becomes its mapped input, or nothing. */
  lemma TransformStreamSingle(mode: ObjectMode, part: StreamPart)
    ensures TransformStream(mode, [part]) ==
              if ModeTransform(mode, part).Some? then [ModeTransform(mode, part).value] else []
  {
    assert [part][1..] == [];
  }

  // ---------------------------------------------------------------------
  // the materializer

  /** The result of `parsePartialJson`: the value, if any, and whether the
      parse was a complete, successful one. */
  datatype ParseResult = ParseResult(value: Option<Json>, successfulParse: bool)

  /** A successful partial validation: the partial object and the text delta to
      report with it. */
  datatype PartialResult<P> = PartialResult(partial: P, textDelta: string)

  /** The output strategy. `validatePartial` receives the parsed value, the
      pending text delta, the last emitted partial, whether this is the first
      delta, and whether the parse was final; `None` is a failed validation. */
  datatype Strategy<!P, R> = Strategy(
    validatePartial: (Json, string, Option<P>, bool, bool) -> Option<PartialResult<P>>,
    validateFinal: Option<Json> -> Result<R, ErrorValue>)

  datatype ResponseInfo = ResponseInfo(id: string, timestamp: int, modelId: string)

  /** `ObjectStreamPart`. */
  datatype ObjectPart<P> =
    | ObjObject(obj: P)
    | ObjTextDelta(textDelta: string)
    | ObjFinish(finishReason: FinishReason, usage: Usage, providerMetadata: Option<Json>, response: ResponseInfo)
    | ObjError(error: ErrorValue)

  /** The materializer's variables. `objectOutcome` is the object promise:
      `None` while pending, then settled by the first `finish`. */
  datatype Materializer<P, R> = Materializer(
    accumulatedText: string,
    textDelta: string,
    latestObjectJson: Option<Json>,
    latestObject: Option<P>,
    isFirstDelta: bool,
    response: ResponseInfo,
    usage: Option<Usage>,
    finishReason: Option<FinishReason>,
    objectOutcome: Option<Result<R, ErrorValue>>)

  /** The state before the first chunk: the response carries a generated id,
      the current date and the model id. */
  function InitialMaterializer<P, R>(generatedId: string, now: int, modelId: string): Materializer<P, R> {
    Materializer("", "", None, None, true, ResponseInfo(generatedId, now, modelId), None, None, None)
  }

  datatype Emit<P, R> = Emit(state: Materializer<P, R>, out: seq<ObjectPart<P>>)

  /** Whether a text chunk produces an object: the parse yields a value that
      differs from the last accepted JSON, and it validates to a partial that
      differs from the last emitted one. */
  function Accepted<P(==), R>(strategy: Strategy<P, R>, parsePartialJson: string -> ParseResult,
                              st: Materializer<P, R>, chunk: string): Option<(Json, PartialResult<P>)>
  {
    var text := st.accumulatedText + chunk;
    var delta := st.textDelta + chunk;
    var parsed := parsePartialJson(text);
    if parsed.value.None? || parsed.value == st.latestObjectJson then None
    else
      var v := strategy.validatePartial(parsed.value.value, delta, st.latestObject, st.isFirstDelta, parsed.successfulParse);
      if v.None? || Some(v.value.partial) == st.latestObject then None
      else Some((parsed.value.value, v.value))
  }

  /** A text chunk. */
  function OnText<P(==), R>(strategy: Strategy<P, R>, parsePartialJson: string -> ParseResult,
                            st: Materializer<P, R>, chunk: string): (r: Emit<P, R>)
    ensures r.state.accumulatedText == st.accumulatedText + chunk
    ensures r.state.response == st.response && r.state.usage == st.usage
    ensures r.state.finishReason == st.finishReason && r.state.objectOutcome == st.objectOutcome
    ensures |r.out| > 0 <==>
              && parsePartialJson(st.accumulatedText + chunk).value.Some?
              && parsePartialJson(st.accumulatedText + chunk).value != st.latestObjectJson
              && var v := strategy.validatePartial(parsePartialJson(st.accumulatedText + chunk).value.value,
                                                   st.textDelta + chunk, st.latestObject, st.isFirstDelta,
                                                   parsePartialJson(st.accumulatedText + chunk).successfulParse);
                 v.Some? && Some(v.value.partial) != st.latestObject
    ensures |r.out| > 0 ==>
              && |r.out| == 2 && r.out[0].ObjObject? && r.out[1].ObjTextDelta?
              && r.state.latestObjectJson == parsePartialJson(st.accumulatedText + chunk).value
              && r.state.latestObjectJson != st.latestObjectJson
              && r.state.latestObject == Some(r.out[0].obj) && r.state.latestObject != st.latestObject
              && r.state.textDelta == "" && !r.state.isFirstDelta
    ensures |r.out| == 0 ==>
              && r.state.textDelta == st.textDelta + chunk
              && r.state.latestObjectJson == st.latestObjectJson && r.state.latestObject == st.latestObject
              && r.state.isFirstDelta == st.isFirstDelta
  {
    var text := st.accumulatedText + chunk;
    var delta := st.textDelta + chunk;
    match Accepted(strategy, parsePartialJson, st, chunk)
    case None => Emit(st.(accumulatedText := text, textDelta := delta), [])
    case Some((json, v)) =>
      Emit(st.(accumulatedText := text, textDelta := "", latestObjectJson := Some(json),
               latestObject := Some(v.partial), isFirstDelta := false),
           [ObjObject(v.partial), ObjTextDelta(v.textDelta)])
  }

  /** `response-metadata`: each field it carries replaces the earlier one. */
  function MergeResponse(response: ResponseInfo, id: Option<string>, timestamp: Option<int>, modelId: Option<string>): (r: ResponseInfo)
    ensures id.Some? ==> r.id == id.value
    ensures id.None? ==> r.id == response.id
    ensures timestamp.Some? ==> r.timestamp == timestamp.value
    ensures timestamp.None? ==> r.timestamp == response.timestamp
    ensures modelId.Some? ==> r.modelId == modelId.value
    ensures modelId.None? ==> r.modelId == response.modelId
  {
    ResponseInfo(id.GetOr(response.id), timestamp.GetOr(response.timestamp), modelId.GetOr(response.modelId))
  }

  /** `finish`: the pending text delta if non-empty, then the finish part with
      the computed usage and the response; the object promise settles with the
      final validation of the last accepted JSON. The pending delta is not
      cleared. */
  function OnFinish<P, R>(strategy: Strategy<P, R>, st: Materializer<P, R>,
                          reason: FinishReason, usage: ProviderUsage, metadata: Option<Json>): (r: Emit<P, R>)
    ensures r.out == (if st.textDelta != "" then [ObjTextDelta(st.textDelta)] else []) +
                     [ObjFinish(reason, CalculateUsage(usage), metadata, st.response)]
    ensures r.state.usage == Some(CalculateUsage(usage)) && r.state.finishReason == Some(reason)
    ensures st.objectOutcome.None? ==> r.state.objectOutcome == Some(strategy.validateFinal(st.latestObjectJson))
    ensures st.objectOutcome.Some? ==> r.state.objectOutcome == st.objectOutcome
    ensures r.state.accumulatedText == st.accumulatedText && r.state.textDelta == st.textDelta
    ensures r.state.latestObject == st.latestObject && r.state.latestObjectJson == st.latestObjectJson
  {
    var u := CalculateUsage(usage);
    var pending := if st.textDelta != "" then [ObjTextDelta(st.textDelta)] else [];
    var outcome := if st.objectOutcome.Some? then st.objectOutcome else Some(strategy.validateFinal(st.latestObjectJson));
    Emit(st.(usage := Some(u), finishReason := Some(reason), objectOutcome := outcome),
         pending + [ObjFinish(reason, u, metadata, st.response)])
  }

  /** One input of the materializer. Errors pass through. */
  function Transform<P(==), R>(strategy: Strategy<P, R>, parsePartialJson: string -> ParseResult,
                               st: Materializer<P, R>, input: ObjectInput): (r: Emit<P, R>)
    ensures input.InMetadata? ==>
              r == Emit(st.(response := MergeResponse(st.response, input.id, input.timestamp, input.modelId)), [])
    ensures input.InError? ==> r == Emit(st, [ObjError(input.error)])
  {
    match input
    case InText(chunk) => OnText(strategy, parsePartialJson, st, chunk)
    case InMetadata(id, ts, m) => Emit(st.(response := MergeResponse(st.response, id, ts, m)), [])
    case InFinish(reason, usage, metadata) => OnFinish(strategy, st, reason, usage, metadata)
    case InError(e) => Emit(st, [ObjError(e)])
  }

  /** The materializer over a whole input stream. */
  function Materialize<P(==), R>(strategy: Strategy<P, R>, parsePartialJson: string -> ParseResult,
                                 st: Materializer<P, R>, inputs: seq<ObjectInput>): Emit<P, R>
    decreases |inputs|
  {
    if |inputs| == 0 then Emit(st, [])
    else
      var first := Transform(strategy, parsePartialJson, st, inputs[0]);
      var rest := Materialize(strategy, parsePartialJson, first.state, inputs[1..]);
      Emit(rest.state, first.out + rest.out)
  }

  /** The materializer reads its inputs one at a time: materializing two
      batches back to back is materializing them together, whatever the
      split. */
  lemma {:induction false} MaterializeAppend<P, R>(
    strategy: Strategy<P, R>, parsePartialJson: string -> ParseResult, st: Materializer<P, R>,
    a: seq<ObjectInput>, b: seq<ObjectInput>)
    ensures var ra := Materialize(strategy, parsePartialJson, st, a);
            var rb := Materialize(strategy, parsePartialJson, ra.state, b);
            Materialize(strategy, parsePartialJson, st, a + b) == Emit(rb.state, ra.out + rb.out)
    decreases |a|
  {
    if |a| == 0 {
      assert a + b == b;
    } else {
      assert (a + b)[0] == a[0];
      assert (a + b)[1..] == a[1..] + b;
      var first := Transform(strategy, parsePartialJson, st, a[0]);
      MaterializeAppend(strategy, parsePartialJson, first.state, a[1..], b);
      var ra' := Materialize(strategy, parsePartialJson, first.state, a[1..]);
      var rb := Materialize(strategy, parsePartialJson, ra'.state, b);
      ConcatAssoc(first.out, ra'.out, rb.out);
    }
  }

  // ---------------------------------------------------------------------
  // properties of the materializer

  /** The text chunks of an input stream, joined. */
  function TextOf(inputs: seq<ObjectInput>): string {
    if |inputs| == 0 then ""
    else (if inputs[0].InText? then inputs[0].text else "") + TextOf(inputs[1..])
  }

  /** The accumulated text is the concatenation of every text chunk received. */
  lemma {:induction false} AccumulatedTextIsConcatenation<P, R>(
    strategy: Strategy<P, R>, parsePartialJson: string -> ParseResult, st: Materializer<P, R>, inputs: seq<ObjectInput>)
    ensures Materialize(strategy, parsePartialJson, st, inputs).state.accumulatedText == st.accumulatedText + TextOf(inputs)
    decreases |inputs|
  {
    if |inputs| == 0 {
      assert st.accumulatedText + "" == st.accumulatedText;
    } else {
      var first := Transform(strategy, parsePartialJson, st, inputs[0]);
      AccumulatedTextIsConcatenation(strategy, parsePartialJson, first.state, inputs[1..]);
      var t := if inputs[0].InText? then inputs[0].text else "";
      assert first.state.accumulatedText == st.accumulatedText + t;
      assert st.accumulatedText + t + TextOf(inputs[1..]) == st.accumulatedText + (t + TextOf(inputs[1..]));
    }
  }

  /** The text deltas of a provider stream, joined. */
  function TextDeltas(parts: seq<StreamPart>): string {
    if |parts| == 0 then ""
    else (if parts[0].TextDeltaPart? then parts[0].textDelta else "") + TextDeltas(parts[1..])
  }

  /** In JSON mode the text the materializer sees is exactly the provider's
      text deltas, joined. */
  lemma {:induction false} JsonModeText(parts: seq<StreamPart>)
    ensures TextOf(TransformStream(JsonMode, parts)) == TextDeltas(parts)
    decreases |parts|
  {
    if |parts| > 0 {
      JsonModeText(parts[1..]);
      var head := ModeTransform(JsonMode, parts[0]);
      var rest := TransformStream(JsonMode, parts[1..]);
      var h := if head.Some? then [head.value] else [];
      TextOfAppend(h, rest);
    }
  }

  lemma {:induction false} TextOfAppend(a: seq<ObjectInput>, b: seq<ObjectInput>)
    ensures TextOf(a + b) == TextOf(a) + TextOf(b)
    decreases |a|
  {
    if |a| == 0 {
      assert a + b == b;
    } else {
      assert (a + b)[0] == a[0];
      assert (a + b)[1..] == a[1..] + b;
      TextOfAppend(a[1..], b);
    }
  }

  /** The object payloads of an output, in order. */
  function Objects<P>(out: seq<ObjectPart<P>>): seq<P> {
    if |out| == 0 then []
    else (if out[0].ObjObject? then [out[0].obj] else []) + Objects(out[1..])
  }

  lemma {:induction false} ObjectsAppend<P>(a: seq<ObjectPart<P>>, b: seq<ObjectPart<P>>)
    ensures Objects(a + b) == Objects(a) + Objects(b)
    decreases |a|
  {
    if |a| == 0 {
      assert a + b == b;
    } else {
      assert (a + b)[0] == a[0];
      assert (a + b)[1..] == a[1..] + b;
      ObjectsAppend(a[1..], b);
    }
  }

  /** No object equals the one before it; `previous` is the object emitted
      before the sequence, if any. */
  predicate NoRepeats<P(==)>(objects: seq<P>, previous: Option<P>)
    decreases |objects|
  {
    |objects| == 0 || (Some(objects[0]) != previous && NoRepeats(objects[1..], Some(objects[0])))
  }

  function LastOr<P>(objects: seq<P>, previous: Option<P>): Option<P> {
    if |objects| == 0 then previous else Some(objects[|objects| - 1])
  }

  lemma {:induction false} NoRepeatsAppend<P>(a: seq<P>, b: seq<P>, previous: Option<P>)
    requires NoRepeats(a, previous) && NoRepeats(b, LastOr(a, previous))
    ensures NoRepeats(a + b, previous)
    decreases |a|
  {
    if |a| == 0 {
      assert a + b == b;
    } else {
      assert (a + b)[0] == a[0];
      assert (a + b)[1..] == a[1..] + b;
      if |a| > 1 {
        assert a[1..][|a[1..]| - 1] == a[|a| - 1];
      }
      NoRepeatsAppend(a[1..], b, Some(a[0]));
    }
  }

  lemma {:induction false} LastOrAppend<P>(a: seq<P>, b: seq<P>, previous: Option<P>)
    ensures LastOr(a + b, previous) == LastOr(b, LastOr(a, previous))
  {
    if |b| > 0 {
      assert (a + b)[|a + b| - 1] == b[|b| - 1];
    } else {
      assert a + b == a;
    }
  }

  lemma TransformObjects<P, R>(strategy: Strategy<P, R>, parsePartialJson: string -> ParseResult,
                                   st: Materializer<P, R>, input: ObjectInput)
    ensures var r := Transform(strategy, parsePartialJson, st, input);
            && NoRepeats(Objects(r.out), st.latestObject)
            && r.state.latestObject == LastOr(Objects(r.out), st.latestObject)
  {
    var r := Transform(strategy, parsePartialJson, st, input);
    if |r.out| == 2 && input.InText? {
      assert r.out == [r.out[0]] + [r.out[1]];
      ObjectsAppend([r.out[0]], [r.out[1]]);
      assert [r.out[0]][1..] == [] && [r.out[1]][1..] == [];
      assert Objects(r.out) == [r.out[0].obj];
    } else if input.InFinish? {
      var pending := if st.textDelta != "" then [ObjTextDelta(st.textDelta)] else [];
      var fin: seq<ObjectPart<P>> := [ObjFinish(input.finishReason, CalculateUsage(input.usage), input.providerMetadata, st.response)];
      ObjectsAppend(pending, fin);
      assert fin[1..] == [];
      if |pending| > 0 {
        assert pending[1..] == [];
      }
    } else if input.InError? {
      assert r.out[1..] == [];
    }
  }

  /** The partial objects emitted never repeat one another: each differs from
      the object before it, and the last one is the materializer's latest
      object. */
  lemma {:induction false} ObjectsNeverRepeat<P, R>(
    strategy: Strategy<P, R>, parsePartialJson: string -> ParseResult, st: Materializer<P, R>, inputs: seq<ObjectInput>)
    ensures var r := Materialize(strategy, parsePartialJson, st, inputs);
            && NoRepeats(Objects(r.out), st.latestObject)
            && r.state.latestObject == LastOr(Objects(r.out), st.latestObject)
    decreases |inputs|
  {
    if |inputs| > 0 {
      var first := Transform(strategy, parsePartialJson, st, inputs[0]);
      var rest := Materialize(strategy, parsePartialJson, first.state, inputs[1..]);
      TransformObjects(strategy, parsePartialJson, st, inputs[0]);
      ObjectsNeverRepeat(strategy, parsePartialJson, first.state, inputs[1..]);
      ObjectsAppend(first.out, rest.out);
      NoRepeatsAppend(Objects(first.out), Objects(rest.out), st.latestObject);
      LastOrAppend(Objects(first.out), Objects(rest.out), st.latestObject);
    }
  }

  /** Every object part is immediately followed by a text delta part. */
  predicate ObjectsPaired<P>(out: seq<ObjectPart<P>>) {
    forall i :: 0 <= i < |out| && out[i].ObjObject? ==> i + 1 < |out| && out[i + 1].ObjTextDelta?
  }

  lemma {:induction false} EveryObjectHasTextDelta<P, R>(
    strategy: Strategy<P, R>, parsePartialJson: string -> ParseResult, st: Materializer<P, R>, inputs: seq<ObjectInput>)
    ensures ObjectsPaired(Materialize(strategy, parsePartialJson, st, inputs).out)
    decreases |inputs|
  {
    if |inputs| > 0 {
      var first := Transform(strategy, parsePartialJson, st, inputs[0]);
      var rest := Materialize(strategy, parsePartialJson, first.state, inputs[1..]);
      EveryObjectHasTextDelta(strategy, parsePartialJson, first.state, inputs[1..]);
      var all := first.out + rest.out;
      forall i | 0 <= i < |all| && all[i].ObjObject?
        ensures i + 1 < |all| && all[i + 1].ObjTextDelta?
      {
        if i < |first.out| {
          assert first.out[i].ObjObject?;
          assert all[i + 1] == first.out[i + 1];
        } else {
          assert all[i] == rest.out[i - |first.out|];
        }
      }
    }
  }

  /** The object promise settles at the first `finish` and never changes
      afterwards; it is still pending if no `finish` arrived. */
  lemma {:induction false} ObjectSettlesAtFinish<P, R>(
    strategy: Strategy<P, R>, parsePartialJson: string -> ParseResult, st: Materializer<P, R>, inputs: seq<ObjectInput>)
    ensures var r := Materialize(strategy, parsePartialJson, st, inputs);
            && (st.objectOutcome.Some? ==> r.state.objectOutcome == st.objectOutcome)
            && (r.state.objectOutcome.Some? <==> st.objectOutcome.Some? || exists i :: 0 <= i < |inputs| && inputs[i].InFinish?)
    decreases |inputs|
  {
    if |inputs| > 0 {
      var first := Transform(strategy, parsePartialJson, st, inputs[0]);
      ObjectSettlesAtFinish(strategy, parsePartialJson, first.state, inputs[1..]);
      if exists i :: 0 <= i < |inputs| && inputs[i].InFinish? {
        var i :| 0 <= i < |inputs| && inputs[i].InFinish?;
        if i > 0 {
          assert inputs[1..][i - 1].InFinish?;
        }
      }
      if exists i :: 0 <= i < |inputs[1..]| && inputs[1..][i].InFinish? {
        var i :| 0 <= i < |inputs[1..]| && inputs[1..][i].InFinish?;
        assert inputs[i + 1].InFinish?;
      }
    }
  }

  /** The object is the final validation of the last accepted JSON: after a
      stream with a single `finish` at its end, the promise resolves exactly
      when that validation succeeds, and rejects with its error otherwise. */
  lemma FinishOutcome<P, R>(strategy: Strategy<P, R>, parsePartialJson: string -> ParseResult,
                                st: Materializer<P, R>, reason: FinishReason, usage: ProviderUsage, metadata: Option<Json>)
    requires st.objectOutcome.None?
    ensures var r := Transform(strategy, parsePartialJson, st, InFinish(reason, usage, metadata));
            var v := strategy.validateFinal(st.latestObjectJson);
            && r.state.objectOutcome.Some?
            && (r.state.objectOutcome.value.Success? <==> v.Success?)
            && (v.Success? ==> r.state.objectOutcome.value.value == v.value)
            && (v.Failure? ==> r.state.objectOutcome.value.error == v.error)
  {
  }

  // ---------------------------------------------------------------------
  // the iterable views

  /** What a consumer of an iterable stream receives: the items before the
      stream ended, and the error that ended it, if any. */
  datatype Iterated<T> = Iterated(items: seq<T>, error: Option<ErrorValue>)

  /** The index of the first error part, or the length when there is none. */
  function FirstError<P>(out: seq<ObjectPart<P>>): (k: nat)
    ensures k <= |out|
    ensures k < |out| ==> out[k].ObjError?
    ensures forall i :: 0 <= i < k ==> !out[i].ObjError?
  {
    if |out| == 0 then 0
    else if out[0].ObjError? then 0
    else 1 + FirstError(out[1..])
  }

  /** The text delta payloads of an output, in order. */
  function TextDeltaItems<P>(out: seq<ObjectPart<P>>): seq<string> {
    if |out| == 0 then []
    else (if out[0].ObjTextDelta? then [out[0].textDelta] else []) + TextDeltaItems(out[1..])
  }

  /** `partialObjectStream`: the object payloads; an error part errors the
      stream. */
  function PartialObjectStream<P>(out: seq<ObjectPart<P>>): (r: Iterated<P>)
    ensures r.items == Objects(out[..FirstError(out)])
    ensures r.error.Some? <==> FirstError(out) < |out|
    ensures r.error.Some? ==> r.error.value == out[FirstError(out)].error
  {
    if |out| == 0 then Iterated([], None)
    else if out[0].ObjError? then Iterated([], Some(out[0].error))
    else
      var rest := PartialObjectStream(out[1..]);
      assert out[..FirstError(out)] == [out[0]] + out[1..][..FirstError(out[1..])];
      Iterated((if out[0].ObjObject? then [out[0].obj] else []) + rest.items, rest.error)
  }

  /** `textStream`: the text delta payloads; an error part errors the stream. */
  function TextStream<P>(out: seq<ObjectPart<P>>): (r: Iterated<string>)
    ensures r.items == TextDeltaItems(out[..FirstError(out)])
    ensures r.error.Some? <==> FirstError(out) < |out|
    ensures r.error.Some? ==> r.error.value == out[FirstError(out)].error
  {
    if |out| == 0 then Iterated([], None)
    else if out[0].ObjError? then Iterated([], Some(out[0].error))
    else
      var rest := TextStream(out[1..]);
      assert out[..FirstError(out)] == [out[0]] + out[1..][..FirstError(out[1..])];
      Iterated((if out[0].ObjTextDelta? then [out[0].textDelta] else []) + rest.items, rest.error)
  }

  /** Without an upstream error both views end normally and carry every
      object, respectively every text delta, in order. */
  lemma ErrorFreeViews<P, R>(
    strategy: Strategy<P, R>, parsePartialJson: string -> ParseResult, st: Materializer<P, R>, inputs: seq<ObjectInput>)
    requires forall i :: 0 <= i < |inputs| ==> !inputs[i].InError?
    ensures var out := Materialize(strategy, parsePartialJson, st, inputs).out;
            && PartialObjectStream(out) == Iterated(Objects(out), None)
            && TextStream(out) == Iterated(TextDeltaItems(out), None)
  {
    var out := Materialize(strategy, parsePartialJson, st, inputs).out;
    NoErrorOut(strategy, parsePartialJson, st, inputs);
    NoErrorFirstError(out);
    assert out[..FirstError(out)] == out;
  }

  lemma {:induction false} NoErrorFirstError<P>(out: seq<ObjectPart<P>>)
    requires forall i :: 0 <= i < |out| ==> !out[i].ObjError?
    ensures FirstError(out) == |out|
    decreases |out|
  {
    if |out| > 0 {
      NoErrorFirstError(out[1..]);
    }
  }

  lemma TransformNoError<P, R>(strategy: Strategy<P, R>, parsePartialJson: string -> ParseResult,
                               st: Materializer<P, R>, input: ObjectInput)
    requires !input.InError?
    ensures forall i :: 0 <= i < |Transform(strategy, parsePartialJson, st, input).out| ==>
              !Transform(strategy, parsePartialJson, st, input).out[i].ObjError?
  {
  }

  lemma {:induction false} NoErrorOut<P, R>(
    strategy: Strategy<P, R>, parsePartialJson: string -> ParseResult, st: Materializer<P, R>, inputs: seq<ObjectInput>)
    requires forall i :: 0 <= i < |inputs| ==> !inputs[i].InError?
    ensures forall i :: 0 <= i < |Materialize(strategy, parsePartialJson, st, inputs).out| ==>
              !Materialize(strategy, parsePartialJson, st, inputs).out[i].ObjError?
    decreases |inputs|
  {
    if |inputs| > 0 {
      var first := Transform(strategy, parsePartialJson, st, inputs[0]);
      var rest := Materialize(strategy, parsePartialJson, first.state, inputs[1..]);
      NoErrorOut(strategy, parsePartialJson, first.state, inputs[1..]);
      TransformNoError(strategy, parsePartialJson, st, inputs[0]);
      var all := first.out + rest.out;
      forall i | 0 <= i < |all| ensures !all[i].ObjError? {
        if i < |first.out| {
          assert all[i] == first.out[i];
        } else {
          assert all[i] == rest.out[i - |first.out|];
        }
      }
    }
  }
}

=== FILE: prompt.dfy ===
/** Prompt validation (`getValidatedPrompt`) and the conversion of a validated
    prompt into the provider-facing message list
    (`convertToLanguageModelPrompt`, `convertToLanguageModelMessage`). */
module Prompt {
  import opened Wrappers
  import opened CoreTypes

  /** Image data: a URL, or the bytes of the image. The converter itself
      turns base64 text and buffers into bytes (`convertDataContentToUint8Array`);
      this model starts from the decoded bytes. */
  datatype DataContent = ImageUrl(url: string) | ImageBytes(bytes: seq<bv8>)

  datatype UserPart = UserText(text: string) | UserImage(image: DataContent, mimeType: Option<string>)

  datatype AssistantPart =
    | AssistantText(text: string)
    | AssistantToolCall(toolCallId: string, toolName: string, args: Json)

  datatype ToolResultPart = ToolResultPart(toolCallId: string, toolName: string, result: Json)

  /** Message content: a plain string or an array of parts. */
  datatype Content<P> = Str(text: string) | Parts(parts: seq<P>)

  /** `CoreMessage`. A typed caller gives a system message string content;
      an untyped caller may give it parts, which validation rejects. */
  datatype CoreMessage =
    | SystemMessage(systemContent: Content<UserPart>)
    | UserMessage(userContent: Content<UserPart>)
    | AssistantMessage(assistantContent: Content<AssistantPart>)
    | ToolMessage(toolContent: seq<ToolResultPart>)

  /** `LanguageModelV1Message`: every content except a system message's is an
      array of parts. */
  datatype LanguageModelMessage =
    | LmSystem(content: Content<UserPart>)
    | LmUser(userParts: seq<UserPart>)
    | LmAssistant(assistantParts: seq<AssistantPart>)
    | LmTool(toolParts: seq<ToolResultPart>)

  /** The caller's `Prompt`: `prompt` and `messages` are both optional. */
  datatype PromptInput = PromptInput(system: Option<string>, prompt: Option<string>, messages: Option<seq<CoreMessage>>)

  /** `ValidatedPrompt`: exactly one of a text prompt or a message list. */
  datatype ValidatedPrompt =
    | TextPrompt(prompt: string, system: Option<string>)
    | MessagesPrompt(messages: seq<CoreMessage>, system: Option<string>)
  {
    function PromptField(): Option<string> {
      if TextPrompt? then Some(prompt) else None
    }
    function MessagesField(): Option<seq<CoreMessage>> {
      if MessagesPrompt? then Some(messages) else None
    }
  }

  const MissingPromptMessage := "prompt or messages must be defined"
  const BothPromptMessage := "prompt and messages cannot be defined at the same time"
  const SystemContentMessage := "system message content must be a string"

  predicate IsNonStringSystem(m: CoreMessage) {
    m.SystemMessage? && m.systemContent.Parts?
  }

  /** True when no message is a system message with non-string content,
      checked front to back as the source's loop does. */
  function AllSystemContentIsString(ms: seq<CoreMessage>): (ok: bool)
    ensures ok <==> forall i :: 0 <= i < |ms| ==> !IsNonStringSystem(ms[i])
  {
    if |ms| == 0 then true
    else !IsNonStringSystem(ms[0]) && AllSystemContentIsString(ms[1..])
  }

  /** `getValidatedPrompt`. */
  function GetValidatedPrompt(p: PromptInput): (r: Result<ValidatedPrompt, ErrorValue>)
    ensures p.prompt.None? && p.messages.None? ==>
              r == Failure(InvalidPromptError(MissingPromptMessage))
    ensures p.prompt.Some? && p.messages.Some? ==>
              r == Failure(InvalidPromptError(BothPromptMessage))
    ensures p.prompt.None? && p.messages.Some? &&
            (exists i :: 0 <= i < |p.messages.value| && IsNonStringSystem(p.messages.value[i])) ==>
              r == Failure(InvalidPromptError(SystemContentMessage))
    ensures r.Success? <==>
              (p.prompt.Some? != p.messages.Some?) &&
              (p.messages.Some? ==> forall i :: 0 <= i < |p.messages.value| ==> !IsNonStringSystem(p.messages.value[i]))
    ensures r.Success? ==>
              && (r.value.TextPrompt? <==> p.prompt.Some?)
              && r.value.PromptField() == p.prompt
              && r.value.MessagesField() == p.messages
              && r.value.system == p.system
  {
    if p.prompt.None? && p.messages.None? then
      Failure(InvalidPromptError(MissingPromptMessage))
    else if p.prompt.Some? && p.messages.Some? then
      Failure(InvalidPromptError(BothPromptMessage))
    else if p.messages.Some? && !AllSystemContentIsString(p.messages.value) then
      Failure(InvalidPromptError(SystemContentMessage))
    else if p.prompt.Some? then
      Success(TextPrompt(p.prompt.value, p.system))
    else
      Success(MessagesPrompt(p.messages.value, p.system))
  }

  /** One user part: text unchanged; an image keeps its data and takes its
      declared MIME type, or the detected one when none is declared. */
  function ConvertUserPart(part: UserPart, detectMimeType: seq<bv8> -> Option<string>): UserPart {
    match part
    case UserText(_) => part
    case UserImage(ImageUrl(_), _) => part
    case UserImage(ImageBytes(bytes), mimeType) =>
      UserImage(ImageBytes(bytes), if mimeType.Some? then mimeType else detectMimeType(bytes))
  }

  function ConvertUserParts(parts: seq<UserPart>, detectMimeType: seq<bv8> -> Option<string>): (r: seq<UserPart>)
    ensures |r| == |parts|
    ensures forall i :: 0 <= i < |parts| ==> r[i] == ConvertUserPart(parts[i], detectMimeType)
  {
    if |parts| == 0 then []
    else [ConvertUserPart(parts[0], detectMimeType)] + ConvertUserParts(parts[1..], detectMimeType)
  }

  predicate IsEmptyText(part: AssistantPart) {
    part.AssistantText? && part.text == ""
  }

  /** Assistant parts with the empty text parts removed. */
  function RemoveEmptyText(parts: seq<AssistantPart>): seq<AssistantPart> {
    if |parts| == 0 then []
    else (if IsEmptyText(parts[0]) then [] else [parts[0]]) + RemoveEmptyText(parts[1..])
  }

  /** The filter distributes over concatenation, so it is fixed by what it does
      to one part: drop it when it is an empty text, keep it otherwise. */
  lemma {:induction false} RemoveEmptyTextAppend(a: seq<AssistantPart>, b: seq<AssistantPart>)
    ensures RemoveEmptyText(a + b) == RemoveEmptyText(a) + RemoveEmptyText(b)
    decreases |a|
  {
    if |a| == 0 {
      assert a + b == b;
    } else {
      assert (a + b)[0] == a[0];
      assert (a + b)[1..] == a[1..] + b;
      RemoveEmptyTextAppend(a[1..], b);
    }
  }

  /** Exactly the empty text parts are lost. */
  lemma {:induction false} RemoveEmptyTextMembers(parts: seq<AssistantPart>, p: AssistantPart)
    ensures p in RemoveEmptyText(parts) <==> p in parts && !IsEmptyText(p)
    decreases |parts|
  {
    if |parts| > 0 {
      RemoveEmptyTextMembers(parts[1..], p);
      assert parts == [parts[0]] + parts[1..];
    }
  }

  /** Filtering keeps a list that has no empty text part unchanged. */
  lemma {:induction false} RemoveEmptyTextIdentity(parts: seq<AssistantPart>)
    requires forall i :: 0 <= i < |parts| ==> !IsEmptyText(parts[i])
    ensures RemoveEmptyText(parts) == parts
    decreases |parts|
  {
    if |parts| > 0 {
      RemoveEmptyTextIdentity(parts[1..]);
      assert parts == [parts[0]] + parts[1..];
    }
  }

  /** `convertToLanguageModelMessage`. */
  function ConvertToLanguageModelMessage(message: CoreMessage, detectMimeType: seq<bv8> -> Option<string>): (r: LanguageModelMessage)
    ensures message.SystemMessage? ==> r == LmSystem(message.systemContent)
    ensures message.ToolMessage? ==> r == LmTool(message.toolContent)
    ensures message.UserMessage? ==>
              && r.LmUser?
              && (message.userContent.Str? ==> r.userParts == [UserText(message.userContent.text)])
              && (message.userContent.Parts? ==> r.userParts == ConvertUserParts(message.userContent.parts, detectMimeType))
    ensures message.AssistantMessage? ==>
              && r.LmAssistant?
              && (message.assistantContent.Str? ==> r.assistantParts == [AssistantText(message.assistantContent.text)])
              && (message.assistantContent.Parts? ==> r.assistantParts == RemoveEmptyText(message.assistantContent.parts))
  {
    match message
    case SystemMessage(content) => LmSystem(content)
    case UserMessage(content) =>
      (match content
       case Str(text) => LmUser([UserText(text)])
       case Parts(parts) => LmUser(ConvertUserParts(parts, detectMimeType)))
    case AssistantMessage(content) =>
      (match content
       case Str(text) => LmAssistant([AssistantText(text)])
       case Parts(parts) =>
         LmAssistant(RemoveEmptyText(parts)))
    case ToolMessage(content) => LmTool(content)
  }

  /** A converted user image keeps its data, and its MIME type is the declared
      one when there is one; only byte images fall back to detection. */
  lemma ConvertUserImage(part: UserPart, detectMimeType: seq<bv8> -> Option<string>)
    requires part.UserImage?
    ensures ConvertUserPart(part, detectMimeType).UserImage?
    ensures ConvertUserPart(part, detectMimeType).image == part.image
    ensures part.mimeType.Some? ==> ConvertUserPart(part, detectMimeType).mimeType == part.mimeType
    ensures part.mimeType.None? && part.image.ImageBytes? ==>
              ConvertUserPart(part, detectMimeType).mimeType == detectMimeType(part.image.bytes)
    ensures part.image.ImageUrl? ==> ConvertUserPart(part, detectMimeType) == part
  {
  }

  function ConvertMessages(ms: seq<CoreMessage>, detectMimeType: seq<bv8> -> Option<string>): (r: seq<LanguageModelMessage>)
    ensures |r| == |ms|
    ensures forall i :: 0 <= i < |ms| ==> r[i] == ConvertToLanguageModelMessage(ms[i], detectMimeType)
  {
    if |ms| == 0 then []
    else [ConvertToLanguageModelMessage(ms[0], detectMimeType)] + ConvertMessages(ms[1..], detectMimeType)
  }

  /** `convertToLanguageModelPrompt`: the optional system message, then either
      one user message holding the prompt text or one converted message per
      input message, in order. */
  function ConvertToLanguageModelPrompt(prompt: ValidatedPrompt, detectMimeType: seq<bv8> -> Option<string>): (r: seq<LanguageModelMessage>)
    ensures prompt.system.Some? ==> |r| > 0 && r[0] == LmSystem(Str(prompt.system.value))
    ensures prompt.TextPrompt? ==>
              |r| == (if prompt.system.Some? then 2 else 1) &&
              r[|r| - 1] == LmUser([UserText(prompt.prompt)])
    ensures prompt.MessagesPrompt? ==>
              var offset := if prompt.system.Some? then 1 else 0;
              |r| == offset + |prompt.messages| &&
              forall i :: 0 <= i < |prompt.messages| ==>
                r[offset + i] == ConvertToLanguageModelMessage(prompt.messages[i], detectMimeType)
  {
    var head := if prompt.system.Some? then [LmSystem(Str(prompt.system.value))] else [];
    match prompt
    case TextPrompt(text, _) => head + [LmUser([UserText(text)])]
    case MessagesPrompt(messages, _) => head + ConvertMessages(messages, detectMimeType)
  }

  /** Without a system prompt the first message comes from the prompt itself:
      a system message leads the output only if the caller gave `system` or
      the first input message is one. */
  lemma LeadingSystemMessage(prompt: ValidatedPrompt, detectMimeType: seq<bv8> -> Option<string>)
    ensures var r := ConvertToLanguageModelPrompt(prompt, detectMimeType);
            (|r| > 0 && r[0].LmSystem?) <==>
              (prompt.system.Some? ||
               (prompt.MessagesPrompt? && |prompt.messages| > 0 && prompt.messages[0].SystemMessage?))
  {
    var r := ConvertToLanguageModelPrompt(prompt, detectMimeType);
    if prompt.system.None? && prompt.MessagesPrompt? && |prompt.messages| > 0 {
      assert r[0] == ConvertToLanguageModelMessage(prompt.messages[0], detectMimeType);
    }
  }
}

=== FILE: response_messages.dfy ===
/** `toResponseMessages`: the messages a step of `generateText` appends to the
    conversation, an assistant message with the step's text and tool calls and,
    when any tool produced a result, a tool message with the results. */
module ResponseMessages {
  import opened Wrappers
  import opened CoreTypes
  import opened Prompt

  function ToolCallPart(call: ToolCall): AssistantPart {
    AssistantToolCall(call.toolCallId, call.toolName, call.args)
  }

  function ToolCallParts(calls: seq<ToolCall>): (r: seq<AssistantPart>)
    ensures |r| == |calls|
    ensures forall i :: 0 <= i < |calls| ==> r[i] == ToolCallPart(calls[i])
  {
    if |calls| == 0 then [] else [ToolCallPart(calls[0])] + ToolCallParts(calls[1..])
  }

  function ToolResultContent(result: ToolResult): ToolResultPart {
    ToolResultPart(result.toolCallId, result.toolName, result.result)
  }

  function ToolResultParts(results: seq<ToolResult>): (r: seq<ToolResultPart>)
    ensures |r| == |results|
    ensures forall i :: 0 <= i < |results| ==> r[i] == ToolResultContent(results[i])
  {
    if |results| == 0 then [] else [ToolResultContent(results[0])] + ToolResultParts(results[1..])
  }

  /** `toResponseMessages`. An absent text becomes the empty string. */
  function ToResponseMessages(text: Option<string>, toolCalls: seq<ToolCall>, toolResults: seq<ToolResult>): (r: seq<CoreMessage>)
    ensures |r| == (if |toolResults| > 0 then 2 else 1)
    ensures r[0].AssistantMessage? && r[0].assistantContent.Parts?
    ensures var parts := r[0].assistantContent.parts;
            && |parts| == 1 + |toolCalls|
            && parts[0] == AssistantText(text.GetOr(""))
            && forall i :: 0 <= i < |toolCalls| ==>
                 parts[1 + i] == AssistantToolCall(toolCalls[i].toolCallId, toolCalls[i].toolName, toolCalls[i].args)
    ensures |toolResults| > 0 ==>
              && r[1].ToolMessage?
              && |r[1].toolContent| == |toolResults|
              && forall i :: 0 <= i < |toolResults| ==>
                   r[1].toolContent[i] == ToolResultPart(toolResults[i].toolCallId, toolResults[i].toolName, toolResults[i].result)
  {
    var assistant := AssistantMessage(Parts([AssistantText(text.GetOr(""))] + ToolCallParts(toolCalls)));
    if |toolResults| > 0 then [assistant, ToolMessage(ToolResultParts(toolResults))] else [assistant]
  }

  /** Every tool result part's id names one of the step's tool calls, provided
      every result answers a call of that step. */
  lemma ResultsReferenceCalls(text: Option<string>, toolCalls: seq<ToolCall>, toolResults: seq<ToolResult>)
    requires forall j :: 0 <= j < |toolResults| ==>
               exists i :: 0 <= i < |toolCalls| && toolCalls[i].toolCallId == toolResults[j].toolCallId
    requires |toolResults| > 0
    ensures var r := ToResponseMessages(text, toolCalls, toolResults);
            forall j :: 0 <= j < |r[1].toolContent| ==>
              exists k :: 1 <= k < |r[0].assistantContent.parts| &&
                r[0].assistantContent.parts[k].AssistantToolCall? &&
                r[0].assistantContent.parts[k].toolCallId == r[1].toolContent[j].toolCallId
  {
    var r := ToResponseMessages(text, toolCalls, toolResults);
    forall j | 0 <= j < |r[1].toolContent|
      ensures exists k :: 1 <= k < |r[0].assistantContent.parts| &&
                r[0].assistantContent.parts[k].AssistantToolCall? &&
                r[0].assistantContent.parts[k].toolCallId == r[1].toolContent[j].toolCallId
    {
      var i :| 0 <= i < |toolCalls| && toolCalls[i].toolCallId == toolResults[j].toolCallId;
      assert r[0].assistantContent.parts[1 + i].toolCallId == r[1].toolContent[j].toolCallId;
    }
  }
}

=== FILE: tool_stream.dfy ===
/** `runToolsTransformation`: the merge of a provider's stream with the
    results of the tools it calls. Upstream chunks pass through a forward
    transform; tool calls start executions whose completions arrive later on a
    second, results side; the merged stream closes when the results side does.
    The asynchrony is modelled as a sequence of events: an upstream chunk, the
    upstream flush, or the completion of one execution, in any interleaving. */
module ToolStream {
  import opened Wrappers
  import opened CoreTypes

  /** A registered tool; only whether it has `execute` matters here. */
  datatype StreamTool = StreamTool(hasExecute: bool)

  /** `SingleRequestTextStreamPart`. */
  datatype OutPart =
    | OutTextDelta(textDelta: string)
    | OutToolCall(call: ToolCall)
    | OutStreamingStart(toolCallId: string, toolName: string)
    | OutToolCallDelta(toolCallId: string, toolName: string, argsTextDelta: string)
    | OutToolResult(result: ToolResult)
    | OutResponseMetadata(id: Option<string>, timestamp: Option<int>, modelId: Option<string>)
    | OutFinish(finishReason: FinishReason, usage: Usage, providerMetadata: Option<Json>)
    | OutError(error: ErrorValue)

  /** Which of the two merged streams a part was enqueued on. */
  datatype Side = Forward | Results

  datatype Emitted = Emitted(side: Side, part: OutPart)

  /** The settings of one merge. `parse` is `parseToolCall`, applied to the
      call id, tool name and argument text; a failure is the error it throws. */
  datatype MergeConfig = MergeConfig(
    tools: Option<map<string, StreamTool>>,
    toolCallStreaming: bool,
    parse: (string, string, string) -> Result<ToolCall, ErrorValue>)

  /** The transformation's variables. Execution ids come from a counter, which
      gives the uniqueness `generateId` is used for; `pending` maps each
      outstanding execution id to the parsed call it runs. */
  datatype MergeState = MergeState(
    activeToolCalls: set<string>,
    pending: map<nat, ToolCall>,
    nextId: nat,
    canClose: bool,
    closed: bool)

  const InitialState := MergeState({}, map[], 0, false, false)

  datatype Event =
    | Chunk(part: StreamPart)
    | Flush
    | Complete(executionId: nat, outcome: Result<Json, Json>)

  datatype StepOut = StepOut(state: MergeState, out: seq<Emitted>)

  /** Chunks the forward transform passes on unchanged. */
  predicate IsPassThrough(part: StreamPart) {
    part.TextDeltaPart? || part.ResponseMetadataPart? || part.ErrorPart?
  }

  /** The output form of a pass-through chunk. */
  function PassThrough(part: StreamPart): OutPart
    requires IsPassThrough(part)
  {
    match part
    case TextDeltaPart(d) => OutTextDelta(d)
    case ResponseMetadataPart(id, ts, m) => OutResponseMetadata(id, ts, m)
    case ErrorPart(e) => OutError(e)
  }

  /** The forward transform and the tool-call dispatch for one upstream chunk. */
  function OnChunk(cfg: MergeConfig, st: MergeState, part: StreamPart): (r: StepOut)
    ensures IsPassThrough(part) ==> r == StepOut(st, [Emitted(Forward, PassThrough(part))])
    ensures part.ToolCallDeltaPart? && !cfg.toolCallStreaming ==> r == StepOut(st, [])
    ensures part.ToolCallDeltaPart? && cfg.toolCallStreaming ==>
              && r.state == st.(activeToolCalls := st.activeToolCalls + {part.toolCallId})
              && r.out == (if part.toolCallId in st.activeToolCalls then []
                           else [Emitted(Forward, OutStreamingStart(part.toolCallId, part.toolName))]) +
                          [Emitted(Forward, OutToolCallDelta(part.toolCallId, part.toolName, part.argsTextDelta))]
    ensures part.ToolCallPart? && cfg.tools.None? ==>
              r == StepOut(st, [Emitted(Results, OutError(NoSuchToolError(part.toolName, None)))])
    ensures part.ToolCallPart? && cfg.tools.Some? && part.toolName !in cfg.tools.value ==>
              r == StepOut(st, [Emitted(Results, OutError(NoSuchToolError(part.toolName, Some(cfg.tools.value.Keys))))])
    ensures part.ToolCallPart? && cfg.tools.Some? && part.toolName in cfg.tools.value ==>
              var parsed := cfg.parse(part.toolCallId, part.toolName, part.args);
              && (parsed.Failure? ==> r == StepOut(st, [Emitted(Results, OutError(parsed.error))]))
              && (parsed.Success? ==>
                    && r.out == [Emitted(Forward, OutToolCall(parsed.value))]
                    && (cfg.tools.value[part.toolName].hasExecute ==>
                          r.state == st.(pending := st.pending[st.nextId := parsed.value], nextId := st.nextId + 1))
                    && (!cfg.tools.value[part.toolName].hasExecute ==> r.state == st))
    ensures part.FinishPart? ==>
              r == StepOut(st, [Emitted(Forward, OutFinish(part.finishReason, CalculateUsage(part.usage), part.providerMetadata))])
  {
    match part
    case TextDeltaPart(_) => StepOut(st, [Emitted(Forward, PassThrough(part))])
    case ResponseMetadataPart(_, _, _) => StepOut(st, [Emitted(Forward, PassThrough(part))])
    case ErrorPart(_) => StepOut(st, [Emitted(Forward, PassThrough(part))])
    case ToolCallDeltaPart(id, name, delta) =>
      if !cfg.toolCallStreaming then StepOut(st, [])
      else
        var start := if id in st.activeToolCalls then [] else [Emitted(Forward, OutStreamingStart(id, name))];
        StepOut(st.(activeToolCalls := st.activeToolCalls + {id}),
                start + [Emitted(Forward, OutToolCallDelta(id, name, delta))])
    case ToolCallPart(id, name, args) =>
      if cfg.tools.None? then StepOut(st, [Emitted(Results, OutError(NoSuchToolError(name, None)))])
      else if name !in cfg.tools.value then
        StepOut(st, [Emitted(Results, OutError(NoSuchToolError(name, Some(cfg.tools.value.Keys))))])
      else
        (match cfg.parse(id, name, args)
         case Failure(e) => StepOut(st, [Emitted(Results, OutError(e))])
         case Success(call) =>
           if cfg.tools.value[name].hasExecute then
             StepOut(st.(pending := st.pending[st.nextId := call], nextId := st.nextId + 1),
                     [Emitted(Forward, OutToolCall(call))])
           else StepOut(st, [Emitted(Forward, OutToolCall(call))]))
    case FinishPart(reason, usage, metadata) =>
      StepOut(st, [Emitted(Forward, OutFinish(reason, CalculateUsage(usage), metadata))])
  }

  /** Closing the results side once upstream has flushed and nothing is
      outstanding. */
  function CloseIfDone(st: MergeState): (r: MergeState)
    ensures r == st.(closed := st.closed || (st.canClose && |st.pending| == 0))
  {
    if st.canClose && |st.pending| == 0 then st.(closed := true) else st
  }

  /** One event. Chunks after the flush and completions of unknown executions
      cannot occur in the source; here they change nothing. */
  function Step(cfg: MergeConfig, st: MergeState, ev: Event): (r: StepOut)
    ensures ev.Chunk? && !st.canClose ==> r == OnChunk(cfg, st, ev.part)
    ensures ev.Flush? ==> r.out == [] && r.state == st.(canClose := true, closed := st.closed || |st.pending| == 0)
    ensures ev.Complete? && ev.executionId in st.pending ==>
              var call := st.pending[ev.executionId];
              && r.state.pending == st.pending - {ev.executionId}
              && r.state.pending.Keys == st.pending.Keys - {ev.executionId}
              && r.state.activeToolCalls == st.activeToolCalls && r.state.nextId == st.nextId
              && r.state.canClose == st.canClose
              && r.state.closed == (st.closed || (st.canClose && |st.pending| == 1))
              && r.out == [Emitted(Results,
                                   match ev.outcome
                                   case Success(v) => OutToolResult(ToolResult(call.toolCallId, call.toolName, call.args, v))
                                   case Failure(e) => OutError(Thrown(e)))]
    ensures (ev.Chunk? && st.canClose) || (ev.Complete? && ev.executionId !in st.pending) ==> r == StepOut(st, [])
  {
    match ev
    case Chunk(part) => if st.canClose then StepOut(st, []) else OnChunk(cfg, st, part)
    case Flush => StepOut(CloseIfDone(st.(canClose := true)), [])
    case Complete(xid, outcome) =>
      if xid !in st.pending then StepOut(st, [])
      else
        var call := st.pending[xid];
        var part := match outcome
                    case Success(v) => OutToolResult(ToolResult(call.toolCallId, call.toolName, call.args, v))
                    case Failure(e) => OutError(Thrown(e));
        assert |st.pending - {xid}| == |st.pending| - 1;
        StepOut(CloseIfDone(st.(pending := st.pending - {xid})), [Emitted(Results, part)])
  }

  /** The merged stream for an interleaving of events: the final state and
      every part enqueued, in order. */
  function Run(cfg: MergeConfig, st: MergeState, events: seq<Event>): StepOut
    decreases |events|
  {
    if |events| == 0 then StepOut(st, [])
    else
      var first := Step(cfg, st, events[0]);
      var rest := Run(cfg, first.state, events[1..]);
      StepOut(rest.state, first.out + rest.out)
  }

  /** The merge reads its events one at a time: running two batches back to
      back is running them together, whatever the split. */
  lemma {:induction false} RunAppend(cfg: MergeConfig, st: MergeState, a: seq<Event>, b: seq<Event>)
    ensures var ra := Run(cfg, st, a);
            var rb := Run(cfg, ra.state, b);
            Run(cfg, st, a + b) == StepOut(rb.state, ra.out + rb.out)
    decreases |a|
  {
    if |a| == 0 {
      assert a + b == b;
    } else {
      assert (a + b)[0] == a[0];
      assert (a + b)[1..] == a[1..] + b;
      var first := Step(cfg, st, a[0]);
      RunAppend(cfg, first.state, a[1..], b);
      var ra' := Run(cfg, first.state, a[1..]);
      var rb := Run(cfg, ra'.state, b);
      ConcatAssoc(first.out, ra'.out, rb.out);
    }
  }

  // ---------------------------------------------------------------------
  // the close rule

  /** Execution ids are fresh, and the results side is closed exactly when
      upstream has flushed and no execution is outstanding. */
  ghost predicate MergeInv(st: MergeState) {
    && (forall xid :: xid in st.pending ==> xid < st.nextId)
    && (st.closed <==> st.canClose && |st.pending| == 0)
  }

  lemma InitialInv()
    ensures MergeInv(InitialState) && !InitialState.closed
  {
  }

  lemma StepPreservesInv(cfg: MergeConfig, st: MergeState, ev: Event)
    requires MergeInv(st)
    ensures MergeInv(Step(cfg, st, ev).state)
    ensures Step(cfg, st, ev).state.nextId >= st.nextId
  {
  }

  /** Every interleaving keeps the invariant: the merged stream, which closes
      with the results side, closes only after the flush with nothing
      outstanding, and then at once. */
  lemma {:induction false} RunPreservesInv(cfg: MergeConfig, st: MergeState, events: seq<Event>)
    requires MergeInv(st)
    ensures MergeInv(Run(cfg, st, events).state)
    decreases |events|
  {
    if |events| > 0 {
      StepPreservesInv(cfg, st, events[0]);
      RunPreservesInv(cfg, Step(cfg, st, events[0]).state, events[1..]);
    }
  }

  /** Once the merged stream is closed nothing more is enqueued and it stays
      closed, whatever events still arrive. */
  lemma {:induction false} ClosedIsFinal(cfg: MergeConfig, st: MergeState, events: seq<Event>)
    requires MergeInv(st) && st.closed
    ensures Run(cfg, st, events) == StepOut(st, [])
    decreases |events|
  {
    if |events| > 0 {
      ClosedIsFinal(cfg, Step(cfg, st, events[0]).state, events[1..]);
    }
  }

  /** Each execution completes at most once: its completion removes its own id,
      so a second completion of the same id changes nothing. */
  lemma CompletionOnce(cfg: MergeConfig, st: MergeState, xid: nat, o1: Result<Json, Json>, o2: Result<Json, Json>)
    requires xid in st.pending
    ensures var st' := Step(cfg, st, Complete(xid, o1)).state;
            xid !in st'.pending && Step(cfg, st', Complete(xid, o2)) == StepOut(st', [])
  {
  }

  // ---------------------------------------------------------------------
  // pass-through order

  /** The forward side's pass-through parts of an output. */
  function ForwardPassThrough(out: seq<Emitted>): seq<OutPart> {
    if |out| == 0 then []
    else
      var e := out[0];
      (if e.side == Forward && (e.part.OutTextDelta? || e.part.OutResponseMetadata? || e.part.OutError?) then [e.part] else []) +
      ForwardPassThrough(out[1..])
  }

  lemma {:induction false} ForwardPassThroughAppend(a: seq<Emitted>, b: seq<Emitted>)
    ensures ForwardPassThrough(a + b) == ForwardPassThrough(a) + ForwardPassThrough(b)
    decreases |a|
  {
    if |a| == 0 {
      assert a + b == b;
    } else {
      assert (a + b)[0] == a[0];
      assert (a + b)[1..] == a[1..] + b;
      ForwardPassThroughAppend(a[1..], b);
    }
  }

  /** The pass-through chunks upstream delivers before its flush, in their
      output form. */
  function UpstreamPassThrough(events: seq<Event>): seq<OutPart> {
    if |events| == 0 || events[0].Flush? then []
    else if events[0].Chunk? && IsPassThrough(events[0].part) then [PassThrough(events[0].part)] + UpstreamPassThrough(events[1..])
    else UpstreamPassThrough(events[1..])
  }

  lemma StepForwardPassThrough(cfg: MergeConfig, st: MergeState, ev: Event)
    requires !st.canClose
    ensures ForwardPassThrough(Step(cfg, st, ev).out) ==
              if ev.Chunk? && IsPassThrough(ev.part) then [PassThrough(ev.part)] else []
  {
    var out := Step(cfg, st, ev).out;
    if |out| == 2 {
      assert out == [out[0]] + [out[1]];
      ForwardPassThroughAppend([out[0]], [out[1]]);
      assert [out[0]][1..] == [] && [out[1]][1..] == [];
    } else if |out| == 1 {
      assert out[1..] == [];
    }
  }

  /** Text deltas, response metadata and upstream errors reach the forward
      side unchanged and in the order upstream sent them; nothing else on the
      forward side has their shape. */
  lemma {:induction false} PassThroughInOrder(cfg: MergeConfig, st: MergeState, events: seq<Event>)
    requires !st.canClose
    ensures ForwardPassThrough(Run(cfg, st, events).out) == UpstreamPassThrough(events)
    decreases |events|
  {
    if |events| > 0 {
      var first := Step(cfg, st, events[0]);
      var rest := Run(cfg, first.state, events[1..]);
      ForwardPassThroughAppend(first.out, rest.out);
      StepForwardPassThrough(cfg, st, events[0]);
      if events[0].Flush? {
        PassThroughAfterFlush(cfg, first.state, events[1..]);
      } else {
        assert !first.state.canClose;
        PassThroughInOrder(cfg, first.state, events[1..]);
      }
    }
  }

  /** After the flush nothing more passes through. */
  lemma {:induction false} PassThroughAfterFlush(cfg: MergeConfig, st: MergeState, events: seq<Event>)
    requires st.canClose
    ensures ForwardPassThrough(Run(cfg, st, events).out) == []
    decreases |events|
  {
    if |events| > 0 {
      var first := Step(cfg, st, events[0]);
      ForwardPassThroughAppend(first.out, Run(cfg, first.state, events[1..]).out);
      PassThroughAfterFlush(cfg, first.state, events[1..]);
    }
  }

  // ---------------------------------------------------------------------
  // streaming starts

  /** The ids of the streaming-start parts of an output. */
  function StartIds(out: seq<Emitted>): set<string> {
    if |out| == 0 then {}
    else (if out[0].part.OutStreamingStart? then {out[0].part.toolCallId} else {}) + StartIds(out[1..])
  }

  /** Every streaming start names a call not started before, and every tool
      call delta names a call already started; `active` are the calls started
      before `out`. */
  predicate StartsWellPlaced(out: seq<Emitted>, active: set<string>)
    decreases |out|
  {
    if |out| == 0 then true
    else
      var p := out[0].part;
      if p.OutStreamingStart? then p.toolCallId !in active && StartsWellPlaced(out[1..], active + {p.toolCallId})
      else (p.OutToolCallDelta? ==> p.toolCallId in active) && StartsWellPlaced(out[1..], active)
  }

  lemma {:induction false} StartsWellPlacedAppend(a: seq<Emitted>, b: seq<Emitted>, active: set<string>)
    requires StartsWellPlaced(a, active) && StartsWellPlaced(b, active + StartIds(a))
    ensures StartsWellPlaced(a + b, active)
    decreases |a|
  {
    if |a| == 0 {
      assert a + b == b;
      assert active + StartIds(a) == active;
    } else {
      assert (a + b)[0] == a[0];
      assert (a + b)[1..] == a[1..] + b;
      var p := a[0].part;
      if p.OutStreamingStart? {
        assert active + StartIds(a) == (active + {p.toolCallId}) + StartIds(a[1..]);
        StartsWellPlacedAppend(a[1..], b, active + {p.toolCallId});
      } else {
        assert StartIds(a) == StartIds(a[1..]);
        StartsWellPlacedAppend(a[1..], b, active);
      }
    }
  }

  lemma StepStarts(cfg: MergeConfig, st: MergeState, ev: Event)
    ensures var r := Step(cfg, st, ev);
            && StartsWellPlaced(r.out, st.activeToolCalls)
            && r.state.activeToolCalls == st.activeToolCalls + StartIds(r.out)
  {
    var r := Step(cfg, st, ev);
    if |r.out| == 2 {
      assert r.out == [r.out[0]] + [r.out[1]];
      StartIdsAppend([r.out[0]], [r.out[1]]);
      assert [r.out[0]][1..] == [] && [r.out[1]][1..] == [];
    } else if |r.out| == 1 {
      assert r.out[1..] == [];
    }
  }

  /** With tool call streaming on, each call id gets one streaming start, and
      it comes before the call's first delta; the active set is exactly the
      calls started so far. */
  lemma {:induction false} StreamingStartOncePerCall(cfg: MergeConfig, st: MergeState, events: seq<Event>)
    ensures var r := Run(cfg, st, events);
            && StartsWellPlaced(r.out, st.activeToolCalls)
            && r.state.activeToolCalls == st.activeToolCalls + StartIds(r.out)
    decreases |events|
  {
    if |events| > 0 {
      var first := Step(cfg, st, events[0]);
      var rest := Run(cfg, first.state, events[1..]);
      StepStarts(cfg, st, events[0]);
      StreamingStartOncePerCall(cfg, first.state, events[1..]);
      StartsWellPlacedAppend(first.out, rest.out, st.activeToolCalls);
      StartIdsAppend(first.out, rest.out);
    }
  }

  lemma {:induction false} StartIdsAppend(a: seq<Emitted>, b: seq<Emitted>)
    ensures StartIds(a + b) == StartIds(a) + StartIds(b)
    decreases |a|
  {
    if |a| == 0 {
      assert a + b == b;
    } else {
      assert (a + b)[0] == a[0];
      assert (a + b)[1..] == a[1..] + b;
      StartIdsAppend(a[1..], b);
    }
  }

  // ---------------------------------------------------------------------
  // results follow their calls

  /** Part `j` of `out` is a tool result, and an earlier part is the
      forwarded call it answers: same call id, tool name and arguments. */
  ghost predicate CallBefore(out: seq<Emitted>, j: nat)
    requires j < |out| && out[j].part.OutToolResult?
  {
    exists i :: 0 <= i < j && out[i].side == Forward && out[i].part.OutToolCall? &&
                out[i].part.call.toolCallId == out[j].part.result.toolCallId &&
                out[i].part.call.toolName == out[j].part.result.toolName &&
                out[i].part.call.args == out[j].part.result.args
  }

  /** Every tool result in `out` follows the call it answers. */
  ghost predicate ResultsFollowCallsIn(out: seq<Emitted>) {
    forall j :: 0 <= j < |out| && out[j].part.OutToolResult? ==> CallBefore(out, j)
  }

  /** `call` was forwarded somewhere in `out`. */
  ghost predicate Forwarded(out: seq<Emitted>, call: ToolCall) {
    exists i :: 0 <= i < |out| && out[i] == Emitted(Forward, OutToolCall(call))
  }

  /** Every outstanding execution runs a call already forwarded in `out`. */
  ghost predicate PendingForwarded(st: MergeState, out: seq<Emitted>) {
    forall xid :: xid in st.pending ==> Forwarded(out, st.pending[xid])
  }

  lemma ExtendKeepsOrder(prefix: seq<Emitted>, more: seq<Emitted>, st: MergeState)
    requires ResultsFollowCallsIn(prefix) && PendingForwarded(st, prefix)
    ensures forall j :: 0 <= j < |prefix| && prefix[j].part.OutToolResult? ==> CallBefore(prefix + more, j)
    ensures PendingForwarded(st, prefix + more)
  {
    var all := prefix + more;
    forall j | 0 <= j < |prefix| && prefix[j].part.OutToolResult?
      ensures CallBefore(all, j)
    {
      assert CallBefore(prefix, j);
      var i :| 0 <= i < j && prefix[i].side == Forward && prefix[i].part.OutToolCall? &&
               prefix[i].part.call.toolCallId == prefix[j].part.result.toolCallId &&
               prefix[i].part.call.toolName == prefix[j].part.result.toolName &&
               prefix[i].part.call.args == prefix[j].part.result.args;
      assert all[i] == prefix[i] && all[j] == prefix[j];
    }
    forall xid | xid in st.pending
      ensures Forwarded(all, st.pending[xid])
    {
      var i :| 0 <= i < |prefix| && prefix[i] == Emitted(Forward, OutToolCall(st.pending[xid]));
      assert all[i] == prefix[i];
    }
  }

  /** Parts that are not tool results keep every result after its call. */
  lemma NoResultKeepsOrder(prefix: seq<Emitted>, more: seq<Emitted>, st: MergeState)
    requires ResultsFollowCallsIn(prefix) && PendingForwarded(st, prefix)
    requires forall j :: 0 <= j < |more| ==> !more[j].part.OutToolResult?
    ensures ResultsFollowCallsIn(prefix + more)
  {
    ExtendKeepsOrder(prefix, more, st);
    var all := prefix + more;
    forall j | |prefix| <= j < |all|
      ensures !all[j].part.OutToolResult?
    {
      assert all[j] == more[j - |prefix|];
    }
  }

  /** The part a completion emits answers a call forwarded earlier. */
  lemma AnswerKeepsOrder(prefix: seq<Emitted>, st: MergeState, call: ToolCall, part: OutPart)
    requires ResultsFollowCallsIn(prefix) && PendingForwarded(st, prefix) && Forwarded(prefix, call)
    requires part.OutToolResult? ==>
               part.result.toolCallId == call.toolCallId && part.result.toolName == call.toolName &&
               part.result.args == call.args
    ensures ResultsFollowCallsIn(prefix + [Emitted(Results, part)])
  {
    var all := prefix + [Emitted(Results, part)];
    ExtendKeepsOrder(prefix, [Emitted(Results, part)], st);
    var i :| 0 <= i < |prefix| && prefix[i] == Emitted(Forward, OutToolCall(call));
    assert all[i] == prefix[i] && all[|prefix|] == Emitted(Results, part);
    if part.OutToolResult? {
      assert CallBefore(all, |prefix|);
    }
  }

  /** One event keeps both facts: the only result a step emits answers an
      outstanding execution, whose call was forwarded earlier, and the only
      execution a step adds runs the call that step forwards. */
  lemma StepKeepsOrder(cfg: MergeConfig, st: MergeState, ev: Event, prefix: seq<Emitted>)
    requires ResultsFollowCallsIn(prefix) && PendingForwarded(st, prefix)
    ensures var r := Step(cfg, st, ev);
            ResultsFollowCallsIn(prefix + r.out) && PendingForwarded(r.state, prefix + r.out)
  {
    var r := Step(cfg, st, ev);
    var all := prefix + r.out;
    ExtendKeepsOrder(prefix, r.out, st);
    if ev.Complete? && ev.executionId in st.pending {
      var call := st.pending[ev.executionId];
      assert r.out == [Emitted(Results, r.out[0].part)];
      AnswerKeepsOrder(prefix, st, call, r.out[0].part);
      PendingSubset(st, r.state, all);
    } else {
      assert forall j :: 0 <= j < |r.out| ==> !r.out[j].part.OutToolResult?;
      NoResultKeepsOrder(prefix, r.out, st);
      if ev.Chunk? && !st.canClose && ev.part.ToolCallPart? && cfg.tools.Some? &&
         ev.part.toolName in cfg.tools.value &&
         cfg.parse(ev.part.toolCallId, ev.part.toolName, ev.part.args).Success? &&
         cfg.tools.value[ev.part.toolName].hasExecute {
        var call := cfg.parse(ev.part.toolCallId, ev.part.toolName, ev.part.args).value;
        assert all[|prefix|] == Emitted(Forward, OutToolCall(call));
        PendingAdded(st, r.state, all, call);
      } else {
        assert r.state.pending == st.pending;
        PendingSubset(st, r.state, all);
      }
    }
  }

  lemma PendingSubset(st: MergeState, st': MergeState, out: seq<Emitted>)
    requires PendingForwarded(st, out)
    requires forall xid :: xid in st'.pending ==> xid in st.pending && st'.pending[xid] == st.pending[xid]
    ensures PendingForwarded(st', out)
  {
  }

  lemma PendingAdded(st: MergeState, st': MergeState, out: seq<Emitted>, call: ToolCall)
    requires PendingForwarded(st, out) && Forwarded(out, call)
    requires st'.pending == st.pending[st.nextId := call]
    ensures PendingForwarded(st', out)
  {
  }

  lemma {:induction false} RunKeepsOrder(cfg: MergeConfig, st: MergeState, events: seq<Event>, prefix: seq<Emitted>)
    requires ResultsFollowCallsIn(prefix) && PendingForwarded(st, prefix)
    ensures var r := Run(cfg, st, events);
            ResultsFollowCallsIn(prefix + r.out) && PendingForwarded(r.state, prefix + r.out)
    decreases |events|
  {
    if |events| == 0 {
      assert prefix + [] == prefix;
    } else {
      var first := Step(cfg, st, events[0]);
      var rest := Run(cfg, first.state, events[1..]);
      StepKeepsOrder(cfg, st, events[0], prefix);
      RunKeepsOrder(cfg, first.state, events[1..], prefix + first.out);
      ConcatAssoc(prefix, first.out, rest.out);
    }
  }

  /** A tool result is never enqueued before the call it answers: whatever
      the interleaving, each result follows the forwarded call with the same
      id, tool name and arguments. */
  lemma ResultsFollowCalls(cfg: MergeConfig, events: seq<Event>)
    ensures ResultsFollowCallsIn(Run(cfg, InitialState, events).out)
  {
    RunKeepsOrder(cfg, InitialState, events, []);
    assert [] + Run(cfg, InitialState, events).out == Run(cfg, InitialState, events).out;
  }
}

=== FILE: vertex.dfy ===
/** `mapGoogleVertexFinishReason`: how Vertex AI's finish reasons become the
    SDK's finish reasons. */
module Vertex {
  import opened Wrappers
  import opened CoreTypes

  predicate IsContentFilterReason(reason: string) {
    reason == "BLOCKLIST" || reason == "PROHIBITED_CONTENT" || reason == "SPII" ||
    reason == "RECITATION" || reason == "SAFETY"
  }

  predicate IsOtherReason(reason: string) {
    reason == "FINISH_REASON_UNSPECIFIED" || reason == "OTHER"
  }

  /** An absent reason (`undefined`) and every reason outside the table map to
      `Unknown`. */
  function MapGoogleVertexFinishReason(finishReason: Option<string>, hasToolCalls: bool): (r: FinishReason)
    ensures finishReason == Some("STOP") ==> r == (if hasToolCalls then ToolCalls else Stop)
    ensures finishReason == Some("MAX_TOKENS") ==> r == Length
    ensures finishReason.Some? && IsContentFilterReason(finishReason.value) ==> r == ContentFilter
    ensures finishReason.Some? && IsOtherReason(finishReason.value) ==> r == Other
    ensures finishReason.None? ==> r == Unknown
    ensures r == Unknown <==>
              finishReason.None? ||
              (finishReason.value != "STOP" && finishReason.value != "MAX_TOKENS" &&
               !IsContentFilterReason(finishReason.value) && !IsOtherReason(finishReason.value))
    ensures r != Error
  {
    if finishReason.None? then Unknown
    else
      var reason := finishReason.value;
      if reason == "STOP" then (if hasToolCalls then ToolCalls else Stop)
      else if reason == "MAX_TOKENS" then Length
      else if IsContentFilterReason(reason) then ContentFilter
      else if IsOtherReason(reason) then Other
      else Unknown
  }

  /** The tool-call flag matters only for `STOP`, and only `STOP` with tool
      calls yields `ToolCalls`. */
  lemma HasToolCallsOnlyAffectsStop(finishReason: Option<string>)
    ensures finishReason != Some("STOP") ==>
              MapGoogleVertexFinishReason(finishReason, true) == MapGoogleVertexFinishReason(finishReason, false)
    ensures forall flag: bool :: MapGoogleVertexFinishReason(finishReason, flag) == ToolCalls <==>
              finishReason == Some("STOP") && flag
  {
  }
}

=== FILE: wrappers.dfy ===
/** Option and Result, the two failure-carrying shapes the model uses in place
    of `undefined` and of thrown errors. */
module Wrappers {

  datatype Option<+T> = None | Some(value: T) {

    /** The value, or `default` when absent (the `??` operator). */
    function GetOr(default: T): T {
      match this
      case Some(v) => v
      case None => default
    }
  }

  /** `Failure` stands for an exception the source throws. */
  datatype Result<+R, +E> = Success(value: R) | Failure(error: E) {

    predicate IsFailure() {
      Failure?
    }

    function PropagateFailure<U>(): Result<U, E>
      requires Failure?
    {
      Failure(error)
    }

    function Extract(): R
      requires Success?
    {
      value
    }
  }
}
